=== FILE: README.md ===
# Progress Clocks — a Dafny model of its state logic

Progress Clocks is a Tkinter desktop app for tabletop games. It keeps
segmented "progress clocks" on tabs. This project models the state logic
behind its widgets as pure transitions over immutable records, and proves
what those transitions keep, undo and restore.

- **Danger dial** (`DangerClockFrame`, module `DangerClock`, dial.dfy). A circle of `segments` wedges.
  - Its state is a `filled: seq<bool>` and a `labels: seq<string>`, both kept at length `segments`.
  - Covered: the prefix fill, resizing, increase/decrease/reset, and explicit clicks on a wedge.
  - Also covered: completion, `last_filled_index`, the angle→wedge step, the dark-mode fill swap, and `to_dict`/`from_dict`.
- **Racing and linked groups** (`RacingClocksFrame`, `LinkedClocksFrame`, module `Groups`, groups.dfy).
  - Both groups hold 2..6 dials that share one segment count and one dark-mode flag.
  - The linked group adds one countdown timer per dial. These are validated all-or-nothing.
  - A 250 ms tick fills the *active* dial (the first incomplete one) in proportion to its elapsed time.
  - Also covered: start/stop, reset-all with its "clear" answer, the HH:MM:SS entry parser, the remaining-time overlay, serial clicks, shared settings, and save/restore.
- **Helpers** (module `Helpers`, helpers.dfy): `_next_numbered_title`, `_short_title`, `_center_geometry_on_rect`, `_hex_to_rgb`.
- **v1 app** (Progress_Clocks_v1.0.0.py).
  - The count clock (`ClockFrame`, module `CountClock`, counter.dfy): an integer counter.
  - The linear tug-of-war track (`TugOfWarLinearFrame`, module `TugOfWar`, tug.dfy):
    - ownership in [-1, teams), team-count and segment resizing, and owner cycling and unclaiming;
    - the winner rule, the once-per-all-owned tally popup, the label-visibility rule, and the normalisation of `from_dict`.
  - In v1 nothing calls either frame's `from_dict`: a session load (Progress_Clocks_v1.0.0.py:1003-1029) rebuilds every tab through its constructor, modelled by CountClock.NewCounter and TugOfWar.NewTrack. The two `from_dict` defects under "## Findings" are therefore latent.
- **Theme** (module `Theme`, theme.dfy): the `_on_theme_changed` rule. A default black/white fill flips with dark mode; a custom colour stays.
- **PyLib** (pylib.dfy): the Python built-ins the code relies on.
  - It covers slicing and `[x] * k` with negative counts, `strip`, ASCII `lower`, and `split`.
  - It also covers `int()` in bases 10 and 16, `str(int)`, and `:02d`.

Tk variables are plain fields. Every event handler is a function from the old state to the new one. Dialogs (a yes/no answer, the text typed into an entry) become parameters.

## Model

| member | source | states |
|---|---|---|
| PyLib.Take | progress_clocks.py:842 | A Python slice `s[:k]`: length `min(k, len)` for k >= 0 and `len + k` (not below 0) for negative k, always a prefix of s |
| PyLib.Repeat | progress_clocks.py:847 | `[x] * k` has `max(0, k)` elements, all equal to x |
| PyLib.Strip | progress_clocks.py:1481 | The stripped text is empty or starts and ends with a non-space character |
| PyLib.StripRemovesSpace | progress_clocks.py:1481 | `strip` removes only whitespace, from the front and the back, and keeps the middle of the text in place |
| PyLib.Split | progress_clocks.py:1486 | `str.split(sep)` gives at least one piece, no piece holds the separator, and joining the pieces with it gives the text back |
| PyLib.IntRoundTrip | progress_clocks.py:104 | `int(str(i)) == i` for every integer, negative ones included |
| PyLib.ParseDigits | progress_clocks.py:1488 | `int(s)` of a non-empty run of ASCII digits is its decimal value |
| PyLib.Pad2 | progress_clocks.py:1407 | `f"{n:02d}"` is at least two ASCII digits whose decimal value is n |
| Theme.SwapDefaultFill | snippits/dark_mode.py:4-31 | The hook's result is the old fill, black or white, and nothing else |
| Theme.DefaultsFlip | snippits/dark_mode.py:12-25 | Entering dark mode turns "#000000"/"black" (any case) into "#FFFFFF"; leaving it turns "#ffffff"/"white" (any case) into "#000000" |
| Theme.CustomColourKept | snippits/dark_mode.py:7-10 | A fill that is neither default, including the empty string, is untouched in both directions |
| Theme.TargetDefaultKept | snippits/dark_mode.py:14-25 | Entering dark mode leaves a white fill alone, and entering light mode leaves a black fill alone |
| Theme.SwapIdempotent | snippits/dark_mode.py:4-31 | Running the hook twice for the same mode equals running it once |
| Theme.DarkThenLightRestoresBlack | snippits/dark_mode.py:4-31 | Default black survives a trip into dark mode and back |
| DangerClock.FillPattern | progress_clocks.py:844-847 | `_set_fill_count(n)` has length `segments`, is the prefix pattern of n, and holds `clamp(n, 0, segments)` true entries |
| DangerClock.PrefixFillCount | progress_clocks.py:844-847 | A prefix pattern of n holds exactly n true entries |
| DangerClock.PrefixFillUnique | progress_clocks.py:844-847 | Two equal-length prefix patterns of the same n are equal |
| DangerClock.ResizeTo | progress_clocks.py:835-858 | The resize keeps every entry below `min(old, k)`, pads with the pad value to exactly k, and acts as a Python slice for negative k |
| DangerClock.ResizeIdempotent | progress_clocks.py:835-858 | Resizing twice to the same length equals resizing once |
| DangerClock.SetSegments | progress_clocks.py:557-562 | After a segment-count change, fill and labels have the new length, keep their old entries below it, and pad with unfilled wedges and empty labels; nothing else changes |
| DangerClock.ResizeThereAndBack | progress_clocks.py:835-858 | Shrinking and growing again keeps the entries below the smaller size and clears the rest |
| DangerClock.Increase | progress_clocks.py:564-569 | Below the segment count, increase rewrites the fill as the prefix of `count + 1`; at or above it, nothing changes; only the fill is touched |
| DangerClock.Decrease | progress_clocks.py:571-576 | Above zero, decrease rewrites the fill as the prefix of `count - 1`; at zero, nothing changes |
| DangerClock.Reset | progress_clocks.py:578-581 | Reset leaves `segments` unfilled wedges and nothing else changed |
| DangerClock.DecreaseUndoesIncrease | progress_clocks.py:564-576 | On a prefix fill below full, decrease undoes increase |
| DangerClock.IncreaseUndoesDecrease | progress_clocks.py:564-576 | On a non-empty prefix fill, increase undoes decrease |
| DangerClock.IncreaseTimesFromReset | progress_clocks.py:564-581 | k increases after a reset give the prefix of `min(k, segments)` |
| DangerClock.ClickFill | progress_clocks.py:484-490 | A left click sets exactly the clicked wedge and changes no other |
| DangerClock.ClickClear | progress_clocks.py:491-496 | A right click clears exactly the clicked wedge and changes no other |
| DangerClock.ClicksUndoEachOther | progress_clocks.py:484-496 | A fill click and a clear click on the same wedge undo each other |
| DangerClock.CompleteIffAllFilled | progress_clocks.py:466-467 | A well-sized dial is complete exactly when every wedge is filled |
| DangerClock.LastFilledIndex | progress_clocks.py:469-472 | `last_filled_index` as written: None exactly when nothing is filled, otherwise an index inside the dial |
| DangerClock.LastFilledIndexMissesGaps | progress_clocks.py:469-472 | For the fill [false, true], the method as written answers 0, an unfilled wedge |
| DangerClock.HighestFilledIndex | progress_clocks.py:469-472 | The corrected answer is a filled index with nothing filled above it, and None exactly when no wedge is filled |
| DangerClock.LastFilledIndexOnPrefix | progress_clocks.py:469-472 | On a prefix fill the written and the corrected answers agree |
| DangerClock.SegmentAt | progress_clocks.py:498-542 | A click outside the radius, or on a dial without segments, hits nothing; otherwise it hits the wedge `floor(angle / (360 / n))`, clamped into [0, n) |
| DangerClock.WedgeBounds | progress_clocks.py:534-542 | For an angle in [0, 360) the computed wedge is the one whose arc contains it |
| DangerClock.NewDial | progress_clocks.py:389-402 | A new dial has the prefix fill of the requested count, empty labels, and the theme's default fill when none is given |
| DangerClock.SetDarkMode | progress_clocks.py:741-768 | Setting the mode flips a default fill and keeps a custom one, and changes nothing else |
| DangerClock.ToDict | progress_clocks.py:778-790 | The saved dict holds the fill count, the fill list and every label |
| DangerClock.FromDict | progress_clocks.py:792-832 | The restore behaves as follows: segments default to 4; a non-empty saved fill list is cut or padded with False; otherwise the legacy count gives a prefix; labels are cut or padded with "" and None reads ""; dark mode defaults to off; a saved fill colour is kept, and a missing one is the current colour after the dark-mode hook for the restored mode |
| DangerClock.MissingFillFollowsTheme | progress_clocks.py:796-797 | Without a saved fill colour, a default black dial restored into dark mode comes back white, a default white one restored into light mode comes back black, and a custom colour is kept |
| DangerClock.RoundTrip | progress_clocks.py:778-832 | Saving a well-sized dial and restoring it gives the same dial |
| DangerClock.LegacyCountRestoresPrefix | progress_clocks.py:805-814 | A save holding only the legacy count restores a prefix fill exactly |
| CountClock.NewCounter | Progress_Clocks_v1.0.0.py:188-193 | The constructor stores the fill unclamped; the counter is in bounds exactly when the given fill is |
| CountClock.Increase | Progress_Clocks_v1.0.0.py:262-265 | Increase adds one below the segment count, otherwise changes nothing, and keeps the counter in bounds |
| CountClock.Decrease | Progress_Clocks_v1.0.0.py:267-270 | Decrease subtracts one above zero, otherwise changes nothing, and keeps the counter in bounds |
| CountClock.Reset | Progress_Clocks_v1.0.0.py:272-274 | Reset sets the fill to 0 |
| CountClock.SetSegments | Progress_Clocks_v1.0.0.py:257-260 | A segment change cuts a larger fill down to the new count and keeps a smaller one |
| CountClock.IncreaseDecreaseInverse | Progress_Clocks_v1.0.0.py:262-270 | Increase and decrease undo each other whenever the first one moved |
| CountClock.IncreaseTimesSaturates | Progress_Clocks_v1.0.0.py:262-265 | k increases reach `min(filled + k, segments)` |
| CountClock.DecreaseTimesLowers | Progress_Clocks_v1.0.0.py:267-270 | k decreases from a fill of at least k lower it by exactly k, so an unclamped fill is brought back by decreases alone |
| CountClock.ToDict | Progress_Clocks_v1.0.0.py:379-388 | The save holds the segment count and the fill, both present |
| CountClock.FromDict | Progress_Clocks_v1.0.0.py:390-395 | `from_dict` takes a saved segment count and fill as they are, the fill unclamped, and defaults to four segments and an empty fill |
| CountClock.SessionLoadAgrees | Progress_Clocks_v1.0.0.py:1013-1019 | A session load, which builds the clock through the constructor with the same defaults, gives the counter `from_dict` would |
| CountClock.RoundTrip | Progress_Clocks_v1.0.0.py:379-395 | Saving a counter and restoring it gives it back, whether in bounds or not |
| CountClock.RestoredOverfillLowers | Progress_Clocks_v1.0.0.py:390-395 | A saved fill above the segment count comes back out of bounds, and `filled - segments` decreases bring it back to exactly full |
| Groups.DialCountFor | progress_clocks.py:988 | The dial count is the request clamped into [2, 6] |
| Groups.GroupDial | progress_clocks.py:1012-1025 | A dial added to a group follows the shared segment count and mode, and starts empty |
| Groups.NewRacing | progress_clocks.py:988-990 | A new racing group is valid and has the clamped number of dials |
| Groups.RacingAddDial | progress_clocks.py:1012-1025 | Adding a dial stops at 6 and keeps the existing dials |
| Groups.RacingRemoveDial | progress_clocks.py:1062-1071 | Removing a dial stops at 2 and drops only the last dial |
| Groups.RacingResetAll | progress_clocks.py:1006-1008 | Reset-all empties every dial and keeps the group valid |
| Groups.RacingAddThenRemove | progress_clocks.py:1012-1071 | Below 6 dials, remove undoes add |
| Groups.ValidUpdate | progress_clocks.py:1336-1343 | Replacing one dial's fill and elapsed time within its countdown keeps the linked group valid |
| Groups.NewLinked | progress_clocks.py:1220-1234 | A new linked group is valid, stopped, has the clamped number of dials, has no countdown, and has the right click bound to unfill |
| Groups.AddDial | progress_clocks.py:1456-1517 | Adding a dial stops at 6, keeps the existing dials and timers, gives the new dial timer 0, and rebinds the right click to unfill exactly when no countdown is set |
| Groups.RemoveDial | progress_clocks.py:1519-1530 | Removing a dial stops at 2, drops only the last dial and its timer, and rebinds the right click to unfill exactly when no remaining countdown is set |
| Groups.AnyPositive | progress_clocks.py:1357-1359 | `_timers_in_use` is true exactly when some timer is positive |
| Groups.ValidateTimers | progress_clocks.py:1361-1372 | Timers validate exactly when all are non-positive or all are positive |
| Groups.ActiveIndex | progress_clocks.py:1412-1413 | The active dial is incomplete, every dial before it is complete, and there is none exactly when all dials are complete |
| Groups.ActiveIndexIs | progress_clocks.py:1412-1413 | The first incomplete dial is the active one |
| Groups.Start | progress_clocks.py:1271-1283 | Start refuses incomplete timers, does nothing when every dial is complete, and otherwise only sets running |
| Groups.Stop | progress_clocks.py:1285-1288 | Stop clears running and changes nothing else |
| Groups.StartStop | progress_clocks.py:1271-1288 | Stop undoes start on a stopped group |
| Groups.FillFraction | progress_clocks.py:1340-1348 | The integer fill `elapsed * segs / total` lies in [0, segs] and equals segs exactly when the time is up |
| Groups.FillForElapsed | progress_clocks.py:1339-1349 | The active dial becomes the prefix fill of `floor(elapsed * segs / total)`, and is complete exactly when the time is up |
| Groups.AdvanceDial | progress_clocks.py:1327-1349 | A timed tick adds 250 ms to the active dial's elapsed time, capped at its total, sets its fill from it, and changes no other dial or elapsed time |
| Groups.Tick | progress_clocks.py:1307-1355 | The tick keeps the group valid: it does nothing when stopped, stops when every dial is complete, idles without timers, and otherwise advances the active dial; every tick of a running group rebinds the right click to unfill exactly when no countdown is set |
| Groups.TickMoves | progress_clocks.py:1311-1351 | What a running tick moves: it stops the group when no dial is incomplete, leaves it alone without a countdown on the active dial, and otherwise advances that dial and beeps when it reaches its countdown with alarms on |
| Groups.TickTimes | progress_clocks.py:1307-1355 | Any number of ticks keeps the linked group valid |
| Groups.TickStep | progress_clocks.py:1336-1343 | A tick that does not finish the active dial adds exactly 250 ms to it and leaves it active |
| Groups.TickTimesProgress | progress_clocks.py:1336-1343 | k ticks within the active dial's countdown add exactly `k * 250` ms to it and fill it in proportion |
| Groups.UnfillActive | progress_clocks.py:1415-1452 | As written, a right click decreases the active dial only when the last rebinding bound it, whatever the countdowns are now, then rebinds; otherwise nothing changes |
| Groups.UnfillActiveAtClick | progress_clocks.py:1415-1452 | Corrected, a right click never unfills while a countdown is set, and otherwise decreases only the active dial |
| Groups.EditKeepsRightClick | progress_clocks.py:1480-1501 | As written, committing a countdown leaves the right click doing what it did before the edit; corrected, a click after an edit that sets a countdown leaves the dials alone |
| Groups.StaleUnfillExample | progress_clocks.py:1444-1452 | With the click bound in manual mode, typing a positive countdown and right-clicking still removes a segment as written; the corrected click removes none |
| Groups.ResetDial | progress_clocks.py:1254-1257 | Each dial is emptied; with "clear" its labels become empty, otherwise they are kept |
| Groups.ResetDials | progress_clocks.py:1254-1257 | Resetting every dial keeps them following the shared settings and makes dial 0 the active one |
| Groups.ResetAll | progress_clocks.py:1242-1269 | Reset-all stops the group, empties every dial, zeroes every elapsed time, zeroes the timers only with "clear", makes dial 0 active, and rebinds the right click to unfill exactly when no countdown is left |
| Groups.HoursMinutesSeconds | progress_clocks.py:1404-1406 | The `divmod` split has minutes and seconds below 60 and recombines to the seconds given |
| Groups.ParseCountdown | progress_clocks.py:1481-1483 | A blank entry parses to 0 |
| Groups.ParseOneField | progress_clocks.py:1487-1488 | A single field is read as plain seconds |
| Groups.ClockTextRoundTrip | progress_clocks.py:1401-1498 | Parsing the "HH:MM:SS" text of any number of seconds gives those seconds back |
| Groups.ParseThreeFields | progress_clocks.py:1487-1494 | Three fields read as `hh*3600 + mm*60 + ss` |
| Groups.ParseTwoFields | progress_clocks.py:1487-1494 | Two fields read as `mm*60 + ss` |
| Groups.MinutesSecondsParse | progress_clocks.py:1487-1494 | "MM:SS" written with `:02d` parses to `m*60 + s` |
| Groups.ExtraFieldsIgnored | progress_clocks.py:1487-1494 | Leading fields before the last three are ignored |
| Groups.StoredTimer | progress_clocks.py:1480-1498 | The stored timer is the parsed value floored at 0, is 0 for a blank entry, and keeps the old value when a field fails to parse |
| Groups.OverlayText | progress_clocks.py:1394-1410 | A dial shows text exactly when the overlay is on and its timer is positive; the text is the remaining whole seconds as "HH:MM:SS" |
| Groups.CommitTimer | progress_clocks.py:1480-1501 | Committing an entry sets only that dial's timer from the entry and restarts every elapsed time |
| Groups.EditTimer | progress_clocks.py:1480-1501 | Typing into an entry box records the text and commits it |
| Groups.EditTimerSetsSeconds | progress_clocks.py:1480-1501 | Typing the "HH:MM:SS" text of s seconds sets that dial's timer to exactly s |
| Groups.ClickActive | progress_clocks.py:1435-1442 | A left click on the active dial commits its entry box, increases it, and rebinds the right click to unfill exactly when no countdown is set; with no active dial nothing changes |
| Groups.ClickKeepsShownTimers | progress_clocks.py:1435-1442 | When every entry box shows its timer, a click leaves every timer as it was |
| Groups.SetGroupSegments | progress_clocks.py:1581-1583 | A shared segment change resizes every dial the same way, rebinds the right click to unfill exactly when no countdown is set, and changes nothing else |
| Groups.SetGroupTheme | progress_clocks.py:1585-1595 | A mode change sets the flag, swaps every dial's default fill, and swaps the overlay colour's default the same way |
| Groups.SetGroupThemeIdempotent | progress_clocks.py:1585-1595 | Setting the same mode twice equals setting it once |
| Groups.LinkedToDict | progress_clocks.py:1614-1630 | The save holds one dict per dial with that dial's timer |
| Groups.RebuiltFrame | progress_clocks.py:1632-1653 | The rebuilt tab takes the saved shared settings, has the clamped number of dials, and has zero timers and "00:00:00" entry boxes |
| Groups.FeedAsWritten | progress_clocks.py:1655-1663 | As written, feeding one saved dial resets the shared segments to 4 and dark mode to off, and sets only that dial's timer to `max(0, saved)` |
| Groups.FeedFixed | progress_clocks.py:1655-1663 | Corrected, feeding one saved dial keeps the shared settings and restores that dial, its timer and its entry box |
| Groups.LinkedFromDict | progress_clocks.py:1632-1668 | The restore as written has the clamped dial count and zero elapsed times |
| Groups.FeedAsWrittenKeepsShape | progress_clocks.py:1655-1660 | Feeding saved dials as written keeps 2..6 dials that follow the shared settings and non-negative timers |
| Groups.LinkedFromDictValid | progress_clocks.py:1632-1668 | The restore as written yields a valid tab whenever the saved segment count is not negative |
| Groups.LinkedFromDictFixed | progress_clocks.py:1632-1668 | The corrected restore also keeps the saved segment count and dark mode |
| Groups.FeedFixedKeepsShared | progress_clocks.py:1655-1663 | The corrected feed never changes the shared settings |
| Groups.FeedForgetsShared | progress_clocks.py:1655-1663 | As written, a single saved dial dict resets the shared settings to 4 segments in light mode |
| Groups.RestoreForgetsSegments | progress_clocks.py:1632-1668 | Concretely, a tab saved with 8 segments in dark mode comes back with 4 in light mode |
| Groups.FeedRestoresTimer | progress_clocks.py:1655-1663 | Every saved dial dict restores its timer as `max(0, saved)` |
| Groups.FeedKeepsEntries | progress_clocks.py:1655-1663 | As written, the feed never touches the entry boxes |
| Groups.RestoredBoxesReadZero | progress_clocks.py:1505 | After the restore as written, every entry box still reads 0 seconds |
| Groups.RestoredTimerLostOnClick | progress_clocks.py:1436-1441 | After the restore as written, the first click on the active dial wipes its restored timer to 0 |
| Groups.RestoredTimerLostExample | progress_clocks.py:1436-1441 | Concretely, a tab saved with one empty dial and a 60 s countdown restores that countdown, and the first click sets it to 0 |
| Groups.FeedFixedShowsTimers | progress_clocks.py:1655-1663 | The corrected feed keeps every entry box showing its dial's timer |
| Groups.FixedRestoreKeepsTimersOnClick | progress_clocks.py:1436-1441 | After the corrected restore, a click keeps every timer |
| Groups.FeedFixedRoundTrip | progress_clocks.py:1655-1663 | Feeding the saved dials one by one into a frame that already matches them below i restores the rest |
| Groups.LinkedRoundTrip | progress_clocks.py:1614-1668 | Saving a valid tab and restoring it with the corrected loader gives the tab back, with elapsed times restarted, the clicks rebound, and the unsaved overlay colour and run state from the frame restored into |
| Helpers.CollectClaims | progress_clocks.py:121-131 | The collected numbers are exactly those some existing title claims |
| Helpers.LeastAbsent | progress_clocks.py:131-133 | The answer is the least n >= 1 missing from the set |
| Helpers.NextNumberedTitle | progress_clocks.py:121-134 | The title is `base + " " + n` with the least unclaimed n >= 1, and it equals no stripped existing title |
| Helpers.TitleClaimsItsNumber | progress_clocks.py:121-131 | A title reading "base n" after stripping claims n |
| Helpers.ShortTitle | progress_clocks.py:2005-2007 | A missing or empty title shows "Clock"; otherwise the stripped title is shown whole up to 18 characters, and a longer one as its first 18 characters and "…"; the result has at most 19 characters and no surrounding spaces |
| Helpers.ShortTitleIdempotent | progress_clocks.py:2005-2007 | Shortening a shown non-empty title again changes nothing |
| Helpers.BlankTitleShowsEmpty | progress_clocks.py:2005-2007 | A title of spaces alone shows as empty, not as "Clock" |
| Helpers.CenterOffset | progress_clocks.py:97-104 | The centred start lies at or right of the rectangle's edge, and sits at the edge when the window is at least as wide |
| Helpers.CenterGeometry | progress_clocks.py:97-104 | The geometry string reads back, field by field, as the window's width and height and the centred offsets inside the rectangle |
| Helpers.GeometryReadsBack | progress_clocks.py:97-104 | Splitting the geometry string at '+' and 'x' gives its four numbers back |
| Helpers.CenteredInside | progress_clocks.py:97-104 | A window no larger than the rectangle is placed wholly inside it |
| Helpers.ExpandShorthand | progress_clocks.py:107-114 | Three-digit shorthand is doubled digit by digit; other lengths are kept |
| Helpers.HexToRgb | progress_clocks.py:107-114 | Every channel read lies in [-15, 255] |
| Helpers.HexRoundTrip | progress_clocks.py:107-114 | "#rrggbb" written from three bytes reads back as those bytes |
| Helpers.ShorthandDoubles | progress_clocks.py:107-114 | "#abc" reads each digit doubled, 17 times its value |
| Helpers.ShortTextIsBlack | progress_clocks.py:107-114 | Too-short text (other than shorthand) falls back to (0, 0, 0) |
| TugOfWar.DefaultLabels | Progress_Clocks_v1.0.0.py:104-106 | `_default_labels(n)` is "Objective 1" .. "Objective n" |
| TugOfWar.RebuildLabels | Progress_Clocks_v1.0.0.py:530-537 | The label rows are cut to `cols` and each missing position gets its own default |
| TugOfWar.BuildTrack | Progress_Clocks_v1.0.0.py:411-429 | Default teams number two to four; supplied ownership or labels are kept only at length `max(1, segments)`, otherwise replaced by unowned entries and default labels |
| TugOfWar.NewTrack | Progress_Clocks_v1.0.0.py:411-482 | The constructor, which is also how a session load rebuilds a tab, gives a track exactly when its closing draw can colour every drawn owner; it always does without supplied ownership, and with supplied owners that are unowned or a team |
| TugOfWar.SessionLoadReports | Progress_Clocks_v1.0.0.py:1021-1028 | A session load goes through the constructor: a save without "ownership" gets one unowned entry per segment, and claiming them left to right fires the tally |
| TugOfWar.OutOfRangeOwnerRejected | Progress_Clocks_v1.0.0.py:482 | With two teams, a supplied owner 5 leaves no track, while -2 (a team counted from the end) is drawn |
| TugOfWar.ValidDrawable | Progress_Clocks_v1.0.0.py:654-657 | `draw` never raises on a valid track |
| TugOfWar.ResizeOwnership | Progress_Clocks_v1.0.0.py:560 | The new ownership has the new length, keeps old owners below it, and pads with unowned |
| TugOfWar.SetSegments | Progress_Clocks_v1.0.0.py:556-567 | A segment change keeps owners and labels below the new count, pads with unowned and each position's default label, changes nothing else, and keeps a track with owners in range valid when the count is at least 1 |
| TugOfWar.GrowShrink | Progress_Clocks_v1.0.0.py:556-567 | Growing and then shrinking back gives the track back |
| TugOfWar.SetTeamCount | Progress_Clocks_v1.0.0.py:569-581 | The teams become exactly `count` long (old kept, defaults appended); every owner at or above `count` becomes unowned and the rest stay, so owners not below -1 end in [-1, count) |
| TugOfWar.Reset | Progress_Clocks_v1.0.0.py:583-586 | Reset leaves `max(0, segments)` unowned segments, clears the latch, and keeps a track with matching labels valid |
| TugOfWar.OwnerAfterClimbs | Progress_Clocks_v1.0.0.py:604-606 | Below the last team, k clicks step the owner up by k |
| TugOfWar.CyclePeriod | Progress_Clocks_v1.0.0.py:604-606 | The owner cycle -1 → 0 → … → count-1 → -1 has period exactly `count + 1` |
| TugOfWar.MaybeShowTally | Progress_Clocks_v1.0.0.py:618-630 | An unowned segment clears the latch silently; a set latch stays silent; otherwise the tally reports each team's count and sets the latch |
| TugOfWar.TallyFiresOnce | Progress_Clocks_v1.0.0.py:618-630 | The tally never fires twice in a row |
| TugOfWar.TallySumsToSegments | Progress_Clocks_v1.0.0.py:624-627 | The reported counts sum to the number of segments |
| TugOfWar.ClickCycle | Progress_Clocks_v1.0.0.py:595-608 | A left click on any segment `_segment_at` can report changes nothing when the ownership list is too short to hold it; otherwise it moves only that owner to the next in the cycle, and when the redraw can colour the track the tally runs, otherwise nothing more happens and the latch stays; a valid track stays valid |
| TugOfWar.UndrawableClickSkipsTally | Progress_Clocks_v1.0.0.py:601-608 | With two teams and ownership [-4, -1], clicking segment 1 gives [-4, 0], fully owned, yet no tally and the latch still clear |
| TugOfWar.HiddenUnownedSilences | Progress_Clocks_v1.0.0.py:601-630 | While an unowned segment sits beyond every clicked one, no run of left clicks fires the tally |
| TugOfWar.ClaimInOrder | Progress_Clocks_v1.0.0.py:601-630 | Clicking the unowned segments once each, in order, gives them to team 0 and fires the tally |
| TugOfWar.ClickUnclaim | Progress_Clocks_v1.0.0.py:595-615 | A right click on any segment `_segment_at` can report changes nothing when the ownership list is too short to hold it; otherwise it unowns only that segment and clears the latch; a valid track stays valid |
| TugOfWar.EmptyTrackClicksChangeNothing | Progress_Clocks_v1.0.0.py:583-615 | After a reset with no segments the ownership is empty, and left and right clicks on segment 0 change nothing |
| TugOfWar.TallyRearms | Progress_Clocks_v1.0.0.py:610-630 | After an unclaim, owning every segment again fires the tally again |
| TugOfWar.CheckWinner | Progress_Clocks_v1.0.0.py:693-701 | The winner is `ownership[0]` exactly when it is owned and every segment has that owner, and there is none otherwise |
| TugOfWar.WinnerIsTeam | Progress_Clocks_v1.0.0.py:693-701 | A winner is a real team, and a team owning every segment is the winner |
| TugOfWar.SaveLabel | Progress_Clocks_v1.0.0.py:548-553 | Saving a label stores it stripped, a blank one as the position's default, and ignores an out-of-range index |
| TugOfWar.SaveTeamName | Progress_Clocks_v1.0.0.py:499-500 | Saving a team name stores it stripped, a blank one as "Team i+1", and keeps the colour and every other team |
| TugOfWar.SavedTeamNameNotBlank | Progress_Clocks_v1.0.0.py:499-500 | A saved team name is never blank and has no surrounding space |
| TugOfWar.SavedLabelVisibility | Progress_Clocks_v1.0.0.py:660-666 | A blank saved label is never drawn, and a non-default one on an owned segment is drawn |
| TugOfWar.ToDict | Progress_Clocks_v1.0.0.py:790-800 | The save holds the segments, teams, ownership and labels |
| TugOfWar.PadFromStart | Progress_Clocks_v1.0.0.py:810 | As written, missing labels are padded from "Objective 1" again |
| TugOfWar.PadInPlace | Progress_Clocks_v1.0.0.py:810 | Corrected, each missing label gets its own position's default |
| TugOfWar.LoadLabels | Progress_Clocks_v1.0.0.py:809-814 | For a count of at least 0, loaded labels have length `segs` and blank ones become their position's default; for a negative count the saved labels are cut as a Python slice and kept as they are |
| TugOfWar.LoadOwnership | Progress_Clocks_v1.0.0.py:808 | Corrected, loaded ownership has length `segs`: saved owners, then unowned |
| TugOfWar.LoadOwnershipAgrees | Progress_Clocks_v1.0.0.py:808 | When the key is present, the expression as written equals the corrected one |
| TugOfWar.MissingOwnershipDoubles | Progress_Clocks_v1.0.0.py:808 | As written, `from_dict` on a save without "ownership" gives `2 * segs` owners; corrected, `segs` |
| TugOfWar.Load | Progress_Clocks_v1.0.0.py:802-821 | `from_dict` takes segments (default 6), the teams (default: the current ones) and normalised labels, and clears the latch |
| TugOfWar.FromDictAsWritten | Progress_Clocks_v1.0.0.py:802-821 | `from_dict` as written uses the doubling ownership expression |
| TugOfWar.FromDict | Progress_Clocks_v1.0.0.py:802-821 | The corrected `from_dict` gives ownership of length `segs`, so a save with owners in range gives a valid track |
| TugOfWar.MissingOwnershipSilencesTally | Progress_Clocks_v1.0.0.py:808 | As written, after a `from_dict` call on a save without "ownership" no run of left clicks on the visible segments ever fires the tally; corrected, clicking each segment once fires it |
| TugOfWar.ShortLabelsRestartNumbering | Progress_Clocks_v1.0.0.py:809-810 | As written, the first padded label repeats "Objective 1"; corrected, each padded label is its own default |
| TugOfWar.RoundTrip | Progress_Clocks_v1.0.0.py:790-821 | Saving a valid track with non-blank labels and passing the save to `from_dict` gives the track back with the latch cleared |

## Left out

- All Tk widget construction, layout, canvas drawing, key bindings and dialogs. The answer to the reset-all question and the text typed into an entry box are parameters.
- File and JSON I/O, autosave scheduling, settings and session dispatch. `from_dict` works over a record whose absent keys are `None`, not over a dynamic dict, so a value of the wrong JSON type is not modelled.
- `_get_monitor_rect_from_point` (Win32 calls) and PNG export: foreign library calls. The monitor rectangle is a parameter of the centring helper.
- The `atan2`/`radians` arithmetic of `_pos_to_segment`. DangerClock.SegmentAt takes the clockwise angle from the top and the distance as parameters and models only the index step over `real`.
- The tug-of-war `_segment_at` and `_contrast_text_color`: floating-point pixel and luminance arithmetic.
- The beep on completion: a platform sound side effect.
- The 250 ms `after` scheduling of the tick. The host calls Groups.Tick. `_on_tick` divides floats; the model takes the exact `floor(elapsed * segs / total)`, which is what the float expression intends.
- The racing group's `from_dict`/`_rebuild_from_dials`. It has the same shape as the linked restore and is not modelled.
- Notes, titles and team colours are carried as data. No rule constrains them beyond being stored and saved. Team names do have a rule, stated by TugOfWar.SaveTeamName. The count clock's title, dark mode, fill colour and notes are left out of its model: its save and restore copy them as they are.
- `int()` accepts ASCII whitespace, an optional sign and ASCII digits. Underscores and non-ASCII digits are not modelled; `isspace` covers the first 256 code points; `.lower()` is ASCII only.
- Helpers.HexToRgb: states the channel range and the readable cases. Text whose slices fail `int(…, 16)` falls back to black as written, and no lemma covers every unreadable form.
- Groups.ParseCountdown: its own contract states only the blank case. The one-, two- and three-field cases are stated by Groups.ParseOneField, Groups.ParseTwoFields, Groups.ParseThreeFields and Groups.ExtraFieldsIgnored, for fields without colons or surrounding spaces.
- Groups.LinkedFromDict: its own contract states only the dial count and the restarted elapsed times. What the written restore does to the shared settings and the entry boxes is stated by Groups.FeedForgetsShared, Groups.RestoreForgetsSegments and Groups.RestoredBoxesReadZero.
- TugOfWar.FromDictAsWritten: its own contract states only the ownership expression. The rest of `from_dict` is TugOfWar.Load, which it shares with TugOfWar.FromDict.
- The settings dialog `open_settings` (progress_clocks.py:1597-1610): its toggles are plain fields and its dark-mode effect is Groups.SetGroupTheme. The rebinding it does after OK is not modelled, so Groups.SetGroupTheme keeps the right-click binding as it was.
- Groups.TickTimes: states only that any number of ticks keeps the group valid. Progress over many ticks is stated by Groups.TickTimesProgress within one dial's countdown, not across dials.
- Groups.ClickActive / Groups.UnfillActive: each linked dial keeps its own −1/+1/Reset buttons (progress_clocks.py:439-441), which change its fill without rebinding, while the bound clicks keep the dial that was active at the last rebinding (progress_clocks.py:1437, 1446). The model has no transition for those buttons and always acts on the current first incomplete dial, so it assumes the bound dial is the active one.

Behaviour a reader might not expect; the model follows the code:

- `increase`/`decrease` rewrite the whole pattern as a prefix of the new count, so a gapped pattern changes shape.
- `is_complete` compares the true-count with the segment count using `>=`. On a well-sized dial that is the same as every wedge being filled (DangerClock.CompleteIffAllFilled).
- The tick has no time parameter: it always adds 250 ms.
- Reset-all zeroes every elapsed time whatever the answer to its question. Only the timers depend on "clear". It also leaves the entry boxes' text as it was.
- Committing a timer entry restarts every dial's elapsed time, not only that dial's.
- The tug owner cycle is `-1 if cur == count - 1 else cur + 1`, so an out-of-range owner just climbs. A left click that leaves a drawn owner outside [-teams, teams) makes the redraw raise before the tally check (TugOfWar.ClickCycle).
- A tug segment-count change keeps the tally latch as it was.

## Findings

| source | as written | input that shows it | evidently intended | confidence | as-written member | corrected member |
|---|---|---|---|---|---|---|
| progress_clocks.py:469-472 | `last_filled_index` returns the true-count minus one | fill [False, True]: answers 0, an unfilled wedge | the highest filled index | not executed | DangerClock.LastFilledIndexMissesGaps | DangerClock.HighestFilledIndex |
| progress_clocks.py:1655-1660 | each saved dial dict, stripped of "segments"/"inverted", is passed to the dial's `from_dict`, which sets the SHARED segments to 4 and dark mode off | a linked tab saved with 8 segments in dark mode | the tab keeps its saved segment count and mode | not executed | Groups.RestoreForgetsSegments | Groups.LinkedRoundTrip |
| progress_clocks.py:1436-1441 | a restore sets the timers but leaves every entry box at "00:00:00", and the click handler commits the box before increasing | a saved timer of 60 s on the active dial, then one left click | the restored timer survives the click | not executed | Groups.RestoredTimerLostExample | Groups.FixedRestoreKeepsTimersOnClick |
| Progress_Clocks_v1.0.0.py:808 | the pad length counts a missing "ownership" as empty after the default list already filled `segs` entries; latent, since nothing in v1 calls `from_dict` | a `from_dict` call on a save without "ownership" and 6 segments: 12 owners | exactly `segs` owners | not executed | TugOfWar.MissingOwnershipSilencesTally | TugOfWar.FromDict |
| Progress_Clocks_v1.0.0.py:809-810 | missing labels are padded with `_default_labels(segs)` from its start; latent, since nothing in v1 calls `from_dict` | a `from_dict` call with 6 segments and saved labels ["A"]: label 2 reads "Objective 1" | each padded label is its own position's default, as on a resize | not executed | TugOfWar.ShortLabelsRestartNumbering | TugOfWar.PadInPlace |
| progress_clocks.py:1415-1452 | the right click is bound to unfill at the last rebinding, and committing a countdown in `parse_and_set` does not rebind | with no countdown set, dial 0 active and partly filled, type "00:01:00" in its box, press Return, right-click: a segment is removed | no unfill while a countdown is set, as the docstring says | not executed | Groups.StaleUnfillExample | Groups.UnfillActiveAtClick |

=== FILE: counter.dfy ===
/** The count clock of Progress_Clocks_v1.0.0.py (ClockFrame): the fill is
    one integer `filled`, moved one step at a time within [0, segments]. */
module CountClock {
  import opened PyLib

  datatype Counter = Counter(segments: int, filled: int)

  predicate InBounds(c: Counter) {
    0 <= c.filled <= c.segments
  }

  /** The constructor stores `filled` as given; nothing clamps it. */
  function NewCounter(segments: int, filled: int): (c: Counter)
    ensures c.segments == segments && c.filled == filled
    ensures InBounds(c) <==> 0 <= filled <= segments
  {
    Counter(segments, filled)
  }

  /** `increase`: one more segment while below the segment count. */
  function Increase(c: Counter): (r: Counter)
    ensures r.segments == c.segments
    ensures c.filled < c.segments ==> r.filled == c.filled + 1
    ensures c.filled >= c.segments ==> r == c
    ensures InBounds(c) ==> InBounds(r)
  {
    if c.filled < c.segments then c.(filled := c.filled + 1) else c
  }

  /** `decrease`: one segment fewer while above zero. */
  function Decrease(c: Counter): (r: Counter)
    ensures r.segments == c.segments
    ensures c.filled > 0 ==> r.filled == c.filled - 1
    ensures c.filled <= 0 ==> r == c
    ensures InBounds(c) ==> InBounds(r)
  {
    if c.filled > 0 then c.(filled := c.filled - 1) else c
  }

  /** `reset`: nothing filled. */
  function Reset(c: Counter): (r: Counter)
    ensures r.segments == c.segments && r.filled == 0
    ensures c.segments >= 0 ==> InBounds(r)
  {
    c.(filled := 0)
  }

  /** `on_segments_changed`: a fill above the new count is cut down to it;
      a smaller fill stays. */
  function SetSegments(c: Counter, k: int): (r: Counter)
    ensures r.segments == k && r.filled == (if c.filled > k then k else c.filled)
    ensures c.filled >= 0 && k >= 0 ==> InBounds(r)
  {
    Counter(k, if c.filled > k then k else c.filled)
  }

  /** Decrease undoes an increase that moved, and the other way round. */
  lemma IncreaseDecreaseInverse(c: Counter)
    requires InBounds(c)
    ensures c.filled < c.segments ==> Decrease(Increase(c)) == c
    ensures c.filled > 0 ==> Increase(Decrease(c)) == c
  {
  }

  /** k increases from any in-bounds fill reach min(filled + k, segments). */
  function IncreaseTimes(c: Counter, k: nat): Counter
    decreases k
  {
    if k == 0 then c else Increase(IncreaseTimes(c, k - 1))
  }

  lemma {:induction false} IncreaseTimesSaturates(c: Counter, k: nat)
    requires InBounds(c)
    ensures IncreaseTimes(c, k) == c.(filled := if c.filled + k <= c.segments then c.filled + k else c.segments)
    decreases k
  {
    if k > 0 {
      IncreaseTimesSaturates(c, k - 1);
    }
  }

  /** A constructed fill above the segment count is brought
      back into bounds by decreases alone, one step each. */
  function DecreaseTimes(c: Counter, k: nat): Counter
    decreases k
  {
    if k == 0 then c else Decrease(DecreaseTimes(c, k - 1))
  }

  lemma {:induction false} DecreaseTimesLowers(c: Counter, k: nat)
    requires 0 <= k <= c.filled
    ensures DecreaseTimes(c, k) == c.(filled := c.filled - k)
    decreases k
  {
    if k > 0 {
      DecreaseTimesLowers(c, k - 1);
    }
  }

  // ---------------------------------------------------------------------
  // Save and restore
  // ---------------------------------------------------------------------

  /** The counter's part of a saved clock; an absent key is None. */
  datatype CounterRecord = CounterRecord(segments: Option<int>, filled: Option<int>)

  /** `to_dict`: the segment count and the fill as they are. */
  function ToDict(c: Counter): (d: CounterRecord)
    ensures d.segments.Some? && d.filled.Some?
  {
    CounterRecord(Some(c.segments), Some(c.filled))
  }

  /** `from_dict`: four segments and nothing filled by default; the saved
      fill is taken as it is, unclamped. Nothing in v1 calls it: a session
      load builds each count clock through the constructor (see
      SessionLoadAgrees). */
  function FromDict(data: CounterRecord): (r: Counter)
    ensures data.segments.None? ==> r.segments == 4
    ensures data.filled.None? ==> r.filled == 0
    ensures data.segments.Some? ==> r.segments == data.segments.value
    ensures data.filled.Some? ==> r.filled == data.filled.value
    ensures data.segments.None? && data.filled.None? ==> InBounds(r)
  {
    Counter(data.segments.GetOr(4), data.filled.GetOr(0))
  }

  /** Saving a counter and passing the save to `from_dict` gives it back,
      in bounds or not. */
  lemma RoundTrip(c: Counter)
    ensures FromDict(ToDict(c)) == c
  {
  }

  /** A session load passes the saved values, with the same defaults, to
      the constructor, so it builds the counter `from_dict` would. */
  lemma SessionLoadAgrees(data: CounterRecord)
    ensures FromDict(data) == NewCounter(data.segments.GetOr(4), data.filled.GetOr(0))
  {
  }

  /** A saved fill above the segment count comes back out of bounds from
      `from_dict` (and from a session load alike), and exactly
      `filled - segments` decreases bring it back to full. */
  lemma RestoredOverfillLowers(segs: nat, filled: int)
    requires filled > segs
    ensures var c := FromDict(CounterRecord(Some(segs), Some(filled)));
      && !InBounds(c)
      && DecreaseTimes(c, filled - segs) == Counter(segs, segs)
  {
    var c := FromDict(CounterRecord(Some(segs), Some(filled)));
    DecreaseTimesLowers(c, filled - segs);
  }
}

=== FILE: dial.dfy ===
/** The segmented circular "danger clock" (DangerClockFrame in
    progress_clocks.py) as plain data: a segment count, a per-segment fill
    flag and a per-segment label, with every event handler written as a
    function from the old dial to the new one. */
module DangerClock {
  import opened PyLib
  import Theme

  datatype Dial = Dial(
    title: string,
    segments: int,        // the segments IntVar; shared with the group inside a group
    filled: seq<bool>,
    labels: seq<string>,
    showLabels: bool,
    inverted: bool,       // dark mode
    fillColor: string,
    notes: string)

  /** The shape every handler keeps: both lists exactly `segments` long. */
  predicate WellSized(d: Dial) {
    d.segments >= 0 && |d.filled| == d.segments && |d.labels| == d.segments
  }

  // ---------------------------------------------------------------------
  // Counting and fill patterns
  // ---------------------------------------------------------------------

  /** `sum(self.filled)`. */
  function CountTrue(s: seq<bool>): (n: nat)
    ensures n <= |s|
  {
    if |s| == 0 then 0 else (if s[0] then 1 else 0) + CountTrue(s[1..])
  }

  lemma {:induction false} CountTrueAppend(a: seq<bool>, b: seq<bool>)
    ensures CountTrue(a + b) == CountTrue(a) + CountTrue(b)
  {
    if |a| > 0 {
      assert (a + b)[0] == a[0];
      assert (a + b)[1..] == a[1..] + b;
      CountTrueAppend(a[1..], b);
      assert CountTrue(a + b) == (if a[0] then 1 else 0) + CountTrue(a[1..] + b);
    } else {
      assert a + b == b;
    }
  }

  /** A list counts all its entries iff every entry is true. */
  lemma {:induction false} CountTrueAll(s: seq<bool>)
    ensures CountTrue(s) == |s| <==> forall i :: 0 <= i < |s| ==> s[i]
  {
    if |s| > 0 {
      CountTrueAll(s[1..]);
      if CountTrue(s) == |s| {
        assert s[0];
        assert forall i :: 0 <= i < |s| - 1 ==> s[1..][i] == s[i + 1];
      }
      if forall i :: 0 <= i < |s| ==> s[i] {
        assert forall i :: 0 <= i < |s| - 1 ==> s[1..][i] == s[i + 1];
      }
    }
  }

  /** The first n entries true and the rest false. */
  predicate IsPrefixFill(s: seq<bool>, n: int) {
    forall i :: 0 <= i < |s| ==> (s[i] <==> i < n)
  }

  /** A prefix pattern of n entries counts n of them. */
  lemma {:induction false} PrefixFillCount(s: seq<bool>, n: int)
    requires 0 <= n <= |s| && IsPrefixFill(s, n)
    ensures CountTrue(s) == n
  {
    if |s| > 0 {
      assert IsPrefixFill(s[1..], n - 1) by {
        forall i | 0 <= i < |s| - 1 ensures (s[1..][i] <==> i < n - 1) {
          assert s[1..][i] == s[i + 1];
        }
      }
      if n == 0 {
        assert !s[0];
        PrefixFillCount(s[1..], 0);
      } else {
        PrefixFillCount(s[1..], n - 1);
      }
    }
  }

  /** Two lists of the same length holding the same prefix pattern are equal. */
  lemma PrefixFillUnique(s: seq<bool>, t: seq<bool>, n: int)
    requires |s| == |t| && IsPrefixFill(s, n) && IsPrefixFill(t, n)
    ensures s == t
  {
    assert forall i :: 0 <= i < |s| ==> s[i] == t[i];
  }

  /** `_set_fill_count(n)`: exactly the first clamp(n, 0, segments) entries
      true, then false up to `segments` entries. */
  function FillPattern(n: int, segments: int): (r: seq<bool>)
    ensures |r| == Max(0, segments)
    ensures IsPrefixFill(r, n)
    ensures CountTrue(r) == Max(0, Min(n, segments))
  {
    var k := Max(0, Min(n, segments));
    var r := Repeat(true, k) + Repeat(false, segments - k);
    assert IsPrefixFill(r, k) && IsPrefixFill(r, n);
    PrefixFillCount(r, k);
    r
  }

  // ---------------------------------------------------------------------
  // Resizing
  // ---------------------------------------------------------------------

  /** `_resize_filled_to` / `_resize_labels_to`: grow by padding, shrink by
      the slice `s[:k]` (which for a negative k drops items from the end). */
  function ResizeTo<T>(s: seq<T>, k: int, pad: T): (r: seq<T>)
    ensures k >= 0 ==> |r| == k
    ensures k >= 0 ==> forall i :: 0 <= i < k ==> r[i] == if i < |s| then s[i] else pad
    ensures k < 0 ==> r == Take(s, k)
  {
    if k > |s| then s + Repeat(pad, k - |s|)
    else if k < |s| then Take(s, k)
    else s
  }

  /** Resizing to the length a list already has changes nothing, so the
      second resize fired by a shared segment count is harmless. */
  lemma ResizeIdempotent<T>(s: seq<T>, k: int, pad: T)
    requires k >= 0
    ensures ResizeTo(ResizeTo(s, k, pad), k, pad) == ResizeTo(s, k, pad)
  {
  }

  /** `_clamp_and_draw`: a new segment count resizes both lists. */
  function SetSegments(d: Dial, k: int): (r: Dial)
    ensures k >= 0 ==> WellSized(r)
    ensures r == d.(segments := k, filled := r.filled, labels := r.labels)
    ensures forall i :: 0 <= i < Min(k, |d.filled|) ==> r.filled[i] == d.filled[i]
    ensures forall i :: 0 <= i < Min(k, |d.labels|) ==> r.labels[i] == d.labels[i]
    ensures forall i :: |d.filled| <= i < k ==> !r.filled[i]
    ensures forall i :: |d.labels| <= i < k ==> r.labels[i] == ""
  {
    d.(segments := k, filled := ResizeTo(d.filled, k, false), labels := ResizeTo(d.labels, k, ""))
  }

  /** Going n1 -> n2 -> n1 keeps every entry below min(n1, n2) and pads the
      rest with unfilled, unlabelled segments. */
  lemma {:induction false} ResizeThereAndBack(d: Dial, n1: int, n2: int)
    requires WellSized(d) && n1 >= 0 && n2 >= 0
    ensures var r := SetSegments(SetSegments(SetSegments(d, n1), n2), n1);
      && WellSized(r) && r.segments == n1
      && (forall i :: 0 <= i < n1 ==> r.filled[i] == (i < Min(n2, d.segments) && d.filled[i]))
      && (forall i :: 0 <= i < n1 ==> r.labels[i] == (if i < Min(n2, d.segments) then d.labels[i] else ""))
  {
    var a := SetSegments(d, n1);
    var b := SetSegments(a, n2);
    var r := SetSegments(b, n1);
    forall i | 0 <= i < n1
      ensures r.filled[i] == (i < Min(n2, d.segments) && d.filled[i])
      ensures r.labels[i] == (if i < Min(n2, d.segments) then d.labels[i] else "")
    {
      if i < n2 {
        assert r.filled[i] == b.filled[i] == a.filled[i];
        assert r.labels[i] == b.labels[i] == a.labels[i];
      }
    }
  }

  // ---------------------------------------------------------------------
  // Fill handlers
  // ---------------------------------------------------------------------

  /** Everything but the fill list is as before. */
  predicate SameButFill(r: Dial, d: Dial) {
    r == d.(filled := r.filled)
  }

  /** `increase`: below a full count the pattern is rewritten as the prefix
      one longer than the count; at or above it nothing changes. */
  function Increase(d: Dial): (r: Dial)
    ensures SameButFill(r, d)
    ensures CountTrue(d.filled) < d.segments ==>
      && |r.filled| == d.segments
      && IsPrefixFill(r.filled, CountTrue(d.filled) + 1)
      && CountTrue(r.filled) == CountTrue(d.filled) + 1
    ensures CountTrue(d.filled) >= d.segments ==> r == d
  {
    var current := CountTrue(d.filled);
    if current < d.segments then d.(filled := FillPattern(current + 1, d.segments)) else d
  }

  /** `decrease`: above zero the pattern is rewritten as the prefix one
      shorter than the count; at zero nothing changes. */
  function Decrease(d: Dial): (r: Dial)
    ensures SameButFill(r, d)
    ensures CountTrue(d.filled) > 0 ==>
      && |r.filled| == Max(0, d.segments)
      && IsPrefixFill(r.filled, CountTrue(d.filled) - 1)
      && CountTrue(r.filled) == Min(CountTrue(d.filled) - 1, Max(0, d.segments))
    ensures CountTrue(d.filled) == 0 ==> r == d
  {
    var current := CountTrue(d.filled);
    if current > 0 then d.(filled := FillPattern(current - 1, d.segments)) else d
  }

  /** `reset`: every segment unfilled, the list kept at `segments` entries. */
  function Reset(d: Dial): (r: Dial)
    ensures SameButFill(r, d)
    ensures |r.filled| == Max(0, d.segments) && CountTrue(r.filled) == 0
    ensures forall i :: 0 <= i < |r.filled| ==> !r.filled[i]
  {
    d.(filled := FillPattern(0, d.segments))
  }

  /** On a contiguous pattern short of full, decrease undoes increase. */
  lemma DecreaseUndoesIncrease(d: Dial)
    requires WellSized(d) && IsPrefixFill(d.filled, CountTrue(d.filled))
    requires CountTrue(d.filled) < d.segments
    ensures Decrease(Increase(d)) == d
  {
    var r := Decrease(Increase(d));
    PrefixFillUnique(r.filled, d.filled, CountTrue(d.filled));
  }

  /** On a contiguous pattern above empty, increase undoes decrease. */
  lemma IncreaseUndoesDecrease(d: Dial)
    requires WellSized(d) && IsPrefixFill(d.filled, CountTrue(d.filled))
    requires CountTrue(d.filled) > 0
    ensures Increase(Decrease(d)) == d
  {
    var r := Increase(Decrease(d));
    PrefixFillUnique(r.filled, d.filled, CountTrue(d.filled));
  }

  /** k presses of +1. */
  function IncreaseTimes(d: Dial, k: nat): Dial
    decreases k
  {
    if k == 0 then d else Increase(IncreaseTimes(d, k - 1))
  }

  /** From a reset dial, k presses of +1 fill exactly the first min(k,
      segments) segments: `segments` presses complete the dial and further
      presses change nothing. */
  lemma {:induction false} IncreaseTimesFromReset(d: Dial, k: nat)
    requires WellSized(d)
    ensures var r := IncreaseTimes(Reset(d), k);
      SameButFill(r, d) && |r.filled| == d.segments
      && IsPrefixFill(r.filled, Min(k, d.segments)) && CountTrue(r.filled) == Min(k, d.segments)
    decreases k
  {
    if k > 0 {
      IncreaseTimesFromReset(d, k - 1);
    }
  }

  /** `_on_left_click` on the segment under the mouse: that one entry
      becomes true and nothing else moves. */
  function ClickFill(d: Dial, idx: int): (r: Dial)
    requires 0 <= idx < |d.filled|
    ensures SameButFill(r, d) && |r.filled| == |d.filled| && r.filled[idx]
    ensures forall i :: 0 <= i < |d.filled| && i != idx ==> r.filled[i] == d.filled[i]
  {
    d.(filled := d.filled[idx := true])
  }

  /** `_on_right_click` on the segment under the mouse: that one entry
      becomes false and nothing else moves. */
  function ClickClear(d: Dial, idx: int): (r: Dial)
    requires 0 <= idx < |d.filled|
    ensures SameButFill(r, d) && |r.filled| == |d.filled| && !r.filled[idx]
    ensures forall i :: 0 <= i < |d.filled| && i != idx ==> r.filled[i] == d.filled[i]
  {
    d.(filled := d.filled[idx := false])
  }

  /** A right click undoes a left click on a segment that was empty, and
      a left click undoes a right click on a segment that was filled. */
  lemma ClicksUndoEachOther(d: Dial, idx: int)
    requires 0 <= idx < |d.filled|
    ensures !d.filled[idx] ==> ClickClear(ClickFill(d, idx), idx) == d
    ensures d.filled[idx] ==> ClickFill(ClickClear(d, idx), idx) == d
  {
  }

  /** `is_complete`: the number of filled entries reaches `segments`. */
  predicate IsComplete(d: Dial) {
    CountTrue(d.filled) >= d.segments
  }

  /** On a well-sized dial, complete means every single segment is filled. */
  lemma CompleteIffAllFilled(d: Dial)
    requires WellSized(d)
    ensures IsComplete(d) <==> forall i :: 0 <= i < |d.filled| ==> d.filled[i]
  {
    CountTrueAll(d.filled);
  }

  // ---------------------------------------------------------------------
  // last_filled_index
  // ---------------------------------------------------------------------

  /** `last_filled_index` as written: the fill count minus one, whatever
      the pattern looks like. */
  function LastFilledIndex(d: Dial): (r: Option<int>)
    ensures r.None? <==> CountTrue(d.filled) == 0
    ensures r.Some? ==> 0 <= r.value < |d.filled|
  {
    var n := CountTrue(d.filled);
    if n > 0 then Some(n - 1) else None
  }

  /** The highest index holding a filled segment, which is what the
      method's own documentation promises. */
  function HighestFilledIndex(s: seq<bool>): (r: Option<int>)
    ensures r.None? <==> forall i :: 0 <= i < |s| ==> !s[i]
    ensures r.Some? ==> 0 <= r.value < |s| && s[r.value]
    ensures r.Some? ==> forall i :: r.value < i < |s| ==> !s[i]
  {
    if |s| == 0 then None
    else if s[|s| - 1] then Some(|s| - 1)
    else HighestFilledIndex(s[..|s| - 1])
  }

  /** For a non-contiguous pattern the count-based answer names a segment
      that is not filled: [false, true] gives 0, the highest filled is 1. */
  lemma LastFilledIndexMissesGaps()
    ensures var d := Dial("", 2, [false, true], ["", ""], false, false, Theme.Black, "");
      LastFilledIndex(d) == Some(0) && !d.filled[0] && HighestFilledIndex(d.filled) == Some(1)
  {
    var s := [false, true];
    assert CountTrue(s) == 1 by {
      assert s[1..] == [true];
      assert [true][1..] == [];
    }
  }

  /** On the contiguous patterns that +1/-1 and the timers produce, the
      two answers agree. */
  lemma {:induction false} LastFilledIndexOnPrefix(s: seq<bool>, n: int)
    requires 0 <= n <= |s| && IsPrefixFill(s, n)
    ensures HighestFilledIndex(s) == (if n > 0 then Some(n - 1) else None)
  {
    var r := HighestFilledIndex(s);
    if n > 0 {
      assert s[n - 1];
      assert r.Some? && r.value <= n - 1;
    }
  }

  // ---------------------------------------------------------------------
  // Click position to segment
  // ---------------------------------------------------------------------

  /** `_pos_to_segment` after the trigonometry: the click offset (dx, dy)
      from the centre, the radius, and the angle measured clockwise from
      12 o'clock in degrees. Outside the circle gives None; otherwise the
      wedge number floor(angle / (360 / segCount)), clamped into range. */
  function SegmentAt(dx: real, dy: real, radius: real, angleCw: real, segCount: int): (r: Option<int>)
    ensures segCount <= 0 ==> r == None
    ensures segCount > 0 ==> (r.None? <==> dx * dx + dy * dy > radius * radius)
    ensures r.Some? ==> 0 <= r.value < segCount
    ensures r.Some? && 0.0 <= angleCw < 360.0 ==>
      r.value as real * (360.0 / segCount as real) <= angleCw < (r.value + 1) as real * (360.0 / segCount as real)
  {
    if segCount <= 0 then None
    else if dx * dx + dy * dy > radius * radius then None
    else
      var span := 360.0 / segCount as real;
      var idx := (angleCw / span).Floor;
      var clamped := if idx < 0 then 0 else if idx >= segCount then segCount - 1 else idx;
      WedgeBounds(angleCw, span, segCount, idx);
      Some(clamped)
  }

  /** An angle in [0, 360) lies inside the wedge its floored quotient names. */
  lemma WedgeBounds(angle: real, span: real, n: int, idx: int)
    requires n > 0 && span == 360.0 / n as real && idx == (angle / span).Floor
    ensures 0.0 <= angle < 360.0 ==>
      0 <= idx < n && idx as real * span <= angle < (idx + 1) as real * span
  {
    if 0.0 <= angle < 360.0 {
      var q := angle / span;
      assert span > 0.0;
      assert q * span == angle;
      assert idx as real <= q < idx as real + 1.0;
      assert q < n as real by {
        assert n as real * span == 360.0;
      }
      assert idx as real * span <= q * span;
      assert q * span < (idx as real + 1.0) * span;
    }
  }

  // ---------------------------------------------------------------------
  // Construction, theme and persistence
  // ---------------------------------------------------------------------

  /** A fresh dial: `filled` leading segments filled, no labels, and the
      theme's default fill unless a non-empty colour was supplied. */
  function NewDial(title: string, segments: int, filled: int, inverted: bool,
                   fillColor: Option<string>, notes: string): (r: Dial)
    ensures segments >= 0 ==> WellSized(r)
    ensures IsPrefixFill(r.filled, filled) && CountTrue(r.filled) == Max(0, Min(filled, segments))
    ensures forall i :: 0 <= i < |r.labels| ==> r.labels[i] == ""
    ensures fillColor == None || fillColor == Some("") ==> r.fillColor == (if inverted then Theme.White else Theme.Black)
  {
    var color := if fillColor.Some? && fillColor.value != "" then fillColor.value
                 else if inverted then Theme.White else Theme.Black;
    Dial(title, segments, FillPattern(filled, segments), Repeat("", segments), false, inverted, color, notes)
  }

  /** Setting dark mode fires `_on_theme_changed`. */
  function SetDarkMode(d: Dial, dark: bool): (r: Dial)
    ensures r == d.(inverted := dark, fillColor := r.fillColor)
    ensures Theme.IsDefaultBlack(d.fillColor) && dark ==> r.fillColor == Theme.White
    ensures Theme.IsDefaultWhite(d.fillColor) && !dark ==> r.fillColor == Theme.Black
    ensures !Theme.IsDefaultBlack(d.fillColor) && !Theme.IsDefaultWhite(d.fillColor) ==> r.fillColor == d.fillColor
  {
    Theme.DefaultsFlip(d.fillColor);
    d.(inverted := dark, fillColor := Theme.SwapDefaultFill(d.fillColor, dark))
  }

  /** The saved dict: every key optional, a missing key read as None. */
  datatype DialRecord = DialRecord(
    title: Option<string>,
    segments: Option<int>,
    filledCount: Option<int>,             // "filled": legacy contiguous count
    filledList: Option<seq<bool>>,        // "filled_list": exact pattern
    labels: Option<seq<Option<string>>>,  // None entries are JSON nulls
    showLabels: Option<bool>,
    inverted: Option<bool>,
    fillColor: Option<string>,
    notes: Option<string>)

  /** `to_dict`. */
  function ToDict(d: Dial): (r: DialRecord)
    ensures r.filledCount == Some(CountTrue(d.filled)) && r.filledList == Some(d.filled)
    ensures r.labels.Some? && |r.labels.value| == |d.labels|
    ensures forall i :: 0 <= i < |d.labels| ==> r.labels.value[i] == Some(d.labels[i])
  {
    DialRecord(Some(d.title), Some(d.segments), Some(CountTrue(d.filled)), Some(d.filled),
               Some(seq(|d.labels|, i requires 0 <= i < |d.labels| => Some(d.labels[i]))),
               Some(d.showLabels), Some(d.inverted), Some(d.fillColor), Some(d.notes))
  }

  /** A saved label entry: null becomes the empty string. */
  function LabelOrEmpty(v: Option<string>): string {
    v.GetOr("")
  }

  /** `from_dict` into the dial `cur`: missing fields take their defaults
      (4 segments, light mode), a non-empty `filled_list` is cut or padded
      with false to `segments`, otherwise the legacy count gives a clamped
      prefix, and labels are cut or padded with "". The dark-mode write
      comes first and runs the theme hook, so a missing `fill_color` falls
      back to the current colour after its default swap for the new mode. */
  function FromDict(cur: Dial, data: DialRecord): (r: Dial)
    ensures r.segments == data.segments.GetOr(4)
    ensures r.segments >= 0 ==> WellSized(r)
    ensures data.fillColor.Some? ==> r.fillColor == data.fillColor.value
    ensures data.fillColor.None? ==> r.fillColor == SetDarkMode(cur, r.inverted).fillColor
    ensures r.inverted == data.inverted.GetOr(false)
    ensures data.filledList.Some? && |data.filledList.value| > 0 && r.segments >= 0 ==>
      forall i :: 0 <= i < r.segments ==>
        r.filled[i] == (i < |data.filledList.value| && data.filledList.value[i])
    ensures (data.filledList.None? || |data.filledList.value| == 0) ==>
      IsPrefixFill(r.filled, data.filledCount.GetOr(0))
    ensures data.labels.Some? && r.segments >= 0 ==>
      forall i :: 0 <= i < r.segments ==>
        r.labels[i] == (if i < |data.labels.value| then LabelOrEmpty(data.labels.value[i]) else "")
    ensures data.labels.None? ==> forall i :: 0 <= i < |r.labels| ==> r.labels[i] == ""
  {
    var segs := data.segments.GetOr(4);
    var inv := data.inverted.GetOr(false);
    var filled :=
      if data.filledList.Some? && |data.filledList.value| > 0 then ResizeTo(data.filledList.value, segs, false)
      else FillPattern(data.filledCount.GetOr(0), segs);
    var labels :=
      if data.labels.Some? then
        var raw := data.labels.value;
        ResizeTo(seq(|raw|, i requires 0 <= i < |raw| => LabelOrEmpty(raw[i])), segs, "")
      else Repeat("", segs);
    Dial(data.title.GetOr("Danger Clock"), segs, filled, labels, data.showLabels.GetOr(false),
         inv, data.fillColor.GetOr(Theme.SwapDefaultFill(cur.fillColor, inv)), data.notes.GetOr(""))
  }

  /** Without a saved `fill_color` the dial keeps its colour as the theme
      hook leaves it: a default black turns white when the record is in
      dark mode, a default white turns black when it is not, and a custom
      colour stays. */
  lemma MissingFillFollowsTheme(cur: Dial, data: DialRecord)
    requires data.fillColor.None?
    ensures Theme.IsDefaultBlack(cur.fillColor) && data.inverted == Some(true) ==>
      FromDict(cur, data).fillColor == Theme.White
    ensures Theme.IsDefaultWhite(cur.fillColor) && !data.inverted.GetOr(false) ==>
      FromDict(cur, data).fillColor == Theme.Black
    ensures !Theme.IsDefaultBlack(cur.fillColor) && !Theme.IsDefaultWhite(cur.fillColor) ==>
      FromDict(cur, data).fillColor == cur.fillColor
  {
  }

  /** Saving then restoring a well-sized dial reproduces it exactly,
      non-contiguous fill pattern and labels included, into any dial. */
  lemma RoundTrip(cur: Dial, d: Dial)
    requires WellSized(d)
    ensures FromDict(cur, ToDict(d)) == d
  {
    var r := FromDict(cur, ToDict(d));
    if |d.filled| == 0 {
      assert r.filled == [] == d.filled;
    }
    assert r.filled == d.filled;
    assert r.labels == d.labels;
  }

  /** A legacy record carrying only a count restores the contiguous
      pattern it was saved from. */
  lemma LegacyCountRestoresPrefix(cur: Dial, d: Dial)
    requires WellSized(d) && IsPrefixFill(d.filled, CountTrue(d.filled))
    ensures FromDict(cur, ToDict(d).(filledList := None)).filled == d.filled
  {
    PrefixFillUnique(FromDict(cur, ToDict(d).(filledList := None)).filled, d.filled, CountTrue(d.filled));
  }
}

=== FILE: groups.dfy ===
/** The two multi-dial tabs of progress_clocks.py. RacingClocksFrame holds
    2..6 dials sharing one segment count and one dark-mode flag.
    LinkedClocksFrame adds per-dial countdown timers that fill the first
    incomplete ("active") dial in proportion to elapsed time, advanced by
    a 250 ms tick the host schedules. */
module Groups {
  import opened PyLib
  import opened DangerClock
  import Theme

  const MinDials := 2
  const MaxDials := 6
  const TickMs := 250

  /** `max(2, min(int(n or 2), MAX_DIALS))`: the dial count used when a tab
      is built (n requested) or rebuilt (n saved dials); 0 falls back to 2. */
  function DialCountFor(n: int): (r: int)
    ensures MinDials <= r <= MaxDials
    ensures MinDials <= n <= MaxDials ==> r == n
    ensures n < MinDials ==> r == MinDials
    ensures n > MaxDials ==> r == MaxDials
  {
    var m := if n == 0 then 2 else n;
    Max(MinDials, Min(m, MaxDials))
  }

  /** The dial `_add_dial` creates at position idx. */
  function GroupDial(idx: nat, segments: int, dark: bool): (d: Dial)
    ensures segments >= 0 ==> WellSized(d)
    ensures d.segments == segments && d.inverted == dark && CountTrue(d.filled) == 0
  {
    NewDial("Clock " + NatToDecimal(idx + 1), segments, 0, dark, None, "")
  }

  /** Every dial reads the group's shared segment count and dark mode. */
  predicate DialsFollow(dials: seq<Dial>, segments: int, dark: bool) {
    && segments >= 0
    && forall i :: 0 <= i < |dials| ==>
         dials[i].segments == segments && dials[i].inverted == dark && WellSized(dials[i])
  }

  /** A dial following the shared settings may join the group. */
  lemma FollowAppend(dials: seq<Dial>, d: Dial, segments: int, dark: bool)
    requires DialsFollow(dials, segments, dark)
    requires d.segments == segments && d.inverted == dark && WellSized(d)
    ensures DialsFollow(dials + [d], segments, dark)
  {
    forall i | 0 <= i < |dials| + 1
      ensures (dials + [d])[i].segments == segments && (dials + [d])[i].inverted == dark && WellSized((dials + [d])[i])
    {
      if i < |dials| { assert (dials + [d])[i] == dials[i]; }
    }
  }

  // =====================================================================
  // Racing group
  // =====================================================================

  datatype Racing = Racing(title: string, segments: int, inverted: bool, notes: string, dials: seq<Dial>)

  predicate RacingValid(g: Racing) {
    MinDials <= |g.dials| <= MaxDials && DialsFollow(g.dials, g.segments, g.inverted)
  }

  /** A new racing tab: four segments, light mode, the clamped dial count. */
  function NewRacing(title: string, requested: int, notes: string): (g: Racing)
    ensures RacingValid(g) && |g.dials| == DialCountFor(requested)
  {
    var n := DialCountFor(requested);
    Racing(title, 4, false, notes, seq(n, i requires 0 <= i < n => GroupDial(i, 4, false)))
  }

  /** `_add_dial`: a new empty dial at the end, unless six are present. */
  function RacingAddDial(g: Racing): (r: Racing)
    requires RacingValid(g)
    ensures RacingValid(r) && |r.dials| == Min(|g.dials| + 1, MaxDials)
    ensures r.dials[..|g.dials|] == g.dials
  {
    if |g.dials| >= MaxDials then g
    else
      var d := GroupDial(|g.dials|, g.segments, g.inverted);
      FollowAppend(g.dials, d, g.segments, g.inverted);
      assert (g.dials + [d])[..|g.dials|] == g.dials;
      g.(dials := g.dials + [d])
  }

  /** `_remove_dial`: the last dial goes, unless only two are left. */
  function RacingRemoveDial(g: Racing): (r: Racing)
    requires RacingValid(g)
    ensures RacingValid(r) && |r.dials| == Max(|g.dials| - 1, MinDials)
    ensures r.dials == g.dials[..|r.dials|]
  {
    if |g.dials| <= MinDials then g else g.(dials := g.dials[..|g.dials| - 1])
  }

  /** `reset_all` of a racing tab: every dial emptied, labels kept. */
  function RacingResetAll(g: Racing): (r: Racing)
    requires RacingValid(g)
    ensures RacingValid(r) && |r.dials| == |g.dials|
    ensures forall i :: 0 <= i < |r.dials| ==>
      CountTrue(r.dials[i].filled) == 0 && r.dials[i].labels == g.dials[i].labels
  {
    g.(dials := seq(|g.dials|, i requires 0 <= i < |g.dials| => Reset(g.dials[i])))
  }

  /** Adding then removing a dial gives back the tab it started from. */
  lemma RacingAddThenRemove(g: Racing)
    requires RacingValid(g) && |g.dials| < MaxDials
    ensures RacingRemoveDial(RacingAddDial(g)) == g
  {
    assert (g.dials + [GroupDial(|g.dials|, g.segments, g.inverted)])[..|g.dials|] == g.dials;
  }

  // =====================================================================
  // Linked group
  // =====================================================================

  datatype Linked = Linked(
    title: string,
    segments: int,
    inverted: bool,
    notes: string,
    showOverlay: bool,
    beepOnComplete: bool,
    overlayColor: string,
    dials: seq<Dial>,
    timerSecs: seq<int>,     // configured countdown per dial, 0 = none
    entries: seq<string>,    // text of each dial's HH:MM:SS entry box
    elapsedMs: seq<int>,     // run time spent on each dial so far
    running: bool,
    rightUnfills: bool)      // right click bound to unfill by the last rebinding

  /** The shape every handler keeps: 2..6 dials following the shared
      settings, one timer and one elapsed counter per dial, and each
      elapsed counter within its dial's countdown. */
  predicate Valid(g: Linked) {
    && MinDials <= |g.dials| <= MaxDials
    && |g.timerSecs| == |g.dials| && |g.elapsedMs| == |g.dials| && |g.entries| == |g.dials|
    && DialsFollow(g.dials, g.segments, g.inverted)
    && (forall i :: 0 <= i < |g.dials| ==> g.timerSecs[i] >= 0)
    && (forall i :: 0 <= i < |g.dials| ==> 0 <= g.elapsedMs[i] <= g.timerSecs[i] * 1000)
  }

  /** What a new dial's countdown entry box shows. */
  const ZeroEntry := "00:00:00"

  /** Replacing one dial by a re-filled copy and moving its elapsed counter
      within the countdown keeps the group valid. */
  lemma ValidUpdate(g: Linked, idx: nat, d: Dial, e: int)
    requires Valid(g) && idx < |g.dials|
    requires SameButFill(d, g.dials[idx]) && |d.filled| == d.segments
    requires 0 <= e <= g.timerSecs[idx] * 1000
    ensures Valid(g.(dials := g.dials[idx := d], elapsedMs := g.elapsedMs[idx := e]))
  {
  }

  /** Replacing one dial's fill keeps a tab valid. */
  lemma ValidReplace(g: Linked, idx: nat, d: Dial)
    requires Valid(g) && idx < |g.dials|
    requires SameButFill(d, g.dials[idx]) && |d.filled| == d.segments
    ensures Valid(g.(dials := g.dials[idx := d]))
  {
  }

  /** A new linked tab: four segments, light mode, no timers, stopped,
      and the right click bound to unfill. */
  function NewLinked(title: string, requested: int, notes: string): (g: Linked)
    ensures Valid(g) && |g.dials| == DialCountFor(requested) && !g.running
    ensures !TimersInUse(g.timerSecs) && g.rightUnfills
  {
    var n := DialCountFor(requested);
    Linked(title, 4, false, notes, false, false, Theme.Black,
           seq(n, i requires 0 <= i < n => GroupDial(i, 4, false)), Repeat(0, n), Repeat(ZeroEntry, n),
           Repeat(0, n), false, true)
  }

  /** `_add_dial`: a new empty dial with no timer, unless six are present;
      the clicks are rebound. */
  function AddDial(g: Linked): (r: Linked)
    requires Valid(g)
    ensures Valid(r) && |r.dials| == Min(|g.dials| + 1, MaxDials)
    ensures r.dials[..|g.dials|] == g.dials && r.timerSecs[..|g.dials|] == g.timerSecs
    ensures |g.dials| < MaxDials ==> r.timerSecs[|g.dials|] == 0
    ensures |g.dials| < MaxDials ==> (r.rightUnfills <==> !TimersInUse(g.timerSecs))
  {
    if |g.dials| >= MaxDials then g
    else
      var d := GroupDial(|g.dials|, g.segments, g.inverted);
      FollowAppend(g.dials, d, g.segments, g.inverted);
      assert (g.dials + [d])[..|g.dials|] == g.dials;
      assert (g.timerSecs + [0])[..|g.dials|] == g.timerSecs;
      assert TimersInUse(g.timerSecs + [0]) == TimersInUse(g.timerSecs);
      Rebind(g.(dials := g.dials + [d], timerSecs := g.timerSecs + [0], entries := g.entries + [ZeroEntry],
                elapsedMs := g.elapsedMs + [0]))
  }

  /** `_remove_dial`: the last dial and its timer go, unless two are left;
      the clicks are rebound. */
  function RemoveDial(g: Linked): (r: Linked)
    requires Valid(g)
    ensures Valid(r) && |r.dials| == Max(|g.dials| - 1, MinDials)
    ensures r.dials == g.dials[..|r.dials|] && r.timerSecs == g.timerSecs[..|r.dials|]
    ensures |g.dials| > MinDials ==> (r.rightUnfills <==> !TimersInUse(r.timerSecs))
  {
    if |g.dials| <= MinDials then g
    else Rebind(g.(dials := g.dials[..|g.dials| - 1], timerSecs := g.timerSecs[..|g.dials| - 1],
                   entries := g.entries[..|g.dials| - 1], elapsedMs := g.elapsedMs[..|g.dials| - 1]))
  }

  // ---------------------------------------------------------------------
  // Timers configuration
  // ---------------------------------------------------------------------

  /** `any(v > 0 for v in vals)`. */
  function AnyPositive(s: seq<int>): (r: bool)
    ensures r <==> exists i :: 0 <= i < |s| && s[i] > 0
  {
    if |s| == 0 then false else s[0] > 0 || AnyPositive(s[1..])
  }

  /** `all(v > 0 for v in vals)`. */
  function AllPositive(s: seq<int>): (r: bool)
    ensures r <==> forall i :: 0 <= i < |s| ==> s[i] > 0
  {
    if |s| == 0 then true else s[0] > 0 && AllPositive(s[1..])
  }

  /** `_timers_in_use`: some dial has a countdown. */
  predicate TimersInUse(timers: seq<int>) {
    AnyPositive(timers)
  }

  /** `_bind_serial_clicks`: the active dial's right click is bound to
      unfill exactly when no dial has a countdown at the moment of binding,
      and stays so until the next rebinding. */
  function Rebind(g: Linked): Linked {
    g.(rightUnfills := !TimersInUse(g.timerSecs))
  }

  /** `_validate_timers`: all or nothing, so either no dial has a
      countdown or every dial has one. */
  function ValidateTimers(timers: seq<int>): (r: bool)
    ensures r <==> ((forall i :: 0 <= i < |timers| ==> timers[i] <= 0)
                    || (forall i :: 0 <= i < |timers| ==> timers[i] > 0))
  {
    !AnyPositive(timers) || AllPositive(timers)
  }

  // ---------------------------------------------------------------------
  // Active dial
  // ---------------------------------------------------------------------

  /** `_active_index`: the first dial that is not complete, if any. */
  function ActiveIndex(dials: seq<Dial>): (r: Option<nat>)
    ensures r.Some? ==> r.value < |dials| && !IsComplete(dials[r.value])
    ensures r.Some? ==> forall j :: 0 <= j < r.value ==> IsComplete(dials[j])
    ensures r.None? <==> forall j :: 0 <= j < |dials| ==> IsComplete(dials[j])
  {
    if |dials| == 0 then None
    else if !IsComplete(dials[0]) then Some(0)
    else match ActiveIndex(dials[1..])
      case None => None
      case Some(k) => Some(k + 1)
  }

  /** The first incomplete dial is the active one, so ActiveIndex is
      pinned down by its contract. */
  lemma ActiveIndexIs(dials: seq<Dial>, idx: nat)
    requires idx < |dials| && !IsComplete(dials[idx])
    requires forall j :: 0 <= j < idx ==> IsComplete(dials[j])
    ensures ActiveIndex(dials) == Some(idx)
  {
    var r := ActiveIndex(dials);
    assert r.Some?;
    assert !(r.value < idx);
    assert !(r.value > idx);
  }

  // ---------------------------------------------------------------------
  // Start / stop
  // ---------------------------------------------------------------------

  datatype StartOutcome =
    | Started
    | TimersIncomplete   // the "Timers incomplete" error dialog
    | AllComplete        // nothing left to run

  /** `start`: refused with an error when timers are partially set, a
      no-op when every dial is complete, otherwise running. */
  function Start(g: Linked): (r: (Linked, StartOutcome))
    ensures r.1 == TimersIncomplete <==> !ValidateTimers(g.timerSecs)
    ensures r.1 == AllComplete <==> ValidateTimers(g.timerSecs) && ActiveIndex(g.dials).None?
    ensures r.1 == Started ==> r.0 == g.(running := true)
    ensures r.1 != Started ==> r.0 == g
  {
    if !ValidateTimers(g.timerSecs) then (g, TimersIncomplete)
    else if ActiveIndex(g.dials).None? then (g, AllComplete)
    else (g.(running := true), Started)
  }

  /** `stop`: always leaves the group stopped and nothing else changed. */
  function Stop(g: Linked): (r: Linked)
    ensures !r.running && r.(running := g.running) == g
  {
    g.(running := false)
  }

  /** Start followed by stop leaves a stopped group exactly as it was. */
  lemma StartStop(g: Linked)
    requires !g.running
    ensures Stop(Start(g).0) == g
  {
  }

  // ---------------------------------------------------------------------
  // The proportional tick
  // ---------------------------------------------------------------------

  /** Multiplying by a non-negative factor keeps an order. */
  lemma MulMono(a: int, b: int, c: int)
    requires a <= b && c >= 0
    ensures a * c <= b * c
  {
    assert b * c - a * c == (b - a) * c;
  }

  /** A quotient stays below n when the dividend stays below n * t. */
  lemma QuotientBelow(x: int, t: int, n: int)
    requires t > 0 && x < n * t
    ensures x / t < n
  {
    var q := x / t;
    assert x == q * t + x % t && 0 <= x % t;
    if q >= n {
      MulMono(n, q, t);
    }
  }

  /** A quotient reaches n when the dividend reaches n * t. */
  lemma QuotientAtLeast(x: int, t: int, n: int)
    requires t > 0 && n * t <= x
    ensures x / t >= n
  {
    var q := x / t;
    assert x == q * t + x % t && x % t < t;
    if q < n {
      assert (n - 1) * t == n * t - t;
      MulMono(q, n - 1, t);
    }
  }

  /** floor(elapsed * segs / total) lies in [0, segs] and reaches segs
      exactly when the countdown is over. */
  lemma FillFraction(e: int, total: int, segs: int)
    requires 0 <= e <= total && total > 0 && segs > 0
    ensures 0 <= e * segs / total <= segs
    ensures e * segs / total == segs <==> e == total
  {
    var x := e * segs;
    assert 0 <= x <= segs * total by {
      MulMono(0, e, segs);
      MulMono(e, total, segs);
    }
    assert (segs + 1) * total == segs * total + total;
    QuotientAtLeast(x, total, 0);
    QuotientBelow(x, total, segs + 1);
    if e == total {
      assert x == segs * total;
      QuotientAtLeast(x, total, segs);
    } else {
      assert x <= segs * total - segs by {
        MulMono(e, total - 1, segs);
        assert (total - 1) * segs == segs * total - segs;
      }
      QuotientBelow(x, total, segs);
    }
  }

  /** The active dial re-filled for e of total milliseconds elapsed. */
  function FillForElapsed(d: Dial, e: int, total: int): (r: Dial)
    requires WellSized(d) && d.segments > 0 && 0 <= e <= total && total > 0
    ensures WellSized(r) && SameButFill(r, d)
    ensures IsPrefixFill(r.filled, e * d.segments / total)
    ensures CountTrue(r.filled) == e * d.segments / total
    ensures IsComplete(r) <==> e == total
  {
    var segs := d.segments;
    FillFraction(e, total, segs);
    var target := e * segs / total;
    var d1 := d.(filled := FillPattern(Min(target, segs), segs));
    if e >= total then d1.(filled := FillPattern(segs, segs)) else d1
  }

  /** The tick moves the active dial's countdown forward. */
  predicate TickAdvances(g: Linked) {
    && g.running && ActiveIndex(g.dials).Some? && TimersInUse(g.timerSecs)
    && ActiveIndex(g.dials).value < |g.timerSecs|
    && g.timerSecs[ActiveIndex(g.dials).value] > 0
  }

  /** The timed step of `_on_tick` on dial idx: 250 ms more elapsed time,
      capped at the countdown, and the dial re-filled as the contiguous
      prefix of floor(elapsed * segments / total) segments; nothing else
      in the group moves. */
  function AdvanceDial(g: Linked, idx: nat): (r: Linked)
    requires Valid(g) && idx < |g.dials| && g.timerSecs[idx] > 0 && g.segments > 0
    ensures Valid(r) && |r.dials| == |g.dials|
    ensures var total := g.timerSecs[idx] * 1000;
      var e := r.elapsedMs[idx];
      && e == Min(total, g.elapsedMs[idx] + TickMs)
      && r == g.(dials := r.dials, elapsedMs := r.elapsedMs)
      && (forall j :: 0 <= j < |g.dials| && j != idx ==>
            r.dials[j] == g.dials[j] && r.elapsedMs[j] == g.elapsedMs[j])
      && SameButFill(r.dials[idx], g.dials[idx])
      && IsPrefixFill(r.dials[idx].filled, e * g.segments / total)
      && CountTrue(r.dials[idx].filled) == e * g.segments / total
      && (IsComplete(r.dials[idx]) <==> e == total)
  {
    var total := g.timerSecs[idx] * 1000;
    var e := Min(total, g.elapsedMs[idx] + TickMs);
    var d := FillForElapsed(g.dials[idx], e, total);
    ValidUpdate(g, idx, d, e);
    g.(dials := g.dials[idx := d], elapsedMs := g.elapsedMs[idx := e])
  }

  /** `_on_tick`, with the beep it may sound: while running, the first
      incomplete dial advances if it has a countdown and the beep sounds
      when that countdown runs out with beeping enabled; when no dial is
      left incomplete the group stops; in manual mode nothing moves. Every
      tick of a running group rebinds the clicks. */
  function Tick(g: Linked): (r: (Linked, bool))
    requires Valid(g)
    ensures Valid(r.0)
    ensures !g.running ==> r == (g, false)
    ensures g.running ==> (r.0.rightUnfills <==> !TimersInUse(g.timerSecs))
    ensures g.running && ActiveIndex(g.dials).None? ==> r == (Rebind(g.(running := false)), false)
    ensures g.running && ActiveIndex(g.dials).Some? && !TickAdvances(g) ==> r == (Rebind(g), false)
    ensures TickAdvances(g) ==>
      var idx := ActiveIndex(g.dials).value;
      && r.0 == Rebind(AdvanceDial(g, idx))
      && r.1 == (r.0.elapsedMs[idx] == g.timerSecs[idx] * 1000 && g.beepOnComplete)
  {
    if !g.running then (g, false)
    else
      var m := TickMoves(g);
      (Rebind(m.0), m.1)
  }

  /** What a tick of a running group moves, before the clicks are rebound. */
  function TickMoves(g: Linked): (r: (Linked, bool))
    requires Valid(g) && g.running
    ensures Valid(r.0)
    ensures ActiveIndex(g.dials).None? ==> r == (g.(running := false), false)
    ensures ActiveIndex(g.dials).Some? && !TickAdvances(g) ==> r == (g, false)
    ensures TickAdvances(g) ==>
      var idx := ActiveIndex(g.dials).value;
      && r.0 == AdvanceDial(g, idx)
      && r.1 == (r.0.elapsedMs[idx] == g.timerSecs[idx] * 1000 && g.beepOnComplete)
  {
    if ActiveIndex(g.dials).None? then (g.(running := false), false)
    else if !TickAdvances(g) then (g, false)
    else
      var idx := ActiveIndex(g.dials).value;
      var r := AdvanceDial(g, idx);
      (r, r.elapsedMs[idx] >= g.timerSecs[idx] * 1000 && g.beepOnComplete)
  }

  /** k ticks in a row. */
  function TickTimes(g: Linked, k: nat): (r: Linked)
    requires Valid(g)
    ensures Valid(r)
    decreases k
  {
    if k == 0 then g else Tick(TickTimes(g, k - 1)).0
  }

  /** One tick with room left on the active dial's countdown adds 250 ms
      to it, leaves it the active dial, and moves nothing else. */
  lemma TickStep(p: Linked, idx: nat)
    requires Valid(p) && TickAdvances(p) && ActiveIndex(p.dials) == Some(idx)
    requires p.elapsedMs[idx] + TickMs < p.timerSecs[idx] * 1000
    ensures var r := Tick(p).0;
      && Valid(r) && TickAdvances(r) && ActiveIndex(r.dials) == Some(idx)
      && r.elapsedMs[idx] == p.elapsedMs[idx] + TickMs
      && CountTrue(r.dials[idx].filled) == r.elapsedMs[idx] * p.segments / (p.timerSecs[idx] * 1000)
      && r.timerSecs == p.timerSecs && r.segments == p.segments
      && (forall j :: 0 <= j < |p.dials| && j != idx ==> r.dials[j] == p.dials[j] && r.elapsedMs[j] == p.elapsedMs[j])
  {
    var r := Tick(p).0;
    assert r == Rebind(AdvanceDial(p, idx));
    assert !IsComplete(r.dials[idx]);
    forall j | 0 <= j < idx ensures IsComplete(r.dials[j]) {
      assert r.dials[j] == p.dials[j];
    }
    ActiveIndexIs(r.dials, idx);
  }

  /** While the active dial's countdown has room, k ticks add k * 250 ms
      to it and fill it to floor(elapsed * segments / total); it stays the
      active dial and the others do not move. */
  lemma {:induction false} TickTimesProgress(g: Linked, idx: nat, k: nat)
    requires Valid(g) && TickAdvances(g) && ActiveIndex(g.dials) == Some(idx)
    requires g.elapsedMs[idx] + k * TickMs < g.timerSecs[idx] * 1000
    ensures var r := TickTimes(g, k);
      && TickAdvances(r) && ActiveIndex(r.dials) == Some(idx)
      && r.elapsedMs[idx] == g.elapsedMs[idx] + k * TickMs
      && (k > 0 ==> CountTrue(r.dials[idx].filled) == r.elapsedMs[idx] * g.segments / (g.timerSecs[idx] * 1000))
      && r.timerSecs == g.timerSecs && r.segments == g.segments
      && (forall j :: 0 <= j < |g.dials| && j != idx ==> r.dials[j] == g.dials[j] && r.elapsedMs[j] == g.elapsedMs[j])
    decreases k
  {
    if k > 0 {
      assert (k - 1) * TickMs == k * TickMs - TickMs;
      TickTimesProgress(g, idx, k - 1);
      var p := TickTimes(g, k - 1);
      assert TickTimes(g, k) == Tick(p).0;
      TickStep(p, idx);
    }
  }

  // ---------------------------------------------------------------------
  // Clicks and reset
  // ---------------------------------------------------------------------

  /** Right click on the active dial as written: it acts only when the
      last rebinding bound it, that is when no dial had a countdown at that
      moment, whatever the countdowns are now. It takes one segment away
      and rebinds. */
  function UnfillActive(g: Linked): (r: Linked)
    requires Valid(g)
    ensures Valid(r)
    ensures !g.rightUnfills || ActiveIndex(g.dials).None? ==> r == g
    ensures g.rightUnfills && ActiveIndex(g.dials).Some? ==>
      var i := ActiveIndex(g.dials).value;
      && r.dials == g.dials[i := Decrease(g.dials[i])]
      && r == g.(dials := r.dials, rightUnfills := r.rightUnfills)
      && (r.rightUnfills <==> !TimersInUse(g.timerSecs))
  {
    if !g.rightUnfills then g
    else match ActiveIndex(g.dials)
      case None => g
      case Some(i) =>
        ValidReplace(g, i, Decrease(g.dials[i]));
        Rebind(g.(dials := g.dials[i := Decrease(g.dials[i])]))
  }

  /** The right click as documented: it checks for countdowns when it
      happens, so it never unfills while a dial has one. */
  function UnfillActiveAtClick(g: Linked): (r: Linked)
    requires Valid(g)
    ensures Valid(r)
    ensures TimersInUse(g.timerSecs) || ActiveIndex(g.dials).None? ==> r == g
    ensures !TimersInUse(g.timerSecs) && ActiveIndex(g.dials).Some? ==>
      var i := ActiveIndex(g.dials).value;
      r == g.(dials := g.dials[i := Decrease(g.dials[i])], rightUnfills := true)
  {
    if TimersInUse(g.timerSecs) then g
    else match ActiveIndex(g.dials)
      case None => g
      case Some(i) =>
        ValidReplace(g, i, Decrease(g.dials[i]));
        g.(dials := g.dials[i := Decrease(g.dials[i])], rightUnfills := true)
  }

  /** As written, committing a countdown does not rebind the clicks, so a
      right click after an edit does exactly what it did before it: in
      manual mode it still unfills once a countdown is set, and once every
      countdown is cleared it stays unbound until the next rebinding. The
      corrected click leaves the dials alone while a countdown is set. */
  lemma EditKeepsRightClick(g: Linked, j: nat, txt: string)
    requires Valid(g) && j < |g.dials|
    ensures UnfillActive(EditTimer(g, j, txt)).dials == UnfillActive(g).dials
    ensures TimersInUse(EditTimer(g, j, txt).timerSecs) ==>
      UnfillActiveAtClick(EditTimer(g, j, txt)).dials == g.dials
  {
    var e := EditTimer(g, j, txt);
    assert e.dials == g.dials && e.rightUnfills == g.rightUnfills;
  }

  /** The concrete case: with the right click bound in manual mode and the
      active dial partly filled, typing a countdown of `secs` > 0 into the
      first box and right-clicking still takes a segment away, although a
      countdown is now set; the corrected click takes none. */
  lemma StaleUnfillExample(g: Linked, secs: nat)
    requires Valid(g) && g.rightUnfills && secs > 0
    requires ActiveIndex(g.dials) == Some(0) && CountTrue(g.dials[0].filled) > 0
    ensures var e := EditTimer(g, 0, ClockText(secs));
      && TimersInUse(e.timerSecs)
      && CountTrue(UnfillActive(e).dials[0].filled) == CountTrue(g.dials[0].filled) - 1
      && UnfillActiveAtClick(e) == e
  {
    var e := EditTimer(g, 0, ClockText(secs));
    EditTimerSetsSeconds(g, 0, secs);
    assert e.timerSecs[0] == secs;
    assert e.dials == g.dials && e.rightUnfills;
  }

  /** One dial under `reset_all`: emptied, and with `clear` its labels blanked. */
  function ResetDial(d: Dial, clear: bool): (r: Dial)
    requires WellSized(d)
    ensures WellSized(r) && r == d.(filled := r.filled, labels := r.labels)
    ensures CountTrue(r.filled) == 0 && forall k :: 0 <= k < |r.filled| ==> !r.filled[k]
    ensures clear ==> forall k :: 0 <= k < |r.labels| ==> r.labels[k] == ""
    ensures !clear ==> r.labels == d.labels
  {
    Reset(if clear then d.(labels := Repeat("", d.segments)) else d)
  }

  /** Every dial of a valid tab reset; they still follow the shared
      settings and the first one is active. */
  function ResetDials(g: Linked, clear: bool): (ds: seq<Dial>)
    requires Valid(g)
    ensures |ds| == |g.dials| && DialsFollow(ds, g.segments, g.inverted)
    ensures forall i :: 0 <= i < |ds| ==> ds[i] == ResetDial(g.dials[i], clear)
    ensures g.segments > 0 ==> ActiveIndex(ds) == Some(0)
  {
    var n := |g.dials|;
    var ds := seq(n, i requires 0 <= i < n => ResetDial(g.dials[i], clear));
    assert g.segments > 0 ==> ActiveIndex(ds) == Some(0) by {
      if g.segments > 0 { ActiveIndexIs(ds, 0); }
    }
    ds
  }

  /** `reset_all`: stops the group, empties every dial and zeroes every
      elapsed counter; with `clear` also blanks all labels and timers. The
      clicks are rebound. */
  function ResetAll(g: Linked, clear: bool): (r: Linked)
    requires Valid(g)
    ensures Valid(r) && !r.running && |r.dials| == |g.dials|
    ensures r.rightUnfills <==> !TimersInUse(r.timerSecs)
    ensures forall i :: 0 <= i < |r.dials| ==> r.dials[i] == ResetDial(g.dials[i], clear)
    ensures forall i :: 0 <= i < |r.elapsedMs| ==> r.elapsedMs[i] == 0
    ensures forall i :: 0 <= i < |r.timerSecs| ==> r.timerSecs[i] == (if clear then 0 else g.timerSecs[i])
    ensures g.segments > 0 ==> ActiveIndex(r.dials) == Some(0)
  {
    var n := |g.dials|;
    var timers := if clear then Repeat(0, n) else g.timerSecs;
    var elapsed := Repeat(0, n);
    g.(running := false, dials := ResetDials(g, clear), timerSecs := timers, elapsedMs := elapsed,
       rightUnfills := !TimersInUse(timers))
  }

  // ---------------------------------------------------------------------
  // Countdown text
  // ---------------------------------------------------------------------

  /** `divmod` by 3600 and then by 60: whole hours, minutes and seconds. */
  function HoursMinutesSeconds(secs: nat): (r: (nat, nat, nat))
    ensures r.1 < 60 && r.2 < 60
    ensures r.0 * 3600 + r.1 * 60 + r.2 == secs
  {
    var rest := secs % 3600;
    (secs / 3600, rest / 60, rest % 60)
  }

  /** `f"{h:02d}:{m:02d}:{s:02d}"` of a number of seconds. */
  function ClockText(secs: nat): string {
    var hms := HoursMinutesSeconds(secs);
    Pad2(hms.0) + ":" + Pad2(hms.1) + ":" + Pad2(hms.2)
  }

  /** Three numbers of fields combined into seconds, or None when one of
      them did not parse. */
  function FieldsValue(h: Option<int>, m: Option<int>, s: Option<int>): Option<int> {
    if h.Some? && m.Some? && s.Some? then Some(h.value * 3600 + m.value * 60 + s.value) else None
  }

  /** The parsing half of `parse_and_set`: blank text is 0 seconds; one,
      two or more colon-separated fields are read as seconds, minutes and
      seconds, or (the last three) hours, minutes and seconds. None is the
      exception that makes the handler keep the old value. */
  function ParseCountdown(txt: string): (r: Option<int>)
    ensures Strip(txt) == "" ==> r == Some(0)
  {
    var t := Strip(txt);
    if t == "" then Some(0)
    else
      var parts := Split(t, ':');
      var n := |parts|;
      if n == 1 then ParseInt(parts[0], 10)
      else if n == 2 then FieldsValue(Some(0), ParseInt(parts[0], 10), ParseInt(parts[1], 10))
      else FieldsValue(ParseInt(parts[n - 3], 10), ParseInt(parts[n - 2], 10), ParseInt(parts[n - 1], 10))
  }

  /** A single field is read as plain seconds. */
  lemma ParseOneField(a: string)
    requires ':' !in a && |a| > 0 && !IsSpace(a[0]) && !IsSpace(a[|a| - 1])
    ensures ParseCountdown(a) == ParseInt(a, 10)
  {
    StripUnchanged(a);
    SplitNoSep(a, ':');
  }

  /** Pad2 output holds no colon and no whitespace at either end. */
  lemma Pad2Plain(n: nat)
    ensures ':' !in Pad2(n) && !IsSpace(Pad2(n)[0]) && !IsSpace(Pad2(n)[|Pad2(n)| - 1])
  {
    var p := Pad2(n);
    assert IsDigit(p[0]) && IsDigit(p[|p| - 1]);
  }

  /** Pad2 output is read back by int(). */
  lemma Pad2Parses(n: nat)
    ensures ParseInt(Pad2(n), 10) == Some(n)
  {
    ParseDigits(Pad2(n));
  }

  /** The fields of a clock text add back up to its seconds. */
  lemma FieldsOfClock(secs: nat)
    ensures var hms := HoursMinutesSeconds(secs);
      FieldsValue(Some(hms.0), Some(hms.1), Some(hms.2)) == Some(secs)
  {
    var hms := HoursMinutesSeconds(secs);
    var h: int, m: int, sec: int := hms.0, hms.1, hms.2;
    assert h * 3600 + m * 60 + sec == secs;
  }

  /** ParseCountdown of a stripped text that splits into two fields. */
  lemma CountdownOfTwo(t: string, a: string, b: string)
    requires Strip(t) == t && t != "" && Split(t, ':') == [a, b]
    ensures ParseCountdown(t) == FieldsValue(Some(0), ParseInt(a, 10), ParseInt(b, 10))
  {
  }

  /** ParseCountdown of a stripped text whose last three fields are a, b, c. */
  lemma CountdownOfLastThree(t: string, parts: seq<string>, a: string, b: string, c: string)
    requires Strip(t) == t && t != "" && Split(t, ':') == parts
    requires |parts| >= 3 && parts[|parts| - 3..] == [a, b, c]
    ensures ParseCountdown(t) == FieldsValue(ParseInt(a, 10), ParseInt(b, 10), ParseInt(c, 10))
  {
    assert parts[|parts| - 3] == a && parts[|parts| - 2] == b && parts[|parts| - 1] == c;
  }

  /** Three colon-free fields joined by colons are read field by field. */
  lemma ParseThreeFields(a: string, b: string, c: string)
    requires ':' !in a && ':' !in b && ':' !in c
    requires |a| > 0 && !IsSpace(a[0]) && |c| > 0 && !IsSpace(c[|c| - 1])
    ensures ParseCountdown(a + [':'] + b + [':'] + c)
         == FieldsValue(ParseInt(a, 10), ParseInt(b, 10), ParseInt(c, 10))
  {
    var t := a + [':'] + b + [':'] + c;
    assert Strip(t) == t by {
      assert t[0] == a[0] && t[|t| - 1] == c[|c| - 1];
      StripUnchanged(t);
    }
    assert Split(t, ':') == [a, b, c] by {
      SplitThree(a, b, c, ':');
    }
    CountdownOfLastThree(t, [a, b, c], a, b, c);
  }

  /** Two colon-free fields joined by a colon are read as minutes and seconds. */
  lemma ParseTwoFields(a: string, b: string)
    requires ':' !in a && ':' !in b
    requires |a| > 0 && !IsSpace(a[0]) && |b| > 0 && !IsSpace(b[|b| - 1])
    ensures ParseCountdown(a + [':'] + b) == FieldsValue(Some(0), ParseInt(a, 10), ParseInt(b, 10))
  {
    var t := a + [':'] + b;
    assert Strip(t) == t by {
      assert t[0] == a[0] && t[|t| - 1] == b[|b| - 1];
      StripUnchanged(t);
    }
    assert Split(t, ':') == [a, b] by {
      SplitNoSep(b, ':');
      SplitAfterHead(a, ':', b);
    }
    CountdownOfTwo(t, a, b);
  }

  /** Reading the HH:MM:SS text of a number of seconds gives that number
      back, whatever the number of hours. */
  lemma ClockTextRoundTrip(secs: nat)
    ensures ParseCountdown(ClockText(secs)) == Some(secs)
  {
    var hms := HoursMinutesSeconds(secs);
    var a, b, c := Pad2(hms.0), Pad2(hms.1), Pad2(hms.2);
    Pad2Plain(hms.0); Pad2Plain(hms.1); Pad2Plain(hms.2);
    assert ClockText(secs) == a + [':'] + b + [':'] + c;
    ParseThreeFields(a, b, c);
    Pad2Parses(hms.0); Pad2Parses(hms.1); Pad2Parses(hms.2);
    FieldsOfClock(secs);
  }

  /** MM:SS text reads as minutes * 60 + seconds, with no bound on either. */
  lemma MinutesSecondsParse(m: nat, sec: nat)
    ensures ParseCountdown(Pad2(m) + ":" + Pad2(sec)) == Some(m * 60 + sec)
  {
    var a, b := Pad2(m), Pad2(sec);
    Pad2Plain(m);
    Pad2Plain(sec);
    var t := a + [':'] + b;
    assert a + ":" + b == t;
    ParseTwoFields(a, b);
    Pad2Parses(m);
    Pad2Parses(sec);
    assert ParseCountdown(t) == FieldsValue(Some(0), Some(m), Some(sec));
    FieldsOfMinutes(m, sec);
  }

  lemma FieldsOfMinutes(m: nat, sec: nat)
    ensures FieldsValue(Some(0), Some(m), Some(sec)) == Some(m * 60 + sec)
  {
  }

  /** Four colon-separated fields: the first is ignored. */
  lemma ParseFourFields(junk: string, a: string, b: string, c: string)
    requires ':' !in junk && ':' !in a && ':' !in b && ':' !in c
    requires |junk| > 0 ==> !IsSpace(junk[0])
    requires |c| > 0 && !IsSpace(c[|c| - 1])
    ensures ParseCountdown(junk + [':'] + (a + [':'] + b + [':'] + c))
         == FieldsValue(ParseInt(a, 10), ParseInt(b, 10), ParseInt(c, 10))
  {
    var t := junk + [':'] + (a + [':'] + b + [':'] + c);
    FourFieldsStripped(junk, a + [':'] + b + [':'] + c, c);
    FourFieldsSplit(junk, a, b, c);
    var parts := [junk] + [a, b, c];
    assert parts[|parts| - 3..] == [a, b, c];
    CountdownOfLastThree(t, parts, a, b, c);
  }

  /** A text starting with a non-blank (or a colon) and ending with c's
      last character is its own strip. */
  lemma FourFieldsStripped(junk: string, abc: string, c: string)
    requires |junk| > 0 ==> !IsSpace(junk[0])
    requires |c| > 0 && !IsSpace(c[|c| - 1]) && |abc| >= |c| && abc[|abc| - |c|..] == c
    ensures Strip(junk + [':'] + abc) == junk + [':'] + abc
  {
    var t := junk + [':'] + abc;
    assert t[0] == (if |junk| > 0 then junk[0] else ':');
    assert t[|t| - 1] == abc[|abc| - 1] == c[|c| - 1];
    StripUnchanged(t);
  }

  /** Four colon-free fields joined by colons split back into themselves. */
  lemma FourFieldsSplit(junk: string, a: string, b: string, c: string)
    requires ':' !in junk && ':' !in a && ':' !in b && ':' !in c
    ensures Split(junk + [':'] + (a + [':'] + b + [':'] + c), ':') == [junk] + [a, b, c]
  {
    var abc := a + [':'] + b + [':'] + c;
    assert Split(abc, ':') == [a, b, c] by {
      SplitThree(a, b, c, ':');
    }
    SplitAfterHead(junk, ':', abc);
  }

  /** With more than three fields only the last three count: anything
      before them, even text that is not a number, is ignored. */
  lemma ExtraFieldsIgnored(junk: string, secs: nat)
    requires ':' !in junk && (|junk| > 0 ==> !IsSpace(junk[0]))
    ensures ParseCountdown(junk + ":" + ClockText(secs)) == Some(secs)
  {
    var hms := HoursMinutesSeconds(secs);
    var a, b, c := Pad2(hms.0), Pad2(hms.1), Pad2(hms.2);
    Pad2Plain(hms.0); Pad2Plain(hms.1); Pad2Plain(hms.2);
    assert junk + ":" + ClockText(secs) == junk + [':'] + (a + [':'] + b + [':'] + c);
    ParseFourFields(junk, a, b, c);
    Pad2Parses(hms.0); Pad2Parses(hms.1); Pad2Parses(hms.2);
    FieldsOfClock(secs);
  }

  /** The value `parse_and_set` stores: the parsed seconds floored at 0,
      or the old value when the text does not parse. */
  function StoredTimer(prev: int, txt: string): (r: int)
    ensures prev >= 0 ==> r >= 0
    ensures ParseCountdown(txt).None? ==> r == prev
    ensures ParseCountdown(txt).Some? ==> r == Max(0, ParseCountdown(txt).value)
    ensures Strip(txt) == "" ==> r == 0
  {
    match ParseCountdown(txt)
    case None => prev
    case Some(t) => Max(0, t)
  }

  /** The overlay's remaining time of one dial, as `_redraw_overlays`
      formats it: blank unless the overlay is on and this dial has a
      countdown, otherwise the whole seconds left as HH:MM:SS. */
  function OverlayText(g: Linked, i: nat): (r: string)
    requires Valid(g) && i < |g.dials|
    ensures r != "" <==> g.showOverlay && g.timerSecs[i] > 0
    ensures r != "" ==>
      ParseCountdown(r) == Some(Max(0, g.timerSecs[i] * 1000 - g.elapsedMs[i]) / 1000)
  {
    if g.showOverlay && TimersInUse(g.timerSecs) && g.timerSecs[i] > 0 then
      var secs := Max(0, g.timerSecs[i] * 1000 - g.elapsedMs[i]) / 1000;
      ClockTextRoundTrip(secs);
      ClockText(secs)
    else ""
  }

  // ---------------------------------------------------------------------
  // Timer entry commits and clicks
  // ---------------------------------------------------------------------

  /** `parse_and_set` of dial i: the entry's text becomes the stored
      countdown and every elapsed counter restarts from zero. */
  function CommitTimer(g: Linked, i: nat): (r: Linked)
    requires Valid(g) && i < |g.dials|
    ensures Valid(r)
    ensures r == g.(timerSecs := r.timerSecs, elapsedMs := r.elapsedMs)
    ensures r.timerSecs == g.timerSecs[i := StoredTimer(g.timerSecs[i], g.entries[i])]
    ensures forall j :: 0 <= j < |r.elapsedMs| ==> r.elapsedMs[j] == 0
  {
    g.(timerSecs := g.timerSecs[i := StoredTimer(g.timerSecs[i], g.entries[i])],
       elapsedMs := Repeat(0, |g.dials|))
  }

  /** Typing into dial i's entry box and leaving it (or pressing Return). */
  function EditTimer(g: Linked, i: nat, txt: string): (r: Linked)
    requires Valid(g) && i < |g.dials|
    ensures Valid(r) && r.entries == g.entries[i := txt]
  {
    CommitTimer(g.(entries := g.entries[i := txt]), i)
  }

  /** Typing the HH:MM:SS text of some seconds sets exactly that countdown. */
  lemma EditTimerSetsSeconds(g: Linked, i: nat, secs: nat)
    requires Valid(g) && i < |g.dials|
    ensures EditTimer(g, i, ClockText(secs)).timerSecs == g.timerSecs[i := secs]
  {
    ClockTextRoundTrip(secs);
  }

  /** Left click on the active dial: the dial's entry text is committed
      first, then the dial gains one segment as a contiguous prefix, and
      the clicks are rebound. */
  function ClickActive(g: Linked): (r: Linked)
    requires Valid(g)
    ensures Valid(r)
    ensures ActiveIndex(g.dials).None? ==> r == g
    ensures ActiveIndex(g.dials).Some? ==>
      var i := ActiveIndex(g.dials).value;
      && r == CommitTimer(g, i).(dials := r.dials, rightUnfills := r.rightUnfills)
      && (r.rightUnfills <==> !TimersInUse(r.timerSecs))
      && (forall j :: 0 <= j < |g.dials| && j != i ==> r.dials[j] == g.dials[j])
      && SameButFill(r.dials[i], g.dials[i])
      && IsPrefixFill(r.dials[i].filled, CountTrue(g.dials[i].filled) + 1)
      && CountTrue(r.dials[i].filled) == CountTrue(g.dials[i].filled) + 1
  {
    match ActiveIndex(g.dials)
    case None => g
    case Some(i) =>
      var g1 := CommitTimer(g, i);
      var d := Increase(g1.dials[i]);
      ValidUpdate(g1, i, d, g1.elapsedMs[i]);
      assert g1.elapsedMs[i := g1.elapsedMs[i]] == g1.elapsedMs;
      Rebind(g1.(dials := g1.dials[i := d]))
  }

  /** Every entry box shows its dial's stored countdown. */
  predicate EntriesShowTimers(g: Linked) {
    && |g.entries| == |g.timerSecs|
    && forall i :: 0 <= i < |g.entries| ==> g.timerSecs[i] >= 0 && g.entries[i] == ClockText(g.timerSecs[i])
  }

  /** While the boxes show the stored countdowns, a click on the active
      dial keeps every countdown (it still restarts the elapsed times). */
  lemma ClickKeepsShownTimers(g: Linked)
    requires Valid(g) && EntriesShowTimers(g)
    ensures ClickActive(g).timerSecs == g.timerSecs
  {
    if ActiveIndex(g.dials).Some? {
      var i := ActiveIndex(g.dials).value;
      var t := g.timerSecs[i];
      assert StoredTimer(t, g.entries[i]) == t by {
        assert g.entries[i] == ClockText(t);
        ClockTextRoundTrip(t);
      }
      assert ClickActive(g).timerSecs == CommitTimer(g, i).timerSecs == g.timerSecs[i := t];
      assert g.timerSecs[i := t] == g.timerSecs;
    }
  }

  // ---------------------------------------------------------------------
  // Shared settings
  // ---------------------------------------------------------------------

  /** A write to the shared segment count: every dial resizes to it,
      keeping its leading segments and labels; timers stay and the clicks
      are rebound. */
  function SetGroupSegments(g: Linked, k: int): (r: Linked)
    requires Valid(g)
    ensures k >= 0 ==> Valid(r)
    ensures r == g.(segments := k, dials := r.dials, rightUnfills := r.rightUnfills) && |r.dials| == |g.dials|
    ensures r.rightUnfills <==> !TimersInUse(g.timerSecs)
    ensures forall i :: 0 <= i < |g.dials| ==>
      && r.dials[i].segments == k
      && (forall j :: 0 <= j < Min(k, g.segments) ==>
            r.dials[i].filled[j] == g.dials[i].filled[j] && r.dials[i].labels[j] == g.dials[i].labels[j])
  {
    Rebind(g.(segments := k, dials := seq(|g.dials|, i requires 0 <= i < |g.dials| => SetSegments(g.dials[i], k))))
  }

  /** A write to the shared dark-mode flag: every dial and the overlay
      text colour run the default-colour swap for the new mode. */
  function SetGroupTheme(g: Linked, dark: bool): (r: Linked)
    requires Valid(g)
    ensures Valid(r) && r.inverted == dark && |r.dials| == |g.dials|
    ensures r == g.(inverted := dark, dials := r.dials, overlayColor := r.overlayColor)
    ensures forall i :: 0 <= i < |g.dials| ==>
      r.dials[i] == g.dials[i].(inverted := dark, fillColor := Theme.SwapDefaultFill(g.dials[i].fillColor, dark))
    ensures r.overlayColor == Theme.SwapDefaultFill(g.overlayColor, dark)
  {
    g.(inverted := dark, dials := seq(|g.dials|, i requires 0 <= i < |g.dials| => SetDarkMode(g.dials[i], dark)),
       overlayColor := Theme.SwapDefaultFill(g.overlayColor, dark))
  }

  /** Writing the same dark-mode flag twice is the same as writing it once. */
  lemma SetGroupThemeIdempotent(g: Linked, dark: bool)
    requires Valid(g)
    ensures SetGroupTheme(SetGroupTheme(g, dark), dark) == SetGroupTheme(g, dark)
  {
    var r1 := SetGroupTheme(g, dark);
    var r2 := SetGroupTheme(r1, dark);
    forall i | 0 <= i < |g.dials| ensures r2.dials[i] == r1.dials[i] {
      Theme.SwapIdempotent(g.dials[i].fillColor, dark);
    }
    Theme.SwapIdempotent(g.overlayColor, dark);
  }

  // ---------------------------------------------------------------------
  // Persistence
  // ---------------------------------------------------------------------

  /** One element of the saved "dials" list: anything that is not a dict
      is skipped on restore. */
  datatype DialEntry = NotADict | DialDict(dial: DialRecord, timerSeconds: Option<int>)

  /** The saved dict of a linked tab; absent keys are None. The overlay
      colour is not saved. */
  datatype LinkedRecord = LinkedRecord(
    title: Option<string>,
    segments: Option<int>,
    inverted: Option<bool>,
    notes: Option<string>,
    showOverlay: Option<bool>,
    beepOnComplete: Option<bool>,
    dials: Option<seq<DialEntry>>)

  /** `to_dict` of a linked tab: every dial's own dict plus its timer. */
  function LinkedToDict(g: Linked): (r: LinkedRecord)
    ensures r.dials.Some? && |r.dials.value| == |g.dials|
    ensures forall i :: 0 <= i < |g.dials| && i < |g.timerSecs| ==>
      r.dials.value[i] == DialDict(ToDict(g.dials[i]), Some(g.timerSecs[i]))
  {
    LinkedRecord(Some(g.title), Some(g.segments), Some(g.inverted), Some(g.notes),
                 Some(g.showOverlay), Some(g.beepOnComplete),
                 Some(seq(|g.dials|, i requires 0 <= i < |g.dials| =>
                   DialDict(ToDict(g.dials[i]), Some(if i < |g.timerSecs| then g.timerSecs[i] else 0)))))
  }

  /** The first half of `from_dict`: shared settings written (the
      dark-mode write re-runs the overlay colour swap) and the dials
      rebuilt empty, one per saved entry within 2..6. */
  function RebuiltFrame(cur: Linked, data: LinkedRecord): (r: Linked)
    ensures r.segments == data.segments.GetOr(4) && r.inverted == data.inverted.GetOr(false)
    ensures |r.dials| == DialCountFor(|data.dials.GetOr([])|)
    ensures Aligned(r) && (r.segments >= 0 ==> Valid(r))
    ensures forall i :: 0 <= i < |r.dials| ==> r.timerSecs[i] == 0 && r.entries[i] == ZeroEntry
  {
    var segs := data.segments.GetOr(4);
    var inv := data.inverted.GetOr(false);
    var n := DialCountFor(|data.dials.GetOr([])|);
    Linked(data.title.GetOr("Linked Clocks"), segs, inv, data.notes.GetOr(""),
           data.showOverlay.GetOr(false), data.beepOnComplete.GetOr(false),
           Theme.SwapDefaultFill(cur.overlayColor, inv),
           seq(n, i requires 0 <= i < n => GroupDial(i, segs, inv)),
           Repeat(0, n), Repeat(ZeroEntry, n), Repeat(0, n), cur.running, true)
  }

  /** The shape feeding needs: one timer and one entry per dial. */
  predicate Aligned(g: Linked) {
    |g.timerSecs| == |g.dials| && |g.entries| == |g.dials| && |g.elapsedMs| == |g.dials|
  }

  /** Feeding saved entry e into dial i as the source does: the dial's
      `from_dict` is handed a dict without "segments" and "inverted", so
      it writes the SHARED segment count and dark-mode flag with their
      defaults (4, light mode); every dial resizes and re-themes, the
      overlay colour swaps, and only then does dial i take its saved
      fill, labels and colour. The entry box is left at its old text. */
  function FeedAsWritten(g: Linked, i: nat, e: DialEntry): (r: Linked)
    requires Aligned(g) && i < |g.dials|
    ensures Aligned(r) && |r.dials| == |g.dials| && r.entries == g.entries
    ensures e.DialDict? ==> r.segments == 4 && !r.inverted
    ensures e.NotADict? ==> r == g
    ensures forall j :: 0 <= j < |g.dials| && j != i ==> r.timerSecs[j] == g.timerSecs[j]
    ensures e.DialDict? ==> r.timerSecs[i] == Max(0, e.timerSeconds.GetOr(0))
  {
    match e
    case NotADict => g
    case DialDict(rec, t) =>
      var n := |g.dials|;
      var shared := g.(segments := 4, inverted := false,
                       dials := seq(n, j requires 0 <= j < n => SetDarkMode(SetSegments(g.dials[j], 4), false)),
                       overlayColor := Theme.SwapDefaultFill(g.overlayColor, false));
      shared.(dials := shared.dials[i := FromDict(shared.dials[i], rec.(segments := None, inverted := None))],
              timerSecs := shared.timerSecs[i := Max(0, t.GetOr(0))])
  }

  /** Feeding saved entry e into dial i as intended: the dial takes its
      saved state under the tab's own segment count and dark mode, and
      its entry box shows the restored countdown. */
  function FeedFixed(g: Linked, i: nat, e: DialEntry): (r: Linked)
    requires Aligned(g) && i < |g.dials|
    ensures Aligned(r) && |r.dials| == |g.dials|
    ensures r.segments == g.segments && r.inverted == g.inverted
    ensures e.NotADict? ==> r == g
    ensures forall j :: 0 <= j < |g.dials| && j != i ==>
      r.dials[j] == g.dials[j] && r.timerSecs[j] == g.timerSecs[j] && r.entries[j] == g.entries[j]
    ensures e.DialDict? ==>
      && r == g.(dials := r.dials, timerSecs := r.timerSecs, entries := r.entries)
      && r.dials[i] == FromDict(g.dials[i], e.dial.(segments := Some(g.segments), inverted := Some(g.inverted)))
      && r.timerSecs[i] == Max(0, e.timerSeconds.GetOr(0))
      && r.entries[i] == ClockText(Max(0, e.timerSeconds.GetOr(0)))
  {
    match e
    case NotADict => g
    case DialDict(rec, t) =>
      var secs := Max(0, t.GetOr(0));
      g.(dials := g.dials[i := FromDict(g.dials[i], rec.(segments := Some(g.segments), inverted := Some(g.inverted)))],
         timerSecs := g.timerSecs[i := secs],
         entries := g.entries[i := ClockText(secs)])
  }

  /** The feeding loop of `from_dict` over `dials_data[:len(dials)]`,
      from position i on. */
  function FeedFrom(g: Linked, es: seq<DialEntry>, i: nat, fixed: bool): (r: Linked)
    requires Aligned(g)
    ensures Aligned(r) && |r.dials| == |g.dials|
    decreases |es| - i
  {
    if i >= |es| || i >= |g.dials| then g
    else FeedFrom(if fixed then FeedFixed(g, i, es[i]) else FeedAsWritten(g, i, es[i]), es, i + 1, fixed)
  }

  /** One turn of the feeding loop, naming the fed tab and the next
      position. */
  lemma FeedTurn(g: Linked, es: seq<DialEntry>, i: nat, fixed: bool) returns (next: Linked, j: nat)
    requires Aligned(g) && i < |es| && i < |g.dials|
    ensures j == i + 1 && next == (if fixed then FeedFixed(g, i, es[i]) else FeedAsWritten(g, i, es[i]))
    ensures FeedFrom(g, es, i, fixed) == FeedFrom(next, es, j, fixed)
  {
    next := if fixed then FeedFixed(g, i, es[i]) else FeedAsWritten(g, i, es[i]);
    j := i + 1;
  }

  /** `from_dict` of a linked tab as written. */
  function LinkedFromDict(cur: Linked, data: LinkedRecord): (r: Linked)
    ensures |r.dials| == DialCountFor(|data.dials.GetOr([])|) && Aligned(r)
    ensures forall i :: 0 <= i < |r.elapsedMs| ==> r.elapsedMs[i] == 0
    ensures r.rightUnfills <==> !TimersInUse(r.timerSecs)
  {
    var r := FeedFrom(RebuiltFrame(cur, data), data.dials.GetOr([]), 0, false);
    Rebind(r.(elapsedMs := Repeat(0, |r.dials|)))
  }

  /** `from_dict` of a linked tab with the two corrections: the saved
      dials keep the tab's segment count and dark mode, and the entry
      boxes show the restored countdowns. */
  function LinkedFromDictFixed(cur: Linked, data: LinkedRecord): (r: Linked)
    ensures |r.dials| == DialCountFor(|data.dials.GetOr([])|) && Aligned(r)
    ensures r.segments == data.segments.GetOr(4) && r.inverted == data.inverted.GetOr(false)
    ensures forall i :: 0 <= i < |r.elapsedMs| ==> r.elapsedMs[i] == 0
    ensures r.rightUnfills <==> !TimersInUse(r.timerSecs)
  {
    var r := FeedFrom(RebuiltFrame(cur, data), data.dials.GetOr([]), 0, true);
    FeedFixedKeepsShared(RebuiltFrame(cur, data), data.dials.GetOr([]), 0);
    Rebind(r.(elapsedMs := Repeat(0, |r.dials|)))
  }

  lemma {:induction false} FeedFixedKeepsShared(g: Linked, es: seq<DialEntry>, i: nat)
    requires Aligned(g)
    ensures FeedFrom(g, es, i, true).segments == g.segments
    ensures FeedFrom(g, es, i, true).inverted == g.inverted
    decreases |es| - i
  {
    if i < |es| && i < |g.dials| {
      FeedFixedKeepsShared(FeedFixed(g, i, es[i]), es, i + 1);
    }
  }

  // ----- the segment-count finding -----

  /** As written, once one saved dial has been fed the shared settings stay
      at the defaults the dial wrote. */
  lemma {:induction false} FeedKeepsDefaults(g: Linked, es: seq<DialEntry>, i: nat)
    requires Aligned(g) && g.segments == 4 && !g.inverted
    ensures FeedFrom(g, es, i, false).segments == 4 && !FeedFrom(g, es, i, false).inverted
    decreases |es| - i
  {
    if i < |es| && i < |g.dials| {
      var next, j := FeedTurn(g, es, i, false);
      FeedKeepsDefaults(next, es, j);
    }
  }

  /** As written, any saved dial dict within reach resets the tab to four
      segments and light mode, whatever the tab itself saved. */
  lemma {:induction false} FeedForgetsShared(g: Linked, es: seq<DialEntry>, i: nat, k: nat)
    requires Aligned(g) && i <= k < |es| && k < |g.dials| && es[k].DialDict?
    ensures FeedFrom(g, es, i, false).segments == 4 && !FeedFrom(g, es, i, false).inverted
    decreases k - i
  {
    var next, j := FeedTurn(g, es, i, false);
    if i == k {
      FeedKeepsDefaults(next, es, j);
    } else {
      FeedForgetsShared(next, es, j, k);
    }
  }

  /** A tab saved with 8 segments in dark mode and one dial comes back with
      4 segments in light mode; the corrected restore keeps both. */
  lemma RestoreForgetsSegments(cur: Linked, rec: DialRecord, t: Option<int>)
    ensures var data := LinkedRecord(None, Some(8), Some(true), None, None, None, Some([DialDict(rec, t)]));
      && LinkedFromDict(cur, data).segments == 4 && !LinkedFromDict(cur, data).inverted
      && LinkedFromDictFixed(cur, data).segments == 8 && LinkedFromDictFixed(cur, data).inverted
  {
    var data := LinkedRecord(None, Some(8), Some(true), None, None, None, Some([DialDict(rec, t)]));
    var g := RebuiltFrame(cur, data);
    FeedForgetsShared(g, [DialDict(rec, t)], 0, 0);
  }

  // ----- the entry-box finding -----

  /** Positions before i are not touched by feeding from i on. */
  lemma {:induction false} FeedLeavesEarlier(g: Linked, es: seq<DialEntry>, i: nat, k: nat, fixed: bool)
    requires Aligned(g) && k < i && k < |g.dials|
    ensures FeedFrom(g, es, i, fixed).timerSecs[k] == g.timerSecs[k]
    decreases |es| - i
  {
    if i < |es| && i < |g.dials| {
      var next, j := FeedTurn(g, es, i, fixed);
      FeedLeavesEarlier(next, es, j, k, fixed);
    }
  }

  /** As written, feeding never changes an entry box. */
  lemma {:induction false} FeedKeepsEntries(g: Linked, es: seq<DialEntry>, i: nat)
    requires Aligned(g)
    ensures FeedFrom(g, es, i, false).entries == g.entries
    decreases |es| - i
  {
    if i < |es| && i < |g.dials| {
      var next, j := FeedTurn(g, es, i, false);
      FeedKeepsEntries(next, es, j);
    }
  }

  /** The timer saved with dial k is the one restored. */
  lemma FeedRestoresTimer(g: Linked, es: seq<DialEntry>, k: nat, fixed: bool)
    requires Aligned(g) && k < |es| && k < |g.dials| && es[k].DialDict?
    ensures FeedFrom(g, es, 0, fixed).timerSecs[k] == Max(0, es[k].timerSeconds.GetOr(0))
  {
    FeedPrefix(g, es, 0, k, fixed);
  }

  /** Feeding from i reaches position k with the timer restored there. */
  lemma {:induction false} FeedPrefix(g: Linked, es: seq<DialEntry>, i: nat, k: nat, fixed: bool)
    requires Aligned(g) && i <= k < |es| && k < |g.dials| && es[k].DialDict?
    ensures FeedFrom(g, es, i, fixed).timerSecs[k] == Max(0, es[k].timerSeconds.GetOr(0))
    decreases k - i
  {
    var next, j := FeedTurn(g, es, i, fixed);
    if i == k {
      FeedLeavesEarlier(next, es, j, k, fixed);
    } else {
      FeedPrefix(next, es, j, k, fixed);
    }
  }

  /** The untouched entry box reads as zero seconds. */
  lemma ZeroEntryReadsZero()
    ensures ParseCountdown(ZeroEntry) == Some(0)
  {
    ClockTextRoundTrip(0);
    ClockTextZero();
  }

  /** Zero seconds are written 00:00:00. */
  lemma ClockTextZero()
    ensures ClockText(0) == ZeroEntry
  {
    assert HoursMinutesSeconds(0) == (0, 0, 0);
    assert NatToDecimal(0) == "0";
    assert Pad2(0) == "00";
  }

  /** As written, every entry box of a restored tab reads 00:00:00 while
      the timer saved with dial k is restored. */
  lemma RestoredBoxesReadZero(cur: Linked, data: LinkedRecord, k: nat)
    requires data.dials.Some? && k < |data.dials.value| && k < MaxDials
    requires data.dials.value[k].DialDict?
    ensures var r := LinkedFromDict(cur, data);
      && k < |r.dials|
      && r.timerSecs[k] == Max(0, data.dials.value[k].timerSeconds.GetOr(0))
      && forall j :: 0 <= j < |r.entries| ==> r.entries[j] == ZeroEntry
  {
    var g := RebuiltFrame(cur, data);
    var es := data.dials.value;
    FeedRestoresTimer(g, es, k, false);
    FeedKeepsEntries(g, es, 0);
  }

  /** What feeding keeps: 2..6 dials following the shared settings, one
      timer and entry per dial, and no negative timer. */
  predicate Shaped(g: Linked) {
    && Aligned(g) && MinDials <= |g.dials| <= MaxDials
    && DialsFollow(g.dials, g.segments, g.inverted)
    && forall i :: 0 <= i < |g.timerSecs| ==> g.timerSecs[i] >= 0
  }

  /** One written feed step keeps that shape: every dial is resized and
      re-themed to the defaults the step writes. */
  lemma FeedAsWrittenShaped(g: Linked, i: nat, e: DialEntry)
    requires Shaped(g) && i < |g.dials|
    ensures Shaped(FeedAsWritten(g, i, e))
  {
    if e.DialDict? {
      var r := FeedAsWritten(g, i, e);
      forall j | 0 <= j < |r.dials|
        ensures r.dials[j].segments == 4 && !r.dials[j].inverted && WellSized(r.dials[j])
      {
      }
    }
  }

  lemma {:induction false} FeedAsWrittenKeepsShape(g: Linked, es: seq<DialEntry>, i: nat)
    requires Shaped(g)
    ensures Shaped(FeedFrom(g, es, i, false))
    decreases |es| - i
  {
    if i < |es| && i < |g.dials| {
      var next, j := FeedTurn(g, es, i, false);
      FeedAsWrittenShaped(g, i, es[i]);
      FeedAsWrittenKeepsShape(next, es, j);
    }
  }

  /** The written restore always yields a valid tab when the saved segment
      count (default 4) is not negative. */
  lemma LinkedFromDictValid(cur: Linked, data: LinkedRecord)
    requires data.segments.GetOr(4) >= 0
    ensures Valid(LinkedFromDict(cur, data))
  {
    FeedAsWrittenKeepsShape(RebuiltFrame(cur, data), data.dials.GetOr([]), 0);
  }

  /** As written, a restored tab whose active dial had a countdown loses it
      on the first click: the click commits the entry box, which still
      reads 00:00:00. */
  lemma RestoredTimerLostOnClick(cur: Linked, data: LinkedRecord, k: nat)
    requires data.dials.Some? && k < |data.dials.value| && k < MaxDials
    requires data.dials.value[k].DialDict? && data.dials.value[k].timerSeconds.GetOr(0) > 0
    requires data.segments.GetOr(4) >= 0 && ActiveIndex(LinkedFromDict(cur, data).dials) == Some(k)
    ensures Valid(LinkedFromDict(cur, data)) && LinkedFromDict(cur, data).timerSecs[k] > 0
    ensures ClickActive(LinkedFromDict(cur, data)).timerSecs[k] == 0
  {
    var r := LinkedFromDict(cur, data);
    LinkedFromDictValid(cur, data);
    RestoredBoxesReadZero(cur, data, k);
    ZeroEntryReadsZero();
    assert StoredTimer(r.timerSecs[k], r.entries[k]) == 0;
    assert ClickActive(r).timerSecs == CommitTimer(r, k).timerSecs;
  }

  /** The concrete case: a tab saved with one empty dial carrying a 60 s
      countdown is restored with that countdown, and the first click on the
      dial sets it to 0. */
  lemma RestoredTimerLostExample(cur: Linked)
    ensures var rec := DialRecord(None, None, None, None, None, None, None, None, None);
      var data := LinkedRecord(None, None, None, None, None, None, Some([DialDict(rec, Some(60))]));
      && Valid(LinkedFromDict(cur, data)) && LinkedFromDict(cur, data).timerSecs[0] == 60
      && ClickActive(LinkedFromDict(cur, data)).timerSecs[0] == 0
  {
    var rec := DialRecord(None, None, None, None, None, None, None, None, None);
    var es := [DialDict(rec, Some(60))];
    var data := LinkedRecord(None, None, None, None, None, None, Some(es));
    LinkedFromDictValid(cur, data);
    var g := RebuiltFrame(cur, data);
    var next, j := FeedTurn(g, es, 0, false);
    assert FeedFrom(next, es, j, false) == next;
    var r := LinkedFromDict(cur, data);
    assert r.dials[0] == next.dials[0];
    assert IsPrefixFill(r.dials[0].filled, 0) && r.dials[0].segments == 4;
    PrefixFillCount(r.dials[0].filled, 0);
    ActiveIndexIs(r.dials, 0);
    RestoredTimerLostOnClick(cur, data, 0);
  }

  /** In the corrected restore every entry box shows its dial's countdown. */
  lemma {:induction false} FeedFixedShowsTimers(g: Linked, es: seq<DialEntry>, i: nat)
    requires Aligned(g) && EntriesShowTimers(g)
    ensures EntriesShowTimers(FeedFrom(g, es, i, true))
    decreases |es| - i
  {
    if i < |es| && i < |g.dials| {
      var next, j := FeedTurn(g, es, i, true);
      FeedFixedShowsTimers(next, es, j);
    }
  }

  /** After the corrected restore a click keeps every restored countdown. */
  lemma FixedRestoreKeepsTimersOnClick(cur: Linked, data: LinkedRecord)
    requires Valid(LinkedFromDictFixed(cur, data))
    ensures ClickActive(LinkedFromDictFixed(cur, data)).timerSecs == LinkedFromDictFixed(cur, data).timerSecs
  {
    var g := RebuiltFrame(cur, data);
    ClockTextZero();
    assert EntriesShowTimers(g);
    FeedFixedShowsTimers(g, data.dials.GetOr([]), 0);
    ClickKeepsShownTimers(LinkedFromDictFixed(cur, data));
  }

  // ----- the corrected restore is a round trip -----

  /** The relation FeedFixedRoundTrip carries: h agrees with g on the
      shared settings and on every dial before i. */
  predicate AgreesBefore(g: Linked, h: Linked, i: nat) {
    && Aligned(h) && |h.dials| == |g.dials| && Aligned(g)
    && h.segments == g.segments && h.inverted == g.inverted && i <= |g.dials|
    && forall j :: 0 <= j < i ==>
         h.dials[j] == g.dials[j] && h.timerSecs[j] == g.timerSecs[j] && h.entries[j] == g.entries[j]
  }

  /** e is the saved dict of dial i of g, and that dial, its countdown
      and its entry text are what a restore must reproduce. */
  predicate SavedAt(g: Linked, e: DialEntry, i: nat) {
    && i < |g.dials| && i < |g.timerSecs| && i < |g.entries|
    && e == DialDict(ToDict(g.dials[i]), Some(g.timerSecs[i]))
    && WellSized(g.dials[i]) && g.dials[i].segments == g.segments && g.dials[i].inverted == g.inverted
    && g.timerSecs[i] >= 0 && g.entries[i] == ClockText(g.timerSecs[i])
  }

  /** es holds the saved dict of every dial of g with its countdown. */
  predicate SavedAs(g: Linked, es: seq<DialEntry>) {
    |es| == |g.dials| && forall i :: 0 <= i < |es| ==> SavedAt(g, es[i], i)
  }

  /** Feeding the saved dict of dial i of g restores g's dial i, its
      countdown and the entry text showing it. */
  lemma FeedFixedRestoresOne(g: Linked, e: DialEntry, h: Linked, i: nat)
    requires SavedAt(g, e, i) && AgreesBefore(g, h, i)
    ensures var r := FeedFixed(h, i, e);
      r.dials[i] == g.dials[i] && r.timerSecs[i] == g.timerSecs[i] && r.entries[i] == g.entries[i]
  {
    var d := g.dials[i];
    assert ToDict(d).(segments := Some(g.segments), inverted := Some(g.inverted)) == ToDict(d);
    RoundTrip(h.dials[i], d);
    assert Max(0, g.timerSecs[i]) == g.timerSecs[i];
  }

  /** h carrying g's dials, countdowns and entry texts. */
  function Restored(h: Linked, g: Linked): Linked {
    h.(dials := g.dials, timerSecs := g.timerSecs, entries := g.entries)
  }

  /** Feeding the saved dict of dial i of g puts g's dial i back and
      changes nothing else. */
  lemma FeedFixedStep(g: Linked, e: DialEntry, h: Linked, i: nat)
    requires SavedAt(g, e, i) && AgreesBefore(g, h, i)
    ensures AgreesBefore(g, FeedFixed(h, i, e), i + 1)
    ensures Restored(FeedFixed(h, i, e), g) == Restored(h, g)
  {
    FeedFixedRestoresOne(g, e, h, i);
    assert e.DialDict?;
  }

  /** One turn of the corrected feeding loop, named by its result. */
  lemma FeedFixedTurn(g: Linked, es: seq<DialEntry>, h: Linked, i: nat) returns (next: Linked, j: nat)
    requires SavedAs(g, es) && AgreesBefore(g, h, i) && i < |g.dials|
    ensures j == i + 1 && AgreesBefore(g, next, j) && Restored(next, g) == Restored(h, g)
    ensures FeedFrom(h, es, i, true) == FeedFrom(next, es, j, true)
  {
    next, j := FeedFixed(h, i, es[i]), i + 1;
    FeedFixedStep(g, es[i], h, i);
  }

  /** Agreeing on every position means carrying g's dials, countdowns and
      entry texts. */
  lemma AgreesEverywhere(g: Linked, h: Linked)
    requires AgreesBefore(g, h, |g.dials|)
    ensures h == Restored(h, g)
  {
    assert h.dials == g.dials;
    assert h.timerSecs == g.timerSecs;
    assert h.entries == g.entries;
  }

  /** Feeding the saved entries from position i onward into a frame that
      already agrees with the saved tab below i completes the restore:
      every remaining dial, timer and entry box comes back. */
  lemma {:induction false} FeedFixedRoundTrip(g: Linked, es: seq<DialEntry>, h: Linked, i: nat)
    requires SavedAs(g, es) && AgreesBefore(g, h, i)
    ensures FeedFrom(h, es, i, true) == Restored(h, g)
    decreases |g.dials| - i
  {
    if i < |g.dials| {
      var next, j := FeedFixedTurn(g, es, h, i);
      FeedFixedRoundTrip(g, es, next, j);
    } else {
      assert FeedFrom(h, es, i, true) == h;
      AgreesEverywhere(g, h);
    }
  }

  /** Saving a valid linked tab whose entry boxes show its countdowns and
      restoring it with the corrected `from_dict` gives the tab back, with
      the elapsed times restarted, the clicks rebound, and the unsaved
      overlay colour and run state taken from the frame restored into. */
  lemma LinkedRoundTrip(cur: Linked, g: Linked)
    requires Valid(g) && EntriesShowTimers(g)
    ensures LinkedFromDictFixed(cur, LinkedToDict(g))
         == g.(overlayColor := Theme.SwapDefaultFill(cur.overlayColor, g.inverted),
               running := cur.running, elapsedMs := Repeat(0, |g.dials|),
               rightUnfills := !TimersInUse(g.timerSecs))
  {
    var data := LinkedToDict(g);
    var h := RebuiltFrame(cur, data);
    assert |h.dials| == |g.dials|;
    assert SavedAs(g, data.dials.value) by {
      forall j | 0 <= j < |g.dials| ensures SavedAt(g, data.dials.value[j], j) {
        assert g.dials[j].segments == g.segments && g.dials[j].inverted == g.inverted && WellSized(g.dials[j]);
      }
    }
    FeedFixedRoundTrip(g, data.dials.value, h, 0);
  }
}

=== FILE: helpers.dfy ===
/** The free helper functions of progress_clocks.py: numbering new tabs,
    shortening tab titles, centring a window on a monitor rectangle, and
    reading a hex colour. */
module Helpers {
  import opened PyLib

  // ---------------------------------------------------------------------
  // _next_numbered_title
  // ---------------------------------------------------------------------

  /** The number an existing title claims for `base`: 1 for the bare base,
      n for "base n" (digits, surrounding whitespace ignored), none for
      anything else. A missing title counts as the empty one. */
  function Claim(title: Option<string>, base: string): Option<nat> {
    var t := Strip(title.GetOr(""));
    var prefix := base + " ";
    if t == base then Some(1)
    else if |prefix| <= |t| && t[..|prefix|] == prefix then
      var tail := Strip(t[|prefix|..]);
      if |tail| > 0 && AllDigits(tail) then Some(DecimalValue(tail)) else None
    else None
  }

  predicate Claimed(titles: seq<Option<string>>, base: string, n: nat) {
    exists i :: 0 <= i < |titles| && Claim(titles[i], base) == Some(n)
  }

  /** A number at least as large as every entry. */
  function UpperBound(s: seq<nat>): (r: nat)
    ensures forall x :: x in s ==> x <= r
  {
    if |s| == 0 then 0
    else
      assert forall x :: x in s ==> x == s[0] || x in s[1..] by {
        forall x | x in s ensures x == s[0] || x in s[1..] {
          var k :| 0 <= k < |s| && s[k] == x;
          if k > 0 { assert s[1..][k - 1] == x; }
        }
      }
      Max(s[0], UpperBound(s[1..]))
  }

  /** A title "base n" claims n, whatever whitespace surrounded it. */
  lemma TitleClaimsItsNumber(title: Option<string>, base: string, n: nat)
    requires Strip(title.GetOr("")) == base + " " + NatToDecimal(n)
    ensures Claim(title, base) == Some(n)
  {
    var d := NatToDecimal(n);
    var prefix := base + " ";
    var t := prefix + d;
    assert t != base by { assert |t| > |base|; }
    assert t[..|prefix|] == prefix;
    assert t[|prefix|..] == d;
    StripUnchanged(d);
    DecimalRoundTrip(n);
  }

  /** One more title claims what it claims, in addition to the others. */
  lemma ClaimedAppend(titles: seq<Option<string>>, t: Option<string>, base: string, k: nat)
    ensures Claimed(titles + [t], base, k) <==> Claimed(titles, base, k) || Claim(t, base) == Some(k)
  {
    var ts := titles + [t];
    if Claimed(ts, base, k) {
      var j :| 0 <= j < |ts| && Claim(ts[j], base) == Some(k);
      if j < |titles| {
        assert ts[j] == titles[j];
      }
    }
    if Claimed(titles, base, k) {
      var j :| 0 <= j < |titles| && Claim(titles[j], base) == Some(k);
      assert ts[j] == titles[j];
    }
    if Claim(t, base) == Some(k) {
      assert ts[|titles|] == t;
    }
  }

  /** The set `used` of `_next_numbered_title`, as a list of the numbers
      the existing titles claim. */
  method CollectClaims(titles: seq<Option<string>>, base: string) returns (used: seq<nat>)
    ensures forall k :: k in used <==> Claimed(titles, base, k)
  {
    used := [];
    var i := 0;
    while i < |titles|
      invariant 0 <= i <= |titles|
      invariant forall k :: k in used <==> Claimed(titles[..i], base, k)
    {
      var c := Claim(titles[i], base);
      assert titles[..i + 1] == titles[..i] + [titles[i]];
      forall k: nat ensures Claimed(titles[..i + 1], base, k) <==> Claimed(titles[..i], base, k) || c == Some(k) {
        ClaimedAppend(titles[..i], titles[i], base, k);
      }
      if c.Some? {
        used := used + [c.value];
      }
      i := i + 1;
    }
    assert titles[..i] == titles;
  }

  /** The least n >= 1 missing from `used`. */
  method LeastAbsent(used: seq<nat>) returns (n: nat)
    ensures n >= 1 && n !in used
    ensures forall k :: 1 <= k < n ==> k in used
  {
    n := 1;
    while n in used
      invariant n >= 1
      invariant forall k :: 1 <= k < n ==> k in used
      decreases UpperBound(used) + 1 - n
    {
      n := n + 1;
    }
  }

  /** `_next_numbered_title`: "base n" for the least n >= 1 that no
      existing title claims, so the new title is never one already shown. */
  method NextNumberedTitle(titles: seq<Option<string>>, base: string) returns (r: string, n: nat)
    ensures n >= 1 && r == base + " " + NatToDecimal(n)
    ensures !Claimed(titles, base, n)
    ensures forall k :: 1 <= k < n ==> Claimed(titles, base, k)
    ensures forall i :: 0 <= i < |titles| ==> Strip(titles[i].GetOr("")) != r
  {
    var used := CollectClaims(titles, base);
    n := LeastAbsent(used);
    r := base + " " + NatToDecimal(n);
    forall j | 0 <= j < |titles| ensures Strip(titles[j].GetOr("")) != r {
      if Strip(titles[j].GetOr("")) == r {
        TitleClaimsItsNumber(titles[j], base, n);
      }
    }
  }

  // ---------------------------------------------------------------------
  // _short_title
  // ---------------------------------------------------------------------

  const Ellipsis: char := '\U{2026}'

  /** A stripped title cut to 18 characters with an ellipsis after. */
  function Shorten(t: string): string {
    if |t| > 18 then t[..18] + [Ellipsis] else t
  }

  /** The title a tab shows: a missing or empty title reads "Clock"; the
      stripped title is cut to 18 characters with an ellipsis after. */
  function ShortTitle(title: Option<string>): (r: string)
    ensures |r| <= 19
    ensures r != "" ==> !IsSpace(r[0]) && !IsSpace(r[|r| - 1])
    ensures title.None? || title.value == "" ==> r == "Clock"
    ensures title.Some? && title.value != "" && |Strip(title.value)| <= 18 ==> r == Strip(title.value)
    ensures title.Some? && title.value != "" && |Strip(title.value)| > 18 ==>
      |r| == 19 && r[..18] == Strip(title.value)[..18] && r[18] == Ellipsis
  {
    if title.None? || title.value == "" then
      StripUnchanged("Clock");
      Shorten(Strip("Clock"))
    else Shorten(Strip(title.value))
  }

  /** Shortening a shown title again changes nothing, unless the title was
      all whitespace: that one shows as empty and would then read "Clock". */
  lemma ShortTitleIdempotent(title: Option<string>)
    ensures ShortTitle(title) != "" ==> ShortTitle(Some(ShortTitle(title))) == ShortTitle(title)
  {
    var r := ShortTitle(title);
    if r != "" {
      assert Strip(r) == r by {
        StripUnchanged(r);
      }
      assert ShortTitle(Some(r)) == Shorten(r);
      assert |r| == 19 ==> r[..18] + [Ellipsis] == r;
    }
  }

  /** A title of whitespace alone is not replaced by "Clock": it shows as
      an empty tab title. */
  lemma BlankTitleShowsEmpty(title: string)
    requires title != "" && Strip(title) == ""
    ensures ShortTitle(Some(title)) == ""
  {
  }

  // ---------------------------------------------------------------------
  // _center_geometry_on_rect
  // ---------------------------------------------------------------------

  /** A monitor rectangle (left, top, right, bottom). */
  datatype Rect = Rect(left: int, top: int, right: int, bottom: int)

  /** The start coordinate of a window of `size` centred in [lo, hi): the
      span is at least 1 and a window wider than the span is pinned to lo. */
  function CenterOffset(lo: int, hi: int, size: int): (x: int)
    ensures x >= lo
    ensures var span := Max(1, hi - lo);
      size <= span ==> 0 <= (lo + span) - (x + size) - (x - lo) <= 1
    ensures size >= Max(1, hi - lo) ==> x == lo
  {
    lo + Max(0, (Max(1, hi - lo) - size) / 2)
  }

  /** The Tk geometry string "WxH+X+Y". */
  function Geometry(w: int, h: int, x: int, y: int): string {
    IntToDecimal(w) + "x" + IntToDecimal(h) + "+" + IntToDecimal(x) + "+" + IntToDecimal(y)
  }

  /** `_center_geometry_on_rect`: the window's own size, placed centred.
      Read the way Tk splits it, the string gives back the width and height
      unchanged and the centred offset on each axis. */
  function CenterGeometry(width: int, height: int, rect: Rect): (g: string)
    ensures var parts := Split(g, '+');
      && |parts| == 3 && |Split(parts[0], 'x')| == 2
      && ParseInt(Split(parts[0], 'x')[0], 10) == Some(width)
      && ParseInt(Split(parts[0], 'x')[1], 10) == Some(height)
      && ParseInt(parts[1], 10) == Some(CenterOffset(rect.left, rect.right, width))
      && ParseInt(parts[2], 10) == Some(CenterOffset(rect.top, rect.bottom, height))
  {
    var x := CenterOffset(rect.left, rect.right, width);
    var y := CenterOffset(rect.top, rect.bottom, height);
    GeometryReadsBack(width, height, x, y);
    Geometry(width, height, x, y)
  }

  /** `str(i)` never holds the separators of a geometry string. */
  lemma NoSeparators(i: int)
    ensures '+' !in IntToDecimal(i) && 'x' !in IntToDecimal(i)
  {
    IntDigits(i);
  }

  /** The pieces of a geometry string at its '+' and 'x' separators. */
  lemma GeometrySplit(w: int, h: int, x: int, y: int)
    ensures Split(Geometry(w, h, x, y), '+') == [IntToDecimal(w) + "x" + IntToDecimal(h), IntToDecimal(x), IntToDecimal(y)]
    ensures Split(IntToDecimal(w) + "x" + IntToDecimal(h), 'x') == [IntToDecimal(w), IntToDecimal(h)]
  {
    var ws, hs, xs, ys := IntToDecimal(w), IntToDecimal(h), IntToDecimal(x), IntToDecimal(y);
    NoSeparators(w);
    NoSeparators(h);
    NoSeparators(x);
    NoSeparators(y);
    var wh := ws + "x" + hs;
    assert '+' !in wh by {
      assert wh == ws + ['x'] + hs;
      assert forall c :: c in wh ==> c in ws || c == 'x' || c in hs;
    }
    assert Geometry(w, h, x, y) == wh + ['+'] + xs + ['+'] + ys;
    SplitThree(wh, xs, ys, '+');
    SplitAfterHead(ws, 'x', hs);
    SplitNoSep(hs, 'x');
  }

  /** Reading a geometry string back the way Tk splits it ('+', then 'x')
      recovers the four numbers, negative offsets included. */
  lemma GeometryReadsBack(w: int, h: int, x: int, y: int)
    ensures var parts := Split(Geometry(w, h, x, y), '+');
      |parts| == 3 && |Split(parts[0], 'x')| == 2
      && ParseInt(Split(parts[0], 'x')[0], 10) == Some(w) && ParseInt(Split(parts[0], 'x')[1], 10) == Some(h)
      && ParseInt(parts[1], 10) == Some(x) && ParseInt(parts[2], 10) == Some(y)
  {
    GeometrySplit(w, h, x, y);
    IntRoundTrip(w);
    IntRoundTrip(h);
    IntRoundTrip(x);
    IntRoundTrip(y);
  }

  /** Centring a window no larger than the rectangle keeps it inside, and
      the geometry string carries those offsets. */
  lemma CenteredInside(width: int, height: int, rect: Rect)
    requires 0 < width <= rect.right - rect.left && 0 < height <= rect.bottom - rect.top
    ensures var x := CenterOffset(rect.left, rect.right, width);
      var y := CenterOffset(rect.top, rect.bottom, height);
      rect.left <= x && x + width <= rect.right && rect.top <= y && y + height <= rect.bottom
      && |Split(CenterGeometry(width, height, rect), '+')| == 3
      && ParseInt(Split(CenterGeometry(width, height, rect), '+')[1], 10) == Some(x)
      && ParseInt(Split(CenterGeometry(width, height, rect), '+')[2], 10) == Some(y)
  {
  }

  // ---------------------------------------------------------------------
  // _hex_to_rgb
  // ---------------------------------------------------------------------

  /** "abc" becomes "aabbcc"; any other length is kept. */
  function ExpandShorthand(s: string): (r: string)
    ensures |s| == 3 ==> |r| == 6 && forall i :: 0 <= i < 6 ==> r[i] == s[i / 2]
    ensures |s| != 3 ==> r == s
  {
    if |s| == 3 then [s[0], s[0], s[1], s[1], s[2], s[2]] else s
  }

  /** `int(s, 16)` of a slice of at most two characters lies in [-15, 255]. */
  lemma ShortHexBounds(s: string)
    requires |s| <= 2
    ensures ParseInt(s, 16).Some? ==> -15 <= ParseInt(s, 16).value <= 255
  {
    var t := Strip(s);
    if |t| > 0 && (t[0] == '+' || t[0] == '-') {
      var u := t[1..];
      if |u| == 1 {
        assert DigitsValue(u, 16) == HexDigitValue(u[0]);
      }
    } else if |t| == 2 {
      assert t[..1][..0] == [];
      assert DigitsValue(t[..1], 16) == HexDigitValue(t[0]);
    }
  }

  /** The three two-character hex fields of the expanded text, or black
      when any of them does not read as a number. */
  function ReadFields(s: string): (rgb: (int, int, int))
    ensures -15 <= rgb.0 <= 255 && -15 <= rgb.1 <= 255 && -15 <= rgb.2 <= 255
  {
    var r := ParseInt(Slice(s, 0, 2), 16);
    var g := ParseInt(Slice(s, 2, 4), 16);
    var b := ParseInt(Slice(s, 4, 6), 16);
    assert r.Some? && g.Some? && b.Some? ==> -15 <= r.value <= 255 && -15 <= g.value <= 255 && -15 <= b.value <= 255 by {
      ShortHexBounds(Slice(s, 0, 2));
      ShortHexBounds(Slice(s, 2, 4));
      ShortHexBounds(Slice(s, 4, 6));
    }
    if r.Some? && g.Some? && b.Some? then (r.value, g.value, b.value) else (0, 0, 0)
  }

  /** Three readable fields give their three values. */
  lemma FieldsRead(s: string, r: int, g: int, b: int)
    requires ParseInt(Slice(s, 0, 2), 16) == Some(r) && ParseInt(Slice(s, 2, 4), 16) == Some(g)
    requires ParseInt(Slice(s, 4, 6), 16) == Some(b)
    ensures ReadFields(s) == (r, g, b)
  {
  }

  /** `_hex_to_rgb`: strip, drop leading '#', expand shorthand, read three
      two-digit hex fields; any unreadable field gives black. */
  function HexToRgb(text: string): (rgb: (int, int, int))
    ensures -15 <= rgb.0 <= 255 && -15 <= rgb.1 <= 255 && -15 <= rgb.2 <= 255
  {
    ReadFields(ExpandShorthand(LStripChar(Strip(text), '#')))
  }

  /** The text after the '#' of "#" followed by hex digits. */
  lemma HashPrefixDropped(body: string)
    requires |body| > 0 && forall i :: 0 <= i < |body| ==> !IsSpace(body[i]) && body[i] != '#'
    ensures LStripChar(Strip("#" + body), '#') == body
  {
    var text := "#" + body;
    assert text[0] == '#' && text[|text| - 1] == body[|body| - 1];
    StripUnchanged(text);
    assert text[1..] == body;
    assert LStripChar(body, '#') == body by {
      assert body[0] != '#';
    }
    assert LStripChar(text, '#') == LStripChar(text[1..], '#');
  }

  /** The lower-case hex digit of a value below 16. */
  function HexDigit(d: nat): (c: char)
    requires d < 16
    ensures HexDigitValue(c) == Some(d) && !IsSpace(c) && c != '#' && c != '+' && c != '-'
  {
    if d < 10 then ('0' as int + d) as char else ('a' as int + d - 10) as char
  }

  /** `f"{n:02x}"` for a byte value. */
  function Hex2(n: nat): (s: string)
    requires n < 256
    ensures |s| == 2 && ParseInt(s, 16) == Some(n)
    ensures forall i :: 0 <= i < 2 ==> !IsSpace(s[i]) && s[i] != '#'
  {
    var s := [HexDigit(n / 16), HexDigit(n % 16)];
    StripUnchanged(s);
    assert s[..1] == [HexDigit(n / 16)];
    assert DigitsValue(s[..1], 16) == Some(n / 16);
    assert DigitsValue(s, 16) == Some(n / 16 * 16 + n % 16);
    assert Strip(s) == s && s[0] != '+' && s[0] != '-';
    s
  }

  /** Writing three bytes as "#rrggbb" and reading them back gives the
      same three values. */
  lemma HexRoundTrip(r: nat, g: nat, b: nat)
    requires r < 256 && g < 256 && b < 256
    ensures HexToRgb("#" + Hex2(r) + Hex2(g) + Hex2(b)) == (r, g, b)
  {
    var body := Hex2(r) + Hex2(g) + Hex2(b);
    assert "#" + Hex2(r) + Hex2(g) + Hex2(b) == "#" + body;
    HashPrefixDropped(body);
    assert ExpandShorthand(body) == body;
    assert Slice(body, 0, 2) == Hex2(r);
    assert Slice(body, 2, 4) == Hex2(g);
    assert Slice(body, 4, 6) == Hex2(b);
    FieldsRead(body, r, g, b);
  }

  /** A doubled hex digit reads as 17 times its value. */
  lemma DoubledDigit(x: char)
    requires HexDigitValue(x).Some?
    ensures ParseInt([x, x], 16) == Some(17 * HexDigitValue(x).value)
  {
    assert !IsSpace(x) && x != '+' && x != '-';
    StripUnchanged([x, x]);
    assert [x, x][..1] == [x];
    assert DigitsValue([x], 16) == HexDigitValue(x);
  }

  /** The fields of an expanded shorthand are the doubled digits. */
  lemma ShorthandFields(a: char, b: char, c: char)
    ensures var s := ExpandShorthand([a, b, c]);
      Slice(s, 0, 2) == [a, a] && Slice(s, 2, 4) == [b, b] && Slice(s, 4, 6) == [c, c]
  {
    var s := ExpandShorthand([a, b, c]);
    assert s == [a, a, b, b, c, c];
    assert s[2..4] == [b, b];
    assert s[4..6] == [c, c];
  }

  /** The shorthand "#abc" reads each digit twice: 17 times its value. */
  lemma ShorthandDoubles(a: char, b: char, c: char)
    requires HexDigitValue(a).Some? && HexDigitValue(b).Some? && HexDigitValue(c).Some?
    ensures HexToRgb("#" + [a, b, c]) ==
      (17 * HexDigitValue(a).value, 17 * HexDigitValue(b).value, 17 * HexDigitValue(c).value)
  {
    var body := [a, b, c];
    assert forall i :: 0 <= i < |body| ==> !IsSpace(body[i]) && body[i] != '#';
    HashPrefixDropped(body);
    var s := ExpandShorthand(body);
    assert HexToRgb("#" + [a, b, c]) == ReadFields(s);
    ShorthandFields(a, b, c);
    DoubledDigit(a);
    DoubledDigit(b);
    DoubledDigit(c);
    FieldsRead(s, 17 * HexDigitValue(a).value, 17 * HexDigitValue(b).value, 17 * HexDigitValue(c).value);
  }

  /** Fewer than five characters after the '#' (other than the three of a
      shorthand) leave the blue field empty, so the colour reads as black. */
  lemma ShortTextIsBlack(text: string)
    requires var s := LStripChar(Strip(text), '#'); |s| <= 4 && |s| != 3
    ensures HexToRgb(text) == (0, 0, 0)
  {
    var s := LStripChar(Strip(text), '#');
    assert Slice(s, 4, 6) == [];
  }
}

=== FILE: pylib.dfy ===
/** Python value semantics the clock code leans on: list slicing and
    repetition with any integer count, str.strip, str.lower, str.split on
    one separator, int() on decimal and hexadecimal text, and str() of an
    integer. Each is written out because the clocks restore state from
    saved data that may carry any integer, including negative counts. */
module PyLib {

  datatype Option<+T> = None | Some(value: T) {
    /** `value if present else default`, as `dict.get(key, default)` does. */
    function GetOr(default: T): T {
      match this
      case Some(v) => v
      case None => default
    }
  }

  function Min(a: int, b: int): int { if a <= b then a else b }

  function Max(a: int, b: int): int { if a >= b then a else b }

  // ---------------------------------------------------------------------
  // Lists
  // ---------------------------------------------------------------------

  /** Python `s[:k]`: the first k items, or for a negative k all but the
      last -k items. */
  function Take<T>(s: seq<T>, k: int): (r: seq<T>)
    ensures |r| == if k >= 0 then Min(k, |s|) else Max(0, |s| + k)
    ensures r == s[..|r|]
  {
    if k >= 0 then (if k <= |s| then s[..k] else s)
    else if |s| + k >= 0 then s[..|s| + k] else []
  }

  /** Python `[x] * k`: empty for every k <= 0. */
  function Repeat<T>(x: T, k: int): (r: seq<T>)
    ensures |r| == Max(0, k)
    ensures forall i :: 0 <= i < |r| ==> r[i] == x
  {
    if k <= 0 then [] else [x] + Repeat(x, k - 1)
  }

  /** Python `s[i:j]` for non-negative bounds: out-of-range bounds shrink
      to the end of the string instead of failing. */
  function Slice<T>(s: seq<T>, i: nat, j: nat): (r: seq<T>)
    ensures |r| == Max(0, Min(j, |s|) - Min(i, |s|))
    ensures forall k :: 0 <= k < |r| ==> r[k] == s[i + k]
  {
    var a := Min(i, |s|);
    var b := Min(j, |s|);
    if a <= b then s[a..b] else []
  }

  // ---------------------------------------------------------------------
  // Characters and whitespace
  // ---------------------------------------------------------------------

  /** The characters `str.strip()` removes among the first 256 code points. */
  predicate IsSpace(c: char) {
    ('\t' <= c <= '\r') || ('\U{001C}' <= c <= ' ') || c == '\U{0085}' || c == '\U{00A0}'
  }

  predicate IsDigit(c: char) { '0' <= c <= '9' }

  predicate AllDigits(s: string) { forall i :: 0 <= i < |s| ==> IsDigit(s[i]) }

  /** `str.lstrip()` without arguments. */
  function LStrip(s: string): (r: string)
    ensures |r| <= |s| && r == s[|s| - |r|..]
    ensures |r| > 0 ==> !IsSpace(r[0])
    ensures forall i :: 0 <= i < |s| - |r| ==> IsSpace(s[i])
  {
    if |s| > 0 && IsSpace(s[0]) then LStrip(s[1..]) else s
  }

  /** `str.rstrip()` without arguments. */
  function RStrip(s: string): (r: string)
    ensures |r| <= |s| && r == s[..|r|]
    ensures |r| > 0 ==> !IsSpace(r[|r| - 1])
    ensures forall i :: |r| <= i < |s| ==> IsSpace(s[i])
  {
    if |s| > 0 && IsSpace(s[|s| - 1]) then RStrip(s[..|s| - 1]) else s
  }

  /** `str.strip()`: whitespace removed from both ends. */
  function Strip(s: string): (r: string)
    ensures |r| > 0 ==> !IsSpace(r[0]) && !IsSpace(r[|r| - 1])
    ensures |r| <= |s|
  {
    RStrip(LStrip(s))
  }

  /** What `strip` removes: a run of whitespace at the front and one at the
      back, keeping the middle of the text in place. */
  lemma StripRemovesSpace(s: string)
    ensures |Strip(s)| <= |LStrip(s)|
    ensures forall i :: 0 <= i < |Strip(s)| ==> Strip(s)[i] == s[|s| - |LStrip(s)| + i]
    ensures forall i :: 0 <= i < |s| - |LStrip(s)| ==> IsSpace(s[i])
    ensures forall i :: |s| - |LStrip(s)| + |Strip(s)| <= i < |s| ==> IsSpace(s[i])
  {
    var l := LStrip(s);
    var k := |s| - |l|;
    assert Strip(s) == RStrip(l);
    forall i | k + |Strip(s)| <= i < |s| ensures IsSpace(s[i]) {
      assert s[i] == l[i - k];
    }
  }

  /** A string that neither starts nor ends with whitespace is its own strip. */
  lemma StripUnchanged(s: string)
    requires |s| > 0 ==> !IsSpace(s[0]) && !IsSpace(s[|s| - 1])
    ensures Strip(s) == s
  {
  }

  /** `s.lstrip(c)`: every leading copy of c removed. */
  function LStripChar(s: string, c: char): (r: string)
    ensures |r| <= |s| && r == s[|s| - |r|..]
    ensures |r| > 0 ==> r[0] != c
    ensures forall i :: 0 <= i < |s| - |r| ==> s[i] == c
  {
    if |s| > 0 && s[0] == c then LStripChar(s[1..], c) else s
  }

  /** `str.lower()` on the ASCII letters. */
  function LowerChar(c: char): char {
    if 'A' <= c <= 'Z' then (c as int + 32) as char else c
  }

  function Lower(s: string): (r: string)
    ensures |r| == |s|
    ensures forall i :: 0 <= i < |s| ==> r[i] == LowerChar(s[i])
  {
    if |s| == 0 then [] else [LowerChar(s[0])] + Lower(s[1..])
  }

  // ---------------------------------------------------------------------
  // str.split(sep)
  // ---------------------------------------------------------------------

  /** The pieces joined back with `sep` between them (`sep.join(parts)`). */
  function Join(parts: seq<string>, sep: char): string
    requires |parts| >= 1
  {
    if |parts| == 1 then parts[0] else parts[0] + [sep] + Join(parts[1..], sep)
  }

  /** `s.split(sep)` for a one-character separator: always at least one
      piece, no piece contains the separator, and joining gives back s. */
  function Split(s: string, sep: char): (r: seq<string>)
    ensures |r| >= 1
    ensures forall i :: 0 <= i < |r| ==> sep !in r[i]
    ensures Join(r, sep) == s
  {
    if |s| == 0 then [""]
    else
      var rest := Split(s[1..], sep);
      if s[0] == sep then [""] + rest
      else [[s[0]] + rest[0]] + rest[1..]
  }

  /** Splitting a text that holds no separator gives the text alone. */
  lemma {:induction false} SplitNoSep(s: string, sep: char)
    requires sep !in s
    ensures Split(s, sep) == [s]
  {
    if |s| > 0 {
      assert sep !in s[1..];
      SplitNoSep(s[1..], sep);
    }
  }

  /** A separator after a separator-free head cuts exactly there. */
  lemma {:induction false} SplitAfterHead(a: string, sep: char, t: string)
    requires sep !in a
    ensures Split(a + [sep] + t, sep) == [a] + Split(t, sep)
  {
    if |a| == 0 {
      assert a + [sep] + t == [sep] + t;
      assert ([sep] + t)[1..] == t;
    } else {
      assert (a + [sep] + t)[1..] == a[1..] + [sep] + t;
      assert sep !in a[1..];
      SplitAfterHead(a[1..], sep, t);
      assert [a[0]] + a[1..] == a;
    }
  }

  /** Three separator-free pieces joined by sep split back into themselves. */
  lemma SplitThree(a: string, b: string, c: string, sep: char)
    requires sep !in a && sep !in b && sep !in c
    ensures Split(a + [sep] + b + [sep] + c, sep) == [a, b, c]
  {
    var bc := b + [sep] + c;
    assert Split(bc, sep) == [b, c] by {
      SplitNoSep(c, sep);
      SplitAfterHead(b, sep, c);
    }
    assert Split(a + [sep] + bc, sep) == [a, b, c] by {
      SplitAfterHead(a, sep, bc);
    }
    assert a + [sep] + b + [sep] + c == a + [sep] + bc;
  }

  // ---------------------------------------------------------------------
  // Decimal and hexadecimal numbers
  // ---------------------------------------------------------------------

  function DigitValue(c: char): (v: nat)
    requires IsDigit(c)
    ensures v < 10
  {
    c as int - '0' as int
  }

  function DigitChar(d: nat): (c: char)
    requires d < 10
    ensures IsDigit(c) && DigitValue(c) == d
  {
    ('0' as int + d) as char
  }

  /** Value of a non-empty or empty run of decimal digits; leading zeros allowed. */
  function DecimalValue(s: string): nat
    requires AllDigits(s)
  {
    if |s| == 0 then 0 else DecimalValue(s[..|s| - 1]) * 10 + DigitValue(s[|s| - 1])
  }

  /** `str(n)` for a natural number: no sign, no leading zeros. */
  function NatToDecimal(n: nat): (r: string)
    ensures |r| >= 1 && AllDigits(r)
    ensures |r| > 1 ==> r[0] != '0'
    decreases n
  {
    if n < 10 then [DigitChar(n)] else NatToDecimal(n / 10) + [DigitChar(n % 10)]
  }

  /** Reading back what `str(n)` wrote gives n. */
  lemma {:induction false} DecimalRoundTrip(n: nat)
    ensures DecimalValue(NatToDecimal(n)) == n
    decreases n
  {
    if n >= 10 {
      var s := NatToDecimal(n);
      assert s[..|s| - 1] == NatToDecimal(n / 10);
      DecimalRoundTrip(n / 10);
    }
  }

  /** A leading zero does not change a decimal value. */
  lemma {:induction false} LeadingZero(s: string)
    requires AllDigits(s)
    ensures AllDigits(['0'] + s) && DecimalValue(['0'] + s) == DecimalValue(s)
  {
    if |s| > 0 {
      assert (['0'] + s)[..|s|] == ['0'] + s[..|s| - 1];
      LeadingZero(s[..|s| - 1]);
    }
  }

  /** `str(i)` for any integer. */
  function IntToDecimal(i: int): (r: string)
    ensures |r| >= 1
  {
    if i < 0 then "-" + NatToDecimal(-i) else NatToDecimal(i)
  }

  /** `str(i)` holds digits and at most a minus sign. */
  lemma IntDigits(i: int)
    ensures forall k :: 0 <= k < |IntToDecimal(i)| ==> IsDigit(IntToDecimal(i)[k]) || IntToDecimal(i)[k] == '-'
  {
  }

  /** `int(s, base)` of text with no surrounding whitespace and no sign
      is the value of its digit run. */
  lemma ParseUnsigned(s: string, base: nat)
    requires base == 10 || base == 16
    requires Strip(s) == s && |s| > 0 && s[0] != '+' && s[0] != '-'
    ensures ParseInt(s, base).Some? <==> DigitsValue(s, base).Some?
    ensures DigitsValue(s, base).Some? ==> ParseInt(s, base).value == DigitsValue(s, base).value
  {
  }

  /** `int(s, base)` of text with no surrounding whitespace and a leading
      minus is the negated value of the digits after it. */
  lemma ParseNegative(s: string, base: nat)
    requires base == 10 || base == 16
    requires Strip(s) == s && |s| > 0 && s[0] == '-'
    ensures ParseInt(s, base).Some? <==> DigitsValue(s[1..], base).Some?
    ensures DigitsValue(s[1..], base).Some? ==> ParseInt(s, base).value + DigitsValue(s[1..], base).value == 0
  {
  }

  /** `int(str(n))` gives n back for a natural number. */
  lemma NatRoundTrip(n: nat)
    ensures ParseInt(NatToDecimal(n), 10) == Some(n)
  {
    ParseDigits(NatToDecimal(n));
    DecimalRoundTrip(n);
  }

  /** `int(str(i))` gives i back for a negative i. */
  lemma NegativeRoundTrip(i: int)
    requires i < 0
    ensures ParseInt(IntToDecimal(i), 10) == Some(i)
  {
    var d := NatToDecimal(-i);
    var s := "-" + d;
    assert s == IntToDecimal(i);
    assert Strip(s) == s && s[0] == '-' by {
      assert IsDigit(s[|s| - 1]);
      StripUnchanged(s);
    }
    assert DigitsValue(s[1..], 10) == Some(-i) by {
      assert s[1..] == d;
      DigitsValueDecimal(d);
      DecimalRoundTrip(-i);
    }
    ParseNegative(s, 10);
  }

  /** `int(str(i))` gives i back for every integer, negative ones included. */
  lemma IntRoundTrip(i: int)
    ensures ParseInt(IntToDecimal(i), 10) == Some(i)
  {
    if i < 0 {
      NegativeRoundTrip(i);
    } else {
      NatRoundTrip(i);
    }
  }

  /** `f"{n:02d}"` for a natural number: at least two digits, zero padded. */
  function Pad2(n: nat): (r: string)
    ensures |r| >= 2 && AllDigits(r) && DecimalValue(r) == n
  {
    DecimalRoundTrip(n);
    if n < 10 then
      LeadingZero(NatToDecimal(n));
      "0" + NatToDecimal(n)
    else NatToDecimal(n)
  }

  function HexDigitValue(c: char): (r: Option<nat>)
    ensures r.Some? ==> r.value < 16
  {
    if '0' <= c <= '9' then Some(c as int - '0' as int)
    else if 'a' <= c <= 'f' then Some(c as int - 'a' as int + 10)
    else if 'A' <= c <= 'F' then Some(c as int - 'A' as int + 10)
    else None
  }

  /** Value of a run of digits in base 10 or 16, or None if some character
      is not a digit of that base (or the run is empty). */
  function DigitsValue(s: string, base: nat): (r: Option<nat>)
    requires base == 10 || base == 16
    ensures r.Some? ==> |s| > 0
  {
    if |s| == 0 then None
    else
      var d := if base == 10 then (if IsDigit(s[|s| - 1]) then Some(DigitValue(s[|s| - 1])) else None)
               else HexDigitValue(s[|s| - 1]);
      if d.None? then None
      else if |s| == 1 then d
      else match DigitsValue(s[..|s| - 1], base)
        case None => None
        case Some(v) => Some(v * base + d.value)
  }

  /** Base-10 digit runs read with DigitsValue agree with DecimalValue. */
  lemma {:induction false} DigitsValueDecimal(s: string)
    requires |s| > 0 && AllDigits(s)
    ensures DigitsValue(s, 10) == Some(DecimalValue(s))
  {
    if |s| > 1 {
      DigitsValueDecimal(s[..|s| - 1]);
    } else {
      assert s[..0] == [];
    }
  }

  /** `int(s, base)`: surrounding whitespace, an optional sign, then digits.
      None stands for the ValueError Python raises. */
  function ParseInt(s: string, base: nat): (r: Option<int>)
    requires base == 10 || base == 16
  {
    var t := Strip(s);
    if |t| > 0 && (t[0] == '+' || t[0] == '-') then
      match DigitsValue(t[1..], base)
      case None => None
      case Some(v) => var w: int := v; Some(if t[0] == '-' then -w else w)
    else
      match DigitsValue(t, base)
      case None => None
      case Some(v) => Some(v)
  }

  /** `int(str(n))` gives n back, also when written with a leading zero. */
  lemma ParseDigits(s: string)
    requires |s| > 0 && AllDigits(s)
    ensures ParseInt(s, 10) == Some(DecimalValue(s))
  {
    assert IsDigit(s[0]) && IsDigit(s[|s| - 1]);
    StripUnchanged(s);
    DigitsValueDecimal(s);
    ParseUnsigned(s, 10);
  }
}

=== FILE: theme.dfy ===
/** The dark-mode hook shared by the dial and by the linked group's overlay
    text colour: a fill that still holds the default of the theme being
    left is flipped to the default of the theme being entered; any other
    colour is the user's choice and stays. */
module Theme {
  import opened PyLib

  const Black := "#000000"
  const White := "#FFFFFF"

  /** The spellings of the light-mode default black, compared after lower-casing. */
  predicate IsDefaultBlack(c: string) {
    Lower(c) == "#000000" || Lower(c) == "black"
  }

  /** The spellings of the dark-mode default white, compared after lower-casing. */
  predicate IsDefaultWhite(c: string) {
    Lower(c) == "#ffffff" || Lower(c) == "white"
  }

  /** `_on_theme_changed`: the fill colour after dark mode is set to `dark`. */
  function SwapDefaultFill(fill: string, dark: bool): (r: string)
    ensures r == fill || r == Black || r == White
  {
    if dark then (if IsDefaultBlack(fill) then White else fill)
    else (if IsDefaultWhite(fill) then Black else fill)
  }

  /** Entering dark mode turns any spelling of default black into white,
      and leaving it turns any spelling of default white into black. */
  lemma DefaultsFlip(fill: string)
    ensures IsDefaultBlack(fill) ==> SwapDefaultFill(fill, true) == White
    ensures IsDefaultWhite(fill) ==> SwapDefaultFill(fill, false) == Black
  {
  }

  /** A colour that is neither default is left alone in both directions;
      that covers every custom colour and the empty string. */
  lemma CustomColourKept(fill: string, dark: bool)
    requires !IsDefaultBlack(fill) && !IsDefaultWhite(fill)
    ensures SwapDefaultFill(fill, dark) == fill
  {
  }

  /** Entering light mode never touches black and entering dark mode never
      touches white, whatever their spelling. */
  lemma TargetDefaultKept(fill: string)
    ensures IsDefaultWhite(fill) ==> SwapDefaultFill(fill, true) == fill
    ensures IsDefaultBlack(fill) ==> SwapDefaultFill(fill, false) == fill
  {
    if IsDefaultWhite(fill) {
      assert Lower(fill) != "#000000" && Lower(fill) != "black" by {
        assert Lower(fill)[0] == '#' || Lower(fill)[0] == 'w';
      }
    }
  }

  /** Running the hook twice for the same mode changes nothing more. */
  lemma SwapIdempotent(fill: string, dark: bool)
    ensures SwapDefaultFill(SwapDefaultFill(fill, dark), dark) == SwapDefaultFill(fill, dark)
  {
    assert Lower(White) == "#ffffff";
    assert Lower(Black) == "#000000";
  }

  /** The default black survives a trip into dark mode and back. */
  lemma DarkThenLightRestoresBlack(fill: string)
    requires IsDefaultBlack(fill)
    ensures SwapDefaultFill(SwapDefaultFill(fill, true), false) == Black
  {
    assert Lower(White) == "#ffffff";
  }
}

=== FILE: tug.dfy ===
/** The linear tug-of-war track of Progress_Clocks_v1.0.0.py
    (TugOfWarLinearFrame): a row of segments, each unowned (-1) or owned by
    one of two to four teams, with one label per segment, a winner when one
    team holds every segment, and a tally that pops up once each time the
    whole track becomes owned. */
module TugOfWar {
  import opened PyLib

  const TeamColors := ["#2E86DE", "#E74C3C", "#27AE60", "#F1C40F"]

  /** Ownership value of a segment nobody holds. */
  const Unowned := -1

  datatype Team = Team(name: string, color: string)

  /** The team added at position i: "Team i+1" in the i-th default colour. */
  function DefaultTeam(i: nat): Team {
    Team(DefaultTeamName(i), TeamColors[i % |TeamColors|])
  }

  /** `f"Objective {i+1}"`, the label a segment has until renamed. */
  function DefaultLabel(i: nat): string {
    "Objective " + NatToDecimal(i + 1)
  }

  /** `_default_labels(n)`. */
  function DefaultLabels(n: int): (r: seq<string>)
    ensures |r| == Max(0, n)
    ensures forall i :: 0 <= i < |r| ==> r[i] == DefaultLabel(i)
  {
    seq(Max(0, n), i requires 0 <= i < Max(0, n) => DefaultLabel(i))
  }

  datatype Track = Track(
    title: string,
    segments: int,
    inverted: bool,
    teams: seq<Team>,
    ownership: seq<int>,
    labels: seq<string>,
    tallyShown: bool,
    notes: string)

  /** Every owner is unowned or one of the first `teams` teams. */
  predicate OwnersIn(own: seq<int>, teams: int) {
    forall i :: 0 <= i < |own| ==> Unowned <= own[i] < teams
  }

  /** One owner and one label per segment, each owner unowned or a team.
      The handlers below do not demand it: a track loaded from a save can
      break it, and they run on such a track too, as far as `draw` lets
      them (see Drawable). */
  predicate Valid(t: Track) {
    && t.segments >= 1
    && |t.ownership| == t.segments && |t.labels| == t.segments
    && OwnersIn(t.ownership, |t.teams|)
  }

  /** What `draw` can colour: unowned, or an index into the team list
      that Python accepts, negative ones counting from the end. */
  predicate DrawableOwner(o: int, teams: int) {
    o == Unowned || -teams <= o < teams
  }

  /** `draw` colours the first max(1, segments) segments by
      `teams[owner]`; any other owner there raises IndexError. */
  predicate Drawable(t: Track) {
    forall i :: 0 <= i < |t.ownership| && i < Max(1, t.segments) ==> DrawableOwner(t.ownership[i], |t.teams|)
  }

  /** A valid track can always be drawn. */
  lemma ValidDrawable(t: Track)
    requires Valid(t)
    ensures Drawable(t)
  {
    forall i | 0 <= i < |t.ownership| && i < Max(1, t.segments)
      ensures DrawableOwner(t.ownership[i], |t.teams|)
    {
      assert Unowned <= t.ownership[i] < |t.teams|;
    }
  }

  // ---------------------------------------------------------------------
  // Construction and resizing
  // ---------------------------------------------------------------------

  /** `_rebuild_label_rows`: labels padded with the default of each missing
      position, then cut to `cols` (a Python slice, so a negative count
      drops labels from the end). */
  function RebuildLabels(labels: seq<string>, cols: int): (r: seq<string>)
    ensures cols >= 0 ==> |r| == cols
    ensures cols >= 0 ==> forall i :: 0 <= i < cols ==>
      r[i] == (if i < |labels| then labels[i] else DefaultLabel(i))
  {
    var pad := seq(Max(0, cols - |labels|), k requires 0 <= k < Max(0, cols - |labels|) => DefaultLabel(|labels| + k));
    Take(labels + pad, cols)
  }

  /** The state the constructor assembles: default teams (two to four)
      when none are given, and supplied ownership or labels kept only when
      they have exactly one entry per segment (at least one segment). */
  function BuildTrack(title: string, segments: int, teamCount: int, teams: Option<seq<Team>>,
                    ownership: Option<seq<int>>, labels: Option<seq<string>>,
                    inverted: bool, notes: string): (t: Track)
    ensures teams.None? ==> |t.teams| == Max(2, Min(4, teamCount))
    ensures teams.None? ==> forall i :: 0 <= i < |t.teams| ==> t.teams[i] == DefaultTeam(i)
    ensures teams.Some? ==> t.teams == teams.value
    ensures var segs := Max(1, segments);
      t.ownership == (if ownership.Some? && |ownership.value| == segs then ownership.value else Repeat(Unowned, segs))
    ensures segments >= 1 ==>
      t.labels == (if labels.Some? && |labels.value| == segments then labels.value else DefaultLabels(segments))
    ensures !t.tallyShown
    ensures segments >= 1 && teams.None? && ownership.None? ==> Valid(t)
  {
    var ts := if teams.Some? then teams.value
              else var n := Max(2, Min(4, teamCount)); seq(n, i requires 0 <= i < n => DefaultTeam(i));
    var segs := Max(1, segments);
    var own := if ownership.Some? && |ownership.value| == segs then ownership.value else Repeat(Unowned, segs);
    var labs := if labels.Some? && |labels.value| == segs then labels.value else DefaultLabels(segs);
    var r := Track(title, segments, inverted, ts, own, RebuildLabels(labs, segments), false, notes);
    assert segments >= 1 ==> r.labels == labs;
    r
  }

  /** The constructor ends by drawing the track. When a supplied owner is
      one `draw` cannot colour, that raises, and no tab is created. */
  function NewTrack(title: string, segments: int, teamCount: int, teams: Option<seq<Team>>,
                    ownership: Option<seq<int>>, labels: Option<seq<string>>,
                    inverted: bool, notes: string): (r: Option<Track>)
    ensures var b := BuildTrack(title, segments, teamCount, teams, ownership, labels, inverted, notes);
      && (r.Some? <==> Drawable(b))
      && (r.Some? ==> r.value == b)
    ensures ownership.None? ==> r.Some?
    ensures teams.Some? && ownership.Some? && OwnersIn(ownership.value, |teams.value|) ==> r.Some?
  {
    var b := BuildTrack(title, segments, teamCount, teams, ownership, labels, inverted, notes);
    if Drawable(b) then Some(b) else None
  }

  /** Two teams and a supplied owner 5: the constructor's draw raises, so
      there is no track; owner -2 is the second team counted from the end,
      and that track is drawn. */
  lemma OutOfRangeOwnerRejected(a: Team, b: Team)
    ensures NewTrack("T", 2, 2, Some([a, b]), Some([5, Unowned]), None, false, "").None?
    ensures NewTrack("T", 2, 2, Some([a, b]), Some([-2, Unowned]), None, false, "").Some?
  {
    var bad := BuildTrack("T", 2, 2, Some([a, b]), Some([5, Unowned]), None, false, "");
    assert bad.ownership[0] == 5;
    var ok := BuildTrack("T", 2, 2, Some([a, b]), Some([-2, Unowned]), None, false, "");
    assert ok.ownership == [-2, Unowned];
  }

  /** `(own[:n] + [-1] * n)[:n]`: the leading owners kept, unowned after. */
  function ResizeOwnership(own: seq<int>, n: int): (r: seq<int>)
    ensures n >= 0 ==> |r| == n
    ensures forall i :: 0 <= i < n ==> r[i] == (if i < |own| then own[i] else Unowned)
  {
    var head := Take(own, n);
    var r := Take(head + Repeat(Unowned, n), n);
    assert forall i :: 0 <= i < n ==> r[i] == (if i < |own| then own[i] else Unowned) by {
      forall i | 0 <= i < n ensures r[i] == (if i < |own| then own[i] else Unowned) {
        assert r[i] == (head + Repeat(Unowned, n))[i];
        if i >= |head| {
          assert (head + Repeat(Unowned, n))[i] == Repeat(Unowned, n)[i - |head|];
        }
      }
    }
    r
  }

  /** `on_segments_changed`: ownership keeps its leading entries and is
      padded with unowned ones; labels keep theirs and are padded with
      defaults; the tally latch is left as it was. */
  function SetSegments(t: Track, n: int): (r: Track)
    ensures r == t.(segments := n, ownership := r.ownership, labels := r.labels)
    ensures n >= 1 && OwnersIn(t.ownership, |t.teams|) ==> Valid(r)
    ensures n >= 0 ==> |r.ownership| == n && |r.labels| == n
    ensures forall i :: 0 <= i < n ==> r.ownership[i] == (if i < |t.ownership| then t.ownership[i] else Unowned)
    ensures forall i :: 0 <= i < n ==> r.labels[i] == (if i < |t.labels| then t.labels[i] else DefaultLabel(i))
  {
    var merged := seq(Max(0, n), i requires 0 <= i < Max(0, n) =>
      if i < |t.labels| then t.labels[i] else DefaultLabel(i));
    assert forall i :: 0 <= i < n ==> merged[i] == (if i < |t.labels| then t.labels[i] else DefaultLabel(i));
    assert n >= 0 ==> RebuildLabels(merged, n) == merged;
    t.(segments := n, ownership := ResizeOwnership(t.ownership, n), labels := RebuildLabels(merged, n))
  }

  /** Growing and then shrinking back restores the track. */
  lemma GrowShrink(t: Track, n: int)
    requires Valid(t) && n >= t.segments
    ensures SetSegments(SetSegments(t, n), t.segments) == t
  {
    var r := SetSegments(SetSegments(t, n), t.segments);
    assert r.ownership == t.ownership;
    assert r.labels == t.labels;
  }

  /** `on_team_count_changed`: teams extended with defaults or cut to
      `count`, and any segment held by a team that is gone becomes unowned. */
  function SetTeamCount(t: Track, count: int): (r: Track)
    ensures r == t.(teams := r.teams, ownership := r.ownership)
    ensures count >= 0 ==> |r.teams| == count
    ensures forall i :: 0 <= i < Min(count, |t.teams|) ==> r.teams[i] == t.teams[i]
    ensures forall i :: |t.teams| <= i < count ==> r.teams[i] == DefaultTeam(i)
    ensures |r.ownership| == |t.ownership|
    ensures forall i :: 0 <= i < |t.ownership| ==>
      r.ownership[i] == (if t.ownership[i] >= count then Unowned else t.ownership[i])
    ensures count >= 0 && (forall i :: 0 <= i < |t.ownership| ==> Unowned <= t.ownership[i])
            ==> OwnersIn(r.ownership, count)
    ensures count >= 0 && Valid(t) ==> Valid(r)
  {
    var ts := if count > |t.teams| then
                t.teams + seq(count - |t.teams|, k requires 0 <= k < count - |t.teams| => DefaultTeam(|t.teams| + k))
              else Take(t.teams, count);
    var own := seq(|t.ownership|, i requires 0 <= i < |t.ownership| =>
                 if t.ownership[i] >= count then Unowned else t.ownership[i]);
    t.(teams := ts, ownership := own)
  }

  /** `reset`: every segment unowned and the latch cleared; on a track
      whose ownership list has the wrong length (as `from_dict` can leave
      it) this also repairs it. */
  function Reset(t: Track): (r: Track)
    ensures r == t.(ownership := r.ownership, tallyShown := false)
    ensures |r.ownership| == Max(0, t.segments)
    ensures forall i :: 0 <= i < |r.ownership| ==> r.ownership[i] == Unowned
    ensures t.segments >= 1 && |t.labels| == t.segments ==> Valid(r)
  {
    t.(ownership := Repeat(Unowned, t.segments), tallyShown := false)
  }

  // ---------------------------------------------------------------------
  // Clicks and the tally latch
  // ---------------------------------------------------------------------

  /** The owner after one left click: unowned, team 0, ..., last team,
      unowned again. */
  function NextOwner(v: int, count: int): int {
    if v == count - 1 then Unowned else v + 1
  }

  /** The owner after k clicks. */
  function OwnerAfter(v: int, count: int, k: nat): int
    decreases k
  {
    if k == 0 then v else NextOwner(OwnerAfter(v, count, k - 1), count)
  }

  /** Clicks compose: a + b clicks are a clicks followed by b clicks. */
  lemma {:induction false} OwnerAfterAdd(v: int, count: int, a: nat, b: nat)
    ensures OwnerAfter(v, count, a + b) == OwnerAfter(OwnerAfter(v, count, a), count, b)
    decreases b
  {
    if b > 0 {
      OwnerAfterAdd(v, count, a, b - 1);
    }
  }

  /** Below the last team each click moves to the next team. */
  lemma {:induction false} OwnerAfterClimbs(v: int, count: int, k: nat)
    requires Unowned <= v && v + k <= count - 1
    ensures OwnerAfter(v, count, k) == v + k
    decreases k
  {
    if k > 0 {
      OwnerAfterClimbs(v, count, k - 1);
    }
  }

  /** The click cycle -1, 0, ..., count-1, -1 has period exactly count + 1:
      after count + 1 clicks a segment is back where it began, and never
      earlier. */
  lemma CyclePeriod(v: int, count: int, k: nat)
    requires count >= 1 && Unowned <= v < count
    ensures OwnerAfter(v, count, count + 1) == v
    ensures 0 < k < count + 1 ==> OwnerAfter(v, count, k) != v
  {
    var toTop := count - 1 - v;     // clicks from v up to the last team
    OwnerAfterClimbs(v, count, toTop);
    assert OwnerAfter(v, count, toTop + 1) == Unowned;
    OwnerAfterAdd(v, count, toTop + 1, v + 1);
    OwnerAfterClimbs(Unowned, count, v + 1);
    if 0 < k < count + 1 {
      if k <= toTop {
        OwnerAfterClimbs(v, count, k);
      } else {
        OwnerAfterAdd(v, count, toTop + 1, k - toTop - 1);
        OwnerAfterClimbs(Unowned, count, k - toTop - 1);
      }
    }
  }

  /** The tally `_maybe_show_tally` reports: per team, how many segments it
      holds. None when nothing pops up. */
  function CountOwned(own: seq<int>, team: int): (n: nat)
    ensures n <= |own|
  {
    if |own| == 0 then 0 else (if own[0] == team then 1 else 0) + CountOwned(own[1..], team)
  }

  /** `_maybe_show_tally`: a track with an unowned segment clears the latch
      and reports nothing; a fully owned track reports once, then sets the
      latch so that it stays quiet until some segment is unowned again. */
  function MaybeShowTally(t: Track): (r: (Track, Option<seq<nat>>))
    ensures Unowned in t.ownership ==> r == (t.(tallyShown := false), None)
    ensures Unowned !in t.ownership && t.tallyShown ==> r == (t, None)
    ensures Unowned !in t.ownership && !t.tallyShown ==>
      && r.0 == t.(tallyShown := true)
      && r.1.Some? && |r.1.value| == |t.teams|
      && forall i :: 0 <= i < |t.teams| ==> r.1.value[i] == CountOwned(t.ownership, i)
  {
    if Unowned in t.ownership then (t.(tallyShown := false), None)
    else if t.tallyShown then (t, None)
    else (t.(tallyShown := true), Some(seq(|t.teams|, i requires 0 <= i < |t.teams| => CountOwned(t.ownership, i))))
  }

  /** The latch: a second check right after the first never reports. */
  lemma TallyFiresOnce(t: Track)
    ensures MaybeShowTally(MaybeShowTally(t).0).1 == None
  {
  }

  /** Sum of the first n entries of the tally. */
  function SumTo(counts: seq<nat>, n: nat): nat
    requires n <= |counts|
  {
    if n == 0 then 0 else SumTo(counts, n - 1) + counts[n - 1]
  }

  /** Counting the owners below `teams` one team at a time. */
  function CountBelow(own: seq<int>, teams: nat): nat {
    if teams == 0 then 0 else CountBelow(own, teams - 1) + CountOwned(own, teams - 1)
  }

  /** Every owner in [0, teams) is counted by exactly one team. */
  lemma {:induction false} CountBelowAll(own: seq<int>, teams: nat)
    requires forall i :: 0 <= i < |own| ==> 0 <= own[i] < teams
    ensures CountBelow(own, teams) == |own|
    decreases |own|
  {
    if |own| > 0 {
      CountBelowAll(own[1..], teams);
      CountBelowSplit(own, teams);
    } else {
      CountBelowEmpty(teams);
    }
  }

  lemma {:induction false} CountBelowEmpty(teams: nat)
    ensures CountBelow([], teams) == 0
  {
    if teams > 0 { CountBelowEmpty(teams - 1); }
  }

  /** Peeling off the first owner: it adds one to the count of its team. */
  lemma {:induction false} CountBelowSplit(own: seq<int>, teams: nat)
    requires |own| > 0
    ensures CountBelow(own, teams) == CountBelow(own[1..], teams) + (if 0 <= own[0] < teams then 1 else 0)
  {
    if teams > 0 {
      CountBelowSplit(own, teams - 1);
    }
  }

  /** When the tally pops up on a valid track, its counts add up to the
      number of segments. */
  lemma TallySumsToSegments(t: Track)
    requires Valid(t) && Unowned !in t.ownership && !t.tallyShown
    ensures var counts := MaybeShowTally(t).1.value;
      SumTo(counts, |counts|) == t.segments
  {
    var counts := MaybeShowTally(t).1.value;
    forall i | 0 <= i < |t.ownership| ensures 0 <= t.ownership[i] < |t.teams| {
      assert t.ownership[i] != Unowned;
    }
    CountBelowAll(t.ownership, |t.teams|);
    SumToIsCountBelow(t.ownership, counts, |t.teams|);
  }

  lemma {:induction false} SumToIsCountBelow(own: seq<int>, counts: seq<nat>, n: nat)
    requires n <= |counts| && forall i :: 0 <= i < n ==> counts[i] == CountOwned(own, i)
    ensures SumTo(counts, n) == CountBelow(own, n)
  {
    if n > 0 { SumToIsCountBelow(own, counts, n - 1); }
  }

  /** `on_click_cycle` on segment idx, one of the max(1, segments)
      segments `_segment_at` can hit. When the ownership list is shorter
      (a reset with no segments leaves it empty) the lookup raises and
      nothing changes. Otherwise the owner moves one step along the cycle
      and no other segment changes. The redraw comes next; when it raises
      on an owner it cannot colour, the tally check never runs and the
      latch stays as it was. */
  function ClickCycle(t: Track, idx: nat): (r: (Track, Option<seq<nat>>))
    requires idx < Max(1, t.segments)
    ensures Valid(t) ==> Valid(r.0)
    ensures r.0.segments == t.segments && r.0.teams == t.teams && |r.0.ownership| == |t.ownership|
    ensures idx >= |t.ownership| ==> r == (t, None)
    ensures idx < |t.ownership| ==>
      r.0.ownership == t.ownership[idx := NextOwner(t.ownership[idx], |t.teams|)]
    ensures idx < |t.ownership| && Drawable(t.(ownership := r.0.ownership)) ==>
      r == MaybeShowTally(t.(ownership := r.0.ownership))
    ensures idx < |t.ownership| && !Drawable(t.(ownership := r.0.ownership)) ==>
      r == (t.(ownership := r.0.ownership), None)
  {
    if idx >= |t.ownership| then (t, None)
    else
      var moved := t.(ownership := t.ownership[idx := NextOwner(t.ownership[idx], |t.teams|)]);
      if Drawable(moved) then MaybeShowTally(moved) else (moved, None)
  }

  /** Two teams and a segment owned by -4, which a save with four teams
      allowed and the drop to two teams left in place: a left click on the
      other segment claims it, but the redraw raises first, so no tally
      pops up although every segment is owned. */
  lemma UndrawableClickSkipsTally(t: Track)
    requires t.segments == 2 && |t.teams| == 2 && t.ownership == [-4, Unowned] && !t.tallyShown
    ensures var r := ClickCycle(t, 1);
      && r.0.ownership == [-4, 0] && Unowned !in r.0.ownership
      && r.1.None? && !r.0.tallyShown
  {
    var r := ClickCycle(t, 1);
    assert r.0.ownership == [-4, 0];
    assert !DrawableOwner(r.0.ownership[0], |t.teams|);
  }

  /** `on_click_unclaim` on segment idx, one of the max(1, segments)
      segments `_segment_at` can hit: it becomes unowned and the latch
      clears; no tally check runs. When the ownership list is too short
      the assignment raises and nothing changes. */
  function ClickUnclaim(t: Track, idx: nat): (r: Track)
    requires idx < Max(1, t.segments)
    ensures Valid(t) ==> Valid(r)
    ensures idx >= |t.ownership| ==> r == t
    ensures idx < |t.ownership| ==> !r.tallyShown && r.ownership == t.ownership[idx := Unowned]
    ensures idx < |t.ownership| ==> r == t.(ownership := r.ownership, tallyShown := false)
  {
    if idx >= |t.ownership| then t
    else t.(ownership := t.ownership[idx := Unowned], tallyShown := false)
  }

  /** A reset with no segments leaves no owners, yet `_segment_at` still
      reports segment 0: both clicks there raise and change nothing. */
  lemma EmptyTrackClicksChangeNothing(t: Track)
    requires t.segments <= 0
    ensures var z := Reset(t);
      && z.ownership == []
      && ClickCycle(z, 0) == (z, None)
      && ClickUnclaim(z, 0) == z
  {
  }

  /** After the latch fired, unclaiming a segment and claiming the whole
      track again makes the tally pop up once more. */
  lemma TallyRearms(t: Track, idx: nat)
    requires Valid(t) && idx < |t.ownership| && t.tallyShown
    ensures var u := ClickUnclaim(t, idx);
      Unowned !in t.ownership ==> MaybeShowTally(u.(ownership := t.ownership)).1.Some?
  {
  }

  // ---------------------------------------------------------------------
  // Winner
  // ---------------------------------------------------------------------

  /** One team holds each of the first max(1, segments) segments. */
  predicate HasWinner(t: Track) {
    var segs := Max(1, t.segments);
    && |t.ownership| >= segs
    && t.ownership[0] != Unowned
    && forall i :: 0 <= i < segs ==> t.ownership[i] == t.ownership[0]
  }

  /** `_check_winner`, scanning the segments left to right. */
  method CheckWinner(t: Track) returns (r: Option<int>)
    ensures r.Some? <==> HasWinner(t)
    ensures r.Some? ==> r.value == t.ownership[0]
  {
    var segs := Max(1, t.segments);
    if |t.ownership| < segs {
      return None;
    }
    var first := t.ownership[0];
    if first == Unowned {
      return None;
    }
    var i := 1;
    while i < segs
      invariant 1 <= i <= segs
      invariant forall j :: 0 <= j < i ==> t.ownership[j] == first
    {
      if t.ownership[i] != first {
        return None;
      }
      i := i + 1;
    }
    return Some(first);
  }

  /** On a valid track a winner is a team, and a track a single team holds
      completely has that team as winner. */
  lemma WinnerIsTeam(t: Track, team: int)
    requires Valid(t) && 0 <= team < |t.teams|
    ensures HasWinner(t) ==> 0 <= t.ownership[0] < |t.teams|
    ensures (forall i :: 0 <= i < |t.ownership| ==> t.ownership[i] == team) ==> HasWinner(t)
  {
  }

  // ---------------------------------------------------------------------
  // Team names
  // ---------------------------------------------------------------------

  /** The name of the team at position i until renamed. */
  function DefaultTeamName(i: nat): string {
    "Team " + NatToDecimal(i + 1)
  }

  /** `save_name` of team row idx: the stripped text, or "Team idx+1" when
      it is blank; the colour and every other team stay. */
  function SaveTeamName(t: Track, idx: nat, txt: string): (r: Track)
    requires idx < |t.teams|
    ensures r == t.(teams := r.teams) && |r.teams| == |t.teams|
    ensures r.teams[idx].color == t.teams[idx].color
    ensures forall j :: 0 <= j < |t.teams| && j != idx ==> r.teams[j] == t.teams[j]
    ensures Strip(txt) != "" ==> r.teams[idx].name == Strip(txt)
    ensures Strip(txt) == "" ==> r.teams[idx].name == DefaultTeamName(idx)
  {
    var name := if Strip(txt) == "" then DefaultTeamName(idx) else Strip(txt);
    t.(teams := t.teams[idx := t.teams[idx].(name := name)])
  }

  /** A saved team name is never blank: stripping it again changes
      nothing and leaves some text. */
  lemma SavedTeamNameNotBlank(t: Track, idx: nat, txt: string)
    requires idx < |t.teams|
    ensures var name := SaveTeamName(t, idx, txt).teams[idx].name;
      Strip(name) == name && name != ""
  {
    var d := DefaultTeamName(idx);
    assert d[0] == 'T';
    assert IsDigit(NatToDecimal(idx + 1)[|NatToDecimal(idx + 1)| - 1]);
    StripUnchanged(d);
    StripUnchanged(Strip(txt));
  }

  // ---------------------------------------------------------------------
  // Labels
  // ---------------------------------------------------------------------

  /** The drawing rule: a label shows on segment i only when the segment is
      owned and its stripped text is neither blank nor the default. */
  predicate LabelVisible(t: Track, i: nat) {
    var owner := if i < |t.ownership| then t.ownership[i] else Unowned;
    var text := if i < |t.labels| then t.labels[i] else DefaultLabel(i);
    owner != Unowned && Strip(text) != "" && Strip(text) != DefaultLabel(i)
  }

  /** `_save_label`: the stripped text, or the default when it is blank. */
  function SaveLabel(t: Track, idx: nat, txt: string): (r: Track)
    ensures r == t.(labels := r.labels)
    ensures idx < |t.labels| ==> r.labels == t.labels[idx := if Strip(txt) == "" then DefaultLabel(idx) else Strip(txt)]
    ensures idx >= |t.labels| ==> r == t
  {
    var saved := if Strip(txt) == "" then DefaultLabel(idx) else Strip(txt);
    if idx < |t.labels| then t.(labels := t.labels[idx := saved]) else t
  }

  /** Stripping twice strips nothing more. */
  lemma StripIdempotent(s: string)
    ensures Strip(Strip(s)) == Strip(s)
  {
    StripUnchanged(Strip(s));
  }

  lemma DefaultLabelStripped(i: nat)
    ensures Strip(DefaultLabel(i)) == DefaultLabel(i)
  {
    var d := DefaultLabel(i);
    assert d[0] == 'O';
    assert IsDigit(NatToDecimal(i + 1)[|NatToDecimal(i + 1)| - 1]);
    StripUnchanged(d);
  }

  /** Saving a blank text hides the label; saving any other text that is
      not the default shows it on an owned segment. */
  lemma SavedLabelVisibility(t: Track, idx: nat, txt: string)
    requires idx < |t.labels| && idx < |t.ownership|
    ensures Strip(txt) == "" ==> !LabelVisible(SaveLabel(t, idx, txt), idx)
    ensures Strip(txt) != "" && Strip(txt) != DefaultLabel(idx) && t.ownership[idx] != Unowned
            ==> LabelVisible(SaveLabel(t, idx, txt), idx)
  {
    DefaultLabelStripped(idx);
    StripIdempotent(txt);
  }

  // ---------------------------------------------------------------------
  // Persistence
  // ---------------------------------------------------------------------

  /** The saved dict of a track; absent keys are None. */
  datatype TrackRecord = TrackRecord(
    title: Option<string>,
    segments: Option<int>,
    inverted: Option<bool>,
    teams: Option<seq<Team>>,
    ownership: Option<seq<int>>,
    labels: Option<seq<string>>,
    notes: Option<string>)

  /** `to_dict`. */
  function ToDict(t: Track): (r: TrackRecord)
    ensures r.segments == Some(t.segments) && r.ownership == Some(t.ownership) && r.labels == Some(t.labels)
    ensures r.teams == Some(t.teams)
  {
    TrackRecord(Some(t.title), Some(t.segments), Some(t.inverted), Some(t.teams), Some(t.ownership),
                Some(t.labels), Some(t.notes))
  }

  /** `(lbls[:segs] + _default_labels(segs))[:segs]`: the labels cut to
      `segs`, and if they are too few, the default list appended from its
      START, so the first padded position reads "Objective 1". */
  function PadFromStart(lbls: seq<string>, segs: int): (r: seq<string>)
    ensures segs >= 0 ==> |r| == segs
    ensures forall i :: 0 <= i < segs ==> r[i] == (if i < |lbls| then lbls[i] else DefaultLabel(i - |lbls|))
  {
    var head := Take(lbls, segs);
    var r := Take(head + DefaultLabels(segs), segs);
    assert forall i :: 0 <= i < segs ==> r[i] == (if i < |lbls| then lbls[i] else DefaultLabel(i - |lbls|)) by {
      forall i | 0 <= i < segs ensures r[i] == (if i < |lbls| then lbls[i] else DefaultLabel(i - |lbls|)) {
        assert r[i] == (head + DefaultLabels(segs))[i];
        if i >= |head| {
          assert (head + DefaultLabels(segs))[i] == DefaultLabels(segs)[i - |head|];
        }
      }
    }
    r
  }

  /** The labels cut to `segs` and padded with each position's own default. */
  function PadInPlace(lbls: seq<string>, segs: int): (r: seq<string>)
    ensures segs >= 0 ==> |r| == segs
    ensures forall i :: 0 <= i < segs ==> r[i] == (if i < |lbls| then lbls[i] else DefaultLabel(i))
  {
    var head := Take(lbls, segs);
    var r := RebuildLabels(head, segs);
    assert forall i :: 0 <= i < segs ==> r[i] == (if i < |lbls| then lbls[i] else DefaultLabel(i)) by {
      forall i | 0 <= i < segs ensures r[i] == (if i < |lbls| then lbls[i] else DefaultLabel(i)) {
        if i < |head| {
          assert r[i] == head[i];
        }
      }
    }
    r
  }

  /** The saved labels cut or padded to `segs`: as written, padded from
      "Objective 1" on; corrected, each padded position gets its own default. */
  function CutLabels(lbls: seq<string>, segs: int, fixed: bool): (r: seq<string>)
    ensures segs >= 0 ==> |r| == segs
    ensures forall i :: 0 <= i < segs && i < |lbls| ==> r[i] == lbls[i]
    ensures fixed ==> forall i :: |lbls| <= i < segs ==> r[i] == DefaultLabel(i)
    ensures !fixed ==> forall i :: |lbls| <= i < segs ==> r[i] == DefaultLabel(i - |lbls|)
  {
    if fixed then PadInPlace(lbls, segs) else PadFromStart(lbls, segs)
  }

  /** `for i in range(segs)`: blank labels below `segs` replaced by the
      default of their position; nothing is replaced when `segs <= 0`. */
  function BlankToDefault(lbls: seq<string>, segs: int): (r: seq<string>)
    ensures |r| == |lbls|
    ensures forall i :: 0 <= i < |r| ==>
      r[i] == (if i < segs && Strip(lbls[i]) == "" then DefaultLabel(i) else lbls[i])
  {
    seq(|lbls|, i requires 0 <= i < |lbls| => if i < segs && Strip(lbls[i]) == "" then DefaultLabel(i) else lbls[i])
  }

  /** The label list `from_dict` keeps: cut or padded to `segs`, blank
      entries replaced by their default. A negative `segs` slices the saved
      list from the end three times over (twice in the load, once when the
      label rows are rebuilt) and replaces no blank. */
  function LoadLabels(saved: Option<seq<string>>, segs: int, fixed: bool): (r: seq<string>)
    ensures segs >= 0 ==> |r| == segs
    ensures segs >= 0 ==> forall i :: 0 <= i < segs ==>
      var cut := CutLabels(saved.GetOr(DefaultLabels(segs)), segs, fixed);
      r[i] == (if Strip(cut[i]) == "" then DefaultLabel(i) else cut[i])
    ensures segs < 0 ==> |r| == Max(0, |saved.GetOr([])| + 3 * segs)
    ensures segs < 0 ==> forall i :: 0 <= i < |r| ==> r[i] == saved.GetOr([])[i]
  {
    var filled := BlankToDefault(CutLabels(saved.GetOr(DefaultLabels(segs)), segs, fixed), segs);
    var r := RebuildLabels(filled, segs);
    assert segs >= 0 ==> r == filled;
    r
  }

  /** The ownership expression of `from_dict` as written: the saved list
      cut to `segs`, plus one unowned entry for each segment the saved list
      lacks, where a missing key counts as an empty list after the default
      `[-1] * segs` has already been used in the first part. */
  function LoadOwnershipAsWritten(saved: Option<seq<int>>, segs: int): (r: seq<int>)
  {
    Take(saved.GetOr(Repeat(Unowned, segs)), segs) + Repeat(Unowned, Max(0, segs - |saved.GetOr([])|))
  }

  /** The ownership `from_dict` evidently intends: the saved list cut or padded
      with unowned entries to exactly `segs`. */
  function LoadOwnership(saved: Option<seq<int>>, segs: int): (r: seq<int>)
    ensures segs >= 0 ==> |r| == segs
    ensures forall i :: 0 <= i < segs ==>
      r[i] == (if saved.Some? && i < |saved.value| then saved.value[i] else Unowned)
  {
    var own := saved.GetOr([]);
    Take(own, segs) + Repeat(Unowned, Max(0, segs - |own|))
  }

  /** The two agree whenever the key is present. */
  lemma LoadOwnershipAgrees(saved: seq<int>, segs: int)
    ensures LoadOwnershipAsWritten(Some(saved), segs) == LoadOwnership(Some(saved), segs)
  {
  }

  /** As written, `from_dict` on a save without "ownership" gives twice as
      many owners as segments, all unowned. */
  lemma MissingOwnershipDoubles(segs: int)
    requires segs >= 1
    ensures |LoadOwnershipAsWritten(None, segs)| == 2 * segs
    ensures |LoadOwnership(None, segs)| == segs
  {
  }

  /** `from_dict` with a loader for the ownership list: default segment
      count 6, current teams kept when none are saved, latch cleared. */
  function Load(cur: Track, data: TrackRecord, fixed: bool): (r: Track)
    ensures r.segments == data.segments.GetOr(6)
    ensures r.teams == data.teams.GetOr(cur.teams) && !r.tallyShown
    ensures r.labels == LoadLabels(data.labels, r.segments, fixed)
  {
    var segs := data.segments.GetOr(6);
    var own := if fixed then LoadOwnership(data.ownership, segs) else LoadOwnershipAsWritten(data.ownership, segs);
    Track(data.title.GetOr("Tug-of-War Clock"), segs, data.inverted.GetOr(false), data.teams.GetOr(cur.teams),
          own, LoadLabels(data.labels, segs, fixed), false, data.notes.GetOr(""))
  }

  /** `from_dict` as written. */
  function FromDictAsWritten(cur: Track, data: TrackRecord): (r: Track)
    ensures r.ownership == LoadOwnershipAsWritten(data.ownership, data.segments.GetOr(6))
  {
    Load(cur, data, false)
  }

  /** `from_dict` with the ownership list sized to the segments. */
  function FromDict(cur: Track, data: TrackRecord): (r: Track)
    ensures r.ownership == LoadOwnership(data.ownership, data.segments.GetOr(6))
    ensures r.segments >= 1 && (forall i :: 0 <= i < |r.ownership| ==> Unowned <= r.ownership[i] < |r.teams|)
            ==> Valid(r)
  {
    Load(cur, data, true)
  }

  /** The entries past the visible segments after `from_dict` on a save
      without an "ownership" key: `segs` unowned ones as written, none
      when corrected. */
  lemma MissingOwnershipTail(segs: int)
    requires segs >= 1
    ensures LoadOwnershipAsWritten(None, segs)[segs..] == Repeat(Unowned, segs)
    ensures LoadOwnership(None, segs)[segs..] == []
  {
    var own := LoadOwnershipAsWritten(None, segs);
    assert Take(Repeat(Unowned, segs), segs) == Repeat(Unowned, segs);
    assert own[segs..] == Repeat(Unowned, segs);
  }

  /** A run of left clicks on the given segments, one after another, and
      whether any of them popped up the tally. */
  function Clicks(t: Track, idxs: seq<nat>): (r: (Track, bool))
    requires forall k :: 0 <= k < |idxs| ==> idxs[k] < Max(1, t.segments)
    ensures |r.0.ownership| == |t.ownership|
    decreases |idxs|
  {
    if |idxs| == 0 then (t, false)
    else
      var first := ClickCycle(t, idxs[0]);
      var rest := Clicks(first.0, idxs[1..]);
      (rest.0, first.1.Some? || rest.1)
  }

  /** The segments lo, lo+1, ..., hi-1, clicked in that order. */
  function Span(lo: nat, hi: nat): (r: seq<nat>)
    ensures |r| == if lo <= hi then hi - lo else 0
    ensures forall k :: 0 <= k < |r| ==> r[k] == lo + k
  {
    if lo >= hi then [] else seq(hi - lo, k requires 0 <= k < hi - lo => lo + k)
  }

  /** Clicks on the first n segments never reach an unowned entry beyond
      them, so while there is one no click pops up the tally. */
  lemma {:induction false} HiddenUnownedSilences(t: Track, idxs: seq<nat>, n: nat)
    requires n <= |t.ownership| && n <= Max(1, t.segments) && Unowned in t.ownership[n..]
    requires forall k :: 0 <= k < |idxs| ==> idxs[k] < n
    ensures !Clicks(t, idxs).1
    decreases |idxs|
  {
    if |idxs| > 0 {
      var j :| n <= j < |t.ownership| && t.ownership[j] == Unowned;
      var first := ClickCycle(t, idxs[0]);
      assert first.0.ownership[j] == Unowned;
      assert first.1 == None;
      assert first.0.ownership[n..] == t.ownership[n..];
      HiddenUnownedSilences(first.0, idxs[1..], n);
    }
  }

  /** On a track whose first k segments belong to team 0 and the rest are
      unowned, claiming the remaining segments left to right pops up the
      tally (on the last click). */
  lemma {:induction false} ClaimInOrder(t: Track, k: nat)
    requires k < |t.ownership| <= Max(1, t.segments) && |t.teams| >= 1 && !t.tallyShown
    requires forall i :: 0 <= i < k ==> t.ownership[i] == 0
    requires forall i :: k <= i < |t.ownership| ==> t.ownership[i] == Unowned
    ensures Clicks(t, Span(k, |t.ownership|)).1
    decreases |t.ownership| - k
  {
    var n := |t.ownership|;
    var first := ClickCycle(t, k);
    assert first.0.ownership[k] == 0;
    assert Span(k, n)[1..] == Span(k + 1, n);
    if k + 1 < n {
      assert first.0.ownership[k + 1] == Unowned;
      ClaimInOrder(first.0, k + 1);
    } else {
      assert Unowned !in first.0.ownership by {
        forall i | 0 <= i < n ensures first.0.ownership[i] == 0 {}
      }
      assert first.1.Some?;
    }
  }

  /** As written, a `from_dict` call on a save without "ownership" leaves
      a track that never shows its tally, whatever left clicks follow on
      its segments: the hidden extra entries stay unowned. The corrected
      `from_dict` shows it once every segment has been claimed, left to
      right. Nothing in v1 calls `from_dict`, so the defect is latent: a
      session load goes through the constructor (SessionLoadReports). */
  lemma MissingOwnershipSilencesTally(cur: Track, data: TrackRecord, idxs: seq<nat>)
    requires data.ownership.None? && data.segments.GetOr(6) >= 1
    requires forall k :: 0 <= k < |idxs| ==> idxs[k] < data.segments.GetOr(6)
    ensures !Clicks(FromDictAsWritten(cur, data), idxs).1
    ensures |data.teams.GetOr(cur.teams)| >= 1 ==> Clicks(FromDict(cur, data), Span(0, data.segments.GetOr(6))).1
  {
    var segs := data.segments.GetOr(6);
    var w := FromDictAsWritten(cur, data);
    assert w == Load(cur, data, false);
    WrittenLoadSilences(w, segs, idxs);
    if |data.teams.GetOr(cur.teams)| >= 1 {
      var f := FromDict(cur, data);
      assert f == Load(cur, data, true);
      FixedLoadReports(f, segs);
    }
  }

  /** A session load hands the saved entries to the constructor. Without
      "ownership" that gives one unowned entry per segment, and claiming
      them left to right pops up the tally. */
  lemma SessionLoadReports(title: string, segs: int, teams: Option<seq<Team>>,
                           labels: Option<seq<string>>, inverted: bool, notes: string)
    requires segs >= 1 && (teams.None? || |teams.value| >= 1)
    ensures var t := NewTrack(title, segs, if teams.Some? && |teams.value| > 0 then |teams.value| else 2,
                              teams, None, labels, inverted, notes);
      && t.Some?
      && t.value.ownership == Repeat(Unowned, segs)
      && Clicks(t.value, Span(0, segs)).1
  {
    var n := if teams.Some? && |teams.value| > 0 then |teams.value| else 2;
    var t := NewTrack(title, segs, n, teams, None, labels, inverted, notes).value;
    ClaimInOrder(t, 0);
  }

  lemma WrittenLoadSilences(w: Track, segs: int, idxs: seq<nat>)
    requires segs >= 1 && w.segments == segs && w.ownership == LoadOwnershipAsWritten(None, segs)
    requires forall k :: 0 <= k < |idxs| ==> idxs[k] < segs
    ensures !Clicks(w, idxs).1
  {
    MissingOwnershipTail(segs);
    assert w.ownership[segs..][0] == Unowned;
    HiddenUnownedSilences(w, idxs, segs);
  }

  lemma FixedLoadReports(f: Track, segs: int)
    requires segs >= 1 && f.segments == segs && f.ownership == LoadOwnership(None, segs) && |f.teams| >= 1 && !f.tallyShown
    ensures Clicks(f, Span(0, segs)).1
  {
    ClaimInOrder(f, 0);
  }

  /** Different positions have different default labels. */
  lemma DefaultLabelInjective(i: nat, j: nat)
    requires i != j
    ensures DefaultLabel(i) != DefaultLabel(j)
  {
    if DefaultLabel(i) == DefaultLabel(j) {
      var p := "Objective ";
      assert NatToDecimal(i + 1) == DefaultLabel(i)[|p|..];
      assert NatToDecimal(j + 1) == DefaultLabel(j)[|p|..];
      DecimalRoundTrip(i + 1);
      DecimalRoundTrip(j + 1);
    }
  }

  /** As written, `from_dict` on a save with fewer labels than segments
      pads the missing positions from "Objective 1" again, so the first
      padded segment repeats the first default name instead of carrying its
      own; the corrected `from_dict` pads with each position's default, as
      a resize does. */
  lemma ShortLabelsRestartNumbering(cur: Track, data: TrackRecord)
    requires data.labels.Some? && 1 <= |data.labels.value| < data.segments.GetOr(6)
    ensures var m := |data.labels.value|;
      FromDictAsWritten(cur, data).labels[m] == DefaultLabel(0) && DefaultLabel(0) != DefaultLabel(m)
    ensures var m := |data.labels.value|;
      forall i :: m <= i < data.segments.GetOr(6) ==> FromDict(cur, data).labels[i] == DefaultLabel(i)
  {
    var m := |data.labels.value|;
    var segs := data.segments.GetOr(6);
    DefaultLabelStripped(0);
    DefaultLabelInjective(0, m);
    forall i | m <= i < segs ensures FromDict(cur, data).labels[i] == DefaultLabel(i) {
      DefaultLabelStripped(i);
    }
  }

  /** Saving a valid track whose labels are all non-blank and passing the
      save to `from_dict` gives the same track with the latch cleared. */
  lemma RoundTrip(cur: Track, t: Track)
    requires Valid(t) && forall i :: 0 <= i < |t.labels| ==> Strip(t.labels[i]) != ""
    ensures FromDict(cur, ToDict(t)) == t.(tallyShown := false)
    ensures FromDictAsWritten(cur, ToDict(t)) == t.(tallyShown := false)
  {
    var r := FromDict(cur, ToDict(t));
    assert r.ownership == t.ownership;
    assert r.labels == t.labels;
    LoadOwnershipAgrees(t.ownership, t.segments);
  }
}
